=== FILE: README.md ===
# Seniors and helpers: a Dafny model of the task logic

The application lets seniors ("elderly" users) post requests for help and
lets volunteer helpers pick them up. A request is a task that can be
groceries, cooking, gardening, technology or accompaniment. Each task carries
keywords, a location and a date. Helpers accept and complete tasks and earn
points that raise their level. Both kinds of user receive notifications.

This project models, as pure Dafny functions over immutable data, the logic
that decides what happens in that application:

- the offline task store in browser storage: the task list, the global
  points counter and the per-helper counters (`LocalTaskStorage`);
- the task card: which button each role sees, the status each button
  requests, the card's own side effects and the status labels (`TaskCard`);
- the two pages that apply a status change:
  - the accepted-tasks page, working on browser storage (`AcceptedTasks`);
  - the dashboard, working on database rows, with realtime payloads and
    per-status counters (`Dashboard`);
- the task list: role and tab filtering, the type filter, what is rendered
  (`TaskList`), and the proximity sort (`ProximitySort`). The sort reads
  coordinates back out of the location text with a regular expression
  (`Coordinates`);
- the request form: city search, keyword selection, the `Name (lat,lon)`
  location format and submission (`TaskRequestForm`);
- the helper's level card: levels, points to the next level and the
  progress bar (`HelperPointsCard`);
- the notification bell and its unread badge (`Notifications`);
- the database row adapter and the pure parts of the database helpers
  (`TaskAdapter`, `SupabaseRpc`);
- the registration rules (`Register`) and the helper age gate on the welcome
  screen (`UserTypeSelection`).

Shared modules:

- `Types` holds the status, role and task-type enumerations and the task
  record. The status has five values: `waiting_approval` is read by the task
  list although the declared TypeScript union lists four.
- `Wrappers` holds `Option` and `Result`.
- `Seqs` holds the order-preserving `Filter` and `Map` that model
  `Array.prototype.filter` and `map`.
- `Strings` holds the JavaScript whitespace set, `trim`, `toLowerCase` and
  `includes`.
- `JsNumber` holds `Number()` (the StringNumericLiteral grammar of section
  7.1.4.1.1 of ECMA-262, on exact rationals), `parseInt` and the decimal
  `toString` of integers.

A task in memory keeps both spellings of three columns. The camelCase
properties are what the interface reads. The snake_case columns
(`requested_by`, `requested_date`, `helper_assigned`) stay on the object,
because the dashboard keeps raw rows and the adapter spreads the row into
the task. In the model the snake_case columns are the `db…` fields of `Task`.

Everything that leaves the program becomes a parameter:

- a database query result is a value, and `None` or a `writeSucceeded` flag
  stands for an error;
- the fresh `uuidv4` id, the current time and the answer to `prompt` are
  parameters;
- the great-circle distance is a caller-supplied function;
- whether an e-mail address is well formed is a caller-supplied predicate.

Where the code is at odds with itself or with what it evidently means, the
model follows what the code does:

- The card thanks a senior for confirming that a task is complete
  (`TaskCard.tsx:70-74`), and the task list has a tab for tasks awaiting
  confirmation (`TaskList.tsx:222`). No button leads a senior to either: the
  card offers a senior nothing on an assigned task, and nothing ever writes
  `waiting_approval`. The model's reference lifecycle
  (`TaskCard.LifecycleAllows`) includes a senior's confirmation of
  completion, and
  `TaskCard.SeniorCannotCloseAssignedTask` states that the card does not
  offer it.
- The accepted-tasks page never records which helper accepted a task
  (`AcceptedTasks.AcceptClick`).
- The dashboard passes database rows to the task list without adapting them,
  so the list compares `requestedBy`, which is absent on a raw row.
- The dashboard's local update records the helper under `helperAssigned`
  only, so the row's `helper_assigned` stays stale. A helper who completes a
  task before a realtime refresh sends a write that clears the helper
  (`Dashboard.CompleteBeforeRefreshClearsHelper`).
- `supabaseRPC.ts` imports `adaptTaskFromDb` (line 4) and calls
  `adaptTaskToDb` (line 136). Neither name exists: the adapter exports
  `adaptTaskFromDB`. `getTasksByUser` is modelled with the adapter it
  evidently means.
- `TaskRequestForm.tsx` imports `createTask` from `localTaskStorage.ts`
  (line 20), which exports only `createLocalTask`. The local fallback is
  modelled with `createLocalTask`, which is evidently meant. Because the
  remote `createTask` calls the missing `adaptTaskToDb`, it throws on every
  call. The model keeps the remote outcome as a parameter instead of fixing
  it to "threw".
- `TaskList.tsx:84-85` reads each captured coordinate with `parseFloat`; the
  model reads them with `Number`. On the language the pattern captures,
  `-?\d+\.?\d*`, the two agree, so no distance changes.

## Model

| member | source | states |
|---|---|---|
| `LocalTaskStorage.GetUserTasks` | src/utils/localTaskStorage.ts:15-23 | a task is returned iff it is stored and its `requestedBy` (or `helperAssigned`) is the user; each appears as often as stored, in stored order; a task without a helper never matches |
| `LocalTaskStorage.GetAvailableTasks` | src/utils/localTaskStorage.ts:26-29 | exactly the pending stored tasks, with their multiplicity, in stored order |
| `LocalTaskStorage.FindIndex` | src/utils/localTaskStorage.ts:49 | the position found holds the id and no earlier position does; `None` exactly when no task has the id |
| `LocalTaskStorage.CreateLocalTask` | src/utils/localTaskStorage.ts:32-44 | the list grows by one task at the end, which is the given fields under the fresh id; earlier tasks and both point stores are unchanged; the fresh id is returned |
| `LocalTaskStorage.CreatedTaskIsFound` | src/utils/localTaskStorage.ts:32-44 | a task created under an id no stored task has is found again at the last position |
| `LocalTaskStorage.CreatedPendingTaskIsAvailable` | src/utils/localTaskStorage.ts:26-44 | creating a pending task appends exactly that task to the available list |
| `LocalTaskStorage.ApplyPatch` | src/utils/localTaskStorage.ts:53 | the result reflects every property the patch names; a task that already reflects the patch, the empty patch in particular, comes back unchanged; the snake_case columns and the notified flag are kept |
| `LocalTaskStorage.ApplyPatchLaws` | src/utils/localTaskStorage.ts:53 | the empty patch is the identity, and applying a patch twice equals applying it once |
| `LocalTaskStorage.UpdateLocalTask` | src/utils/localTaskStorage.ts:47-57 | returns false iff no stored task has the id, and then the store is unchanged; otherwise only the first task with the id is replaced by itself patched; the length and the point stores are unchanged |
| `LocalTaskStorage.GetHelperPoints` | src/utils/localTaskStorage.ts:68-70 | a helper with a stored counter reads that counter, a helper never credited reads 0, since a missing item falls back to the text "0" |
| `LocalTaskStorage.UpdateHelperPoints` | src/utils/localTaskStorage.ts:60-65 | stores and returns the old counter (0 when missing) plus the added points; every other helper's counter is untouched |
| `LocalTaskStorage.ReadAfterUpdate` | src/utils/localTaskStorage.ts:60-70 | reading a helper's points right after an update gives what the update returned; another helper reads what they read before |
| `LocalTaskStorage.UpdatesCompose` | src/utils/localTaskStorage.ts:60-65 | two updates of one helper equal one update by the sum; updates of two different helpers commute |
| `TaskCard.RequestedStatus` | src/components/TaskCard.tsx:21-58 | each button requests a different status, none of them pending or awaiting approval; accepting is the only non-terminal one |
| `TaskCard.OfferedAction` | src/components/TaskCard.tsx:132-192 | a completed or cancelled task offers nothing; "accept" iff helper on pending, "cancel" iff senior on pending, "complete" iff helper on assigned; nothing otherwise |
| `TaskCard.OfferedActionsAreAllowed` | src/components/TaskCard.tsx:180-192 | every offered button requests a transition of the reference lifecycle (a helper takes a pending task, a senior cancels a pending task, an assigned task is completed), and never from a terminal status |
| `TaskCard.SeniorCannotCloseAssignedTask` | src/components/TaskCard.tsx:184-192 | the reference lifecycle lets a senior complete an assigned task, which the senior branch of `handleComplete` (70-74) handles, and never cancel one, since `handleCancel` is reached only from a pending card (184-185); the card offers the senior nothing on an assigned task |
| `TaskCard.NothingWhileWaitingApproval` | src/components/TaskCard.tsx:180-192 | no role is offered any button on a task awaiting approval |
| `TaskCard.CompleteEffect` | src/components/TaskCard.tsx:56-77 | as helper, the global counter (missing read as 0) grows by exactly 50; as senior, storage is unchanged; the task list and per-helper counters are never touched |
| `TaskCard.AcceptEffect` | src/components/TaskCard.tsx:34-41 | the first stored task with the card's id gets `notificationSent` and nothing else changes; with no such task the store is unchanged |
| `TaskCard.AcceptEffectIdempotent` | src/components/TaskCard.tsx:36-41 | running the accept side effect twice equals running it once |
| `TaskCard.StatusText` | src/components/TaskCard.tsx:89-97 | the four known statuses get French labels that differ from their stored names; a string is shown verbatim exactly when it is none of the four |
| `TaskCard.StatusTextOfStatuses` | src/components/TaskCard.tsx:89-97 | every status except `waiting_approval` is shown under a label distinct from its stored name; `waiting_approval` is shown raw; distinct statuses get distinct labels |
| `AcceptedTasks.Load` | src/pages/AcceptedTasks.tsx:14-28 | the role is senior iff `elderly` is stored, helper otherwise; the list is the stored one |
| `AcceptedTasks.HandleTaskUpdate` | src/pages/AcceptedTasks.tsx:30-63 | tasks with the id take the status and nothing else changes; storage receives the new list; a helper completing a task gains exactly 50 on the global counter; any other call leaves the counters alone |
| `AcceptedTasks.HandleTaskUpdateTasksIdempotent` | src/pages/AcceptedTasks.tsx:31-33 | repeating an update leaves the task list as the first update left it |
| `AcceptedTasks.TerminalTaskIsOverwritten` | src/pages/AcceptedTasks.tsx:30-33 | there is no guard: a completed or cancelled task takes whatever status is requested |
| `AcceptedTasks.AcceptClick` | src/pages/AcceptedTasks.tsx:30-38 | accepting on this page sets `assigned` but leaves the helper unset, marks the first stored task as notified, and leaves the counters alone |
| `AcceptedTasks.CompleteClickAsWritten` | src/pages/AcceptedTasks.tsx:40-45 | as written, a helper's completion click raises the global counter by 100: 50 from the page handler and 50 from the card |
| `AcceptedTasks.CompleteClickAsWrittenCreditsTwice` | src/pages/AcceptedTasks.tsx:40-45 | a helper with no points who completes one task holds 100 points |
| `AcceptedTasks.CompleteClick` | src/pages/AcceptedTasks.tsx:30-56 | corrected: the counter grows by exactly 50 for a helper and not at all for a senior; only tasks with the id become completed; storage holds the list shown |
| `Dashboard.ApplyPayload` | src/pages/Dashboard.tsx:115-131 | an insert is prepended for a helper, and for a senior only when `requested_by` is theirs; an update replaces every task with its id and keeps the length; a delete removes exactly the tasks with the id and keeps the rest in order |
| `Dashboard.InsertThenDelete` | src/pages/Dashboard.tsx:117-131 | deleting a row just inserted under a fresh id restores the list |
| `Dashboard.UpdateIdempotent` | src/pages/Dashboard.tsx:121-126 | replaying an update payload changes nothing |
| `Dashboard.HandleTaskUpdate` | src/pages/Dashboard.tsx:141-190 | an unknown id does nothing; otherwise the write carries the status, and as helper accepting the acting user, else the first row's `helper_assigned`; only a successful write changes the list, and then only the rows with the id |
| `Dashboard.CompleteBeforeRefreshClearsHelper` | src/pages/Dashboard.tsx:148-168 | after accepting a row with no helper, completing it before a refresh sends a write with no helper |
| `Dashboard.CountTasksByStatus` | src/pages/Dashboard.tsx:192-194 | a helper's tile counts every task with the status, a senior's only their own, and no count exceeds the number of tasks |
| `Dashboard.CountTasksByStatusMeaning` | src/pages/Dashboard.tsx:192-194 | a helper counts every task with the status; a senior counts only their own |
| `Dashboard.HelperCountsPartition` | src/pages/Dashboard.tsx:192-194 | a helper's five per-status counts add up to the number of tasks |
| `Dashboard.SeniorCountAtMostHelperCount` | src/pages/Dashboard.tsx:192-194 | a senior's count never exceeds a helper's for the same status |
| `TaskList.RelevantTasks` | src/components/TaskList.tsx:36-38 | the relevant tasks are a subsequence of the input |
| `TaskList.AvailableTasks` | src/components/TaskList.tsx:41-43 | every available task is an input task that is neither completed nor cancelled, and the available list keeps input order (it is a subsequence of the input) |
| `TaskList.AvailableTasksMeaning` | src/components/TaskList.tsx:32-43 | a helper sees exactly the open tasks; a senior sees exactly their own open tasks, where an absent `requestedBy` never matches |
| `TaskList.WithStatus` | src/components/TaskList.tsx:46-48 | each status list is a subsequence holding exactly the tasks with that status |
| `TaskList.AvailablePartition` | src/components/TaskList.tsx:41-48 | the pending, waiting and assigned lists split the available list: their lengths add up to its length |
| `TaskList.FilterByType` | src/components/TaskList.tsx:111-121 | with a filter, exactly the tasks of that type, with their multiplicity, in input order; with none, the input itself |
| `TaskList.TabStatus` | src/components/TaskList.tsx:134-140 | "available" shows pending, "waiting" waiting-approval, any other tab assigned; never a terminal status |
| `TaskList.DisplayedTasks` | src/components/TaskList.tsx:124-142 | every displayed task is a stored, open task of the filtered type, and for a helper of the active tab's status; which tasks, in what order and how often is stated by `DisplayedTasksMeaning`, `DisplayedTasksInOrder` and `DisplayedTasksPermutation` |
| `TaskList.DisplayedTasksMeaning` | src/components/TaskList.tsx:124-142 | a senior is shown exactly their open tasks of the filtered type; a helper exactly the tasks of the tab's status and filtered type |
| `TaskList.DisplayedTasksInOrder` | src/components/TaskList.tsx:32-142 | unless a helper sorts by proximity, the displayed list is the input filtered by one visibility test (a senior's own open tasks, or the tab's status for a helper, and the type filter): the same tasks, as often, in input order |
| `TaskList.DisplayedTasksPermutation` | src/components/TaskList.tsx:32-142 | sorted or not, the displayed list holds exactly the shown tasks, each as often as in the input |
| `TaskList.Render` | src/components/TaskList.tsx:144-236 | the "nothing available" message iff no task is available; the empty-filter message iff some are available but none is displayed; otherwise non-empty cards of the displayed tasks |
| `ProximitySort.LeTotalPreorder` | src/components/TaskList.tsx:101-103 | the order the comparator induces is reflexive, total and transitive, with `Infinity` after every finite distance |
| `ProximitySort.TaskDistance` | src/components/TaskList.tsx:77-98 | a location without the coordinate pattern gets distance `Infinity` |
| `ProximitySort.SortBy` | src/components/TaskList.tsx:101-103 | the sort returns a permutation of its input ordered by the key |
| `ProximitySort.InsertStable` | src/components/TaskList.tsx:101-103 | inserting a task keeps the order of every class of tasks with equal keys and places the new task after the tasks it ties with |
| `ProximitySort.SortByStable` | src/components/TaskList.tsx:101-103 | the sort is stable, as `Array.prototype.sort` is: for every key value, the tasks with that key appear in the same order as in the input |
| `ProximitySort.SortByProximityAsWritten` | src/components/TaskList.tsx:101-103 | as written, the result is a permutation ordered by the distance with every falsy distance read as `Infinity`, so distance 0 sorts as `Infinity`; tasks with the same key, among them all tasks at distance 0 or without coordinates, keep their input order |
| `ProximitySort.AsWrittenListsNearestLast` | src/components/TaskList.tsx:101-103 | with one task at distance 0 and one at 5 km, the nearer one is listed last |
| `ProximitySort.SortByProximity` | src/components/TaskList.tsx:101-103 | corrected: a permutation of the input in non-decreasing distance, tasks at equal distance in their input order |
| `ProximitySort.NearestFirst` | src/components/TaskList.tsx:101-103 | after the corrected sort, tasks without coordinates come after every task with them, and known distances never decrease |
| `ProximitySort.CorrectedListsNearestFirst` | src/components/TaskList.tsx:101-103 | with one task at distance 0 and one at 5 km, the nearer one is listed first |
| `ProximitySort.SortTasksByProximity` | src/components/TaskList.tsx:51-108 | the input is returned unchanged when the toggle is off or no position is stored; otherwise it is a permutation ordered by distance with a distance of 0 read as `Infinity`, as the comparator does, and tasks with the same key keep their input order |
| `ProximitySort.SortTasksByProximityCorrected` | src/components/TaskList.tsx:51-108 | corrected: unchanged when the toggle is off or no position is stored; otherwise a permutation in non-decreasing distance, tasks without coordinates last, and tasks at equal distance in their input order |
| `Coordinates.ParseCoordinates` | src/components/TaskList.tsx:81 | the result is `None` exactly when the pattern matches at no position; otherwise it is the two groups of the leftmost match, each in the language `-?\d+\.?\d*`, and `(`, group, `,`, group, `)` occurs in the location |
| `Coordinates.FirstMatchSound` | src/components/TaskList.tsx:81 | the leftmost match found from any position has that shape and occurs in the text |
| `Coordinates.FirstMatchLeftmost` | src/components/TaskList.tsx:81 | the scan from a position finds a match iff the pattern matches at that position or a later one, and then it is the leftmost such match |
| `Coordinates.NumberEndSound` | src/components/TaskList.tsx:81 | the greedy match of one group is a token of the group's language |
| `Coordinates.FormatLocation` | src/components/TaskRequestForm.tsx:97 | the location text is the city name, then ` (`, the two coordinate texts and `)`: exactly four characters are added; `ParseFormatted` reads the coordinates back |
| `Coordinates.ParseFormatted` | src/components/TaskRequestForm.tsx:97 | the location `Name (lat,lon)` parses back to exactly the two coordinate texts, when the name holds no `(` and both are tokens |
| `TaskRequestForm.HandleLocationSearch` | src/components/TaskRequestForm.tsx:77-94 | a term under 2 characters clears and hides the suggestions; otherwise they are shown and are the first five matching cities in list order (all of them when at most five match), each matching case-insensitively; nothing else changes |
| `TaskRequestForm.SelectCity` | src/components/TaskRequestForm.tsx:96-100 | the search box shows the city name, the suggestions close, and only the location otherwise changes |
| `TaskRequestForm.SelectedCityCoordinates` | src/components/TaskRequestForm.tsx:97 | the task list reads back exactly the coordinates of the selected city |
| `TaskRequestForm.ToggleKeyword` | src/components/TaskRequestForm.tsx:102-108 | a selected keyword is removed with all its copies, every other keyword keeps its order and its number of copies; an unselected one is appended |
| `TaskRequestForm.ToggleTwice` | src/components/TaskRequestForm.tsx:102-108 | toggling an unselected keyword twice restores the selection |
| `TaskRequestForm.ToggleKeepsDistinct` | src/components/TaskRequestForm.tsx:102-108 | toggling keeps a duplicate-free selection duplicate-free |
| `TaskRequestForm.AddCustomKeyword` | src/components/TaskRequestForm.tsx:110-118 | blank input changes nothing; otherwise the trimmed entry is appended only if absent, and the input is cleared |
| `TaskRequestForm.AddCustomKeywordTwice` | src/components/TaskRequestForm.tsx:110-118 | entering the same keyword again adds nothing, and the selection stays duplicate-free |
| `TaskRequestForm.NewTask` | src/components/TaskRequestForm.tsx:163-171 | the built task is pending, requested by the user under their name, with the form's type, keywords, location and date, and no helper |
| `TaskRequestForm.HandleSubmit` | src/components/TaskRequestForm.tsx:120-215 | refusals in order (not signed in, no keyword, no location, no date); success iff all checks pass and either the remote insert returned a task or the local id is non-empty; the local fallback stores the built task under the fresh id |
| `TaskRequestForm.SubmittedRequestIsListed` | src/components/TaskRequestForm.tsx:193-204 | a request saved locally is appended to the pending tasks and is among the senior's own open tasks in the list |
| `HelperPointsCard.LevelFromPoints` | src/components/HelperPointsCard.tsx:15-22 | the level is always between 1 and 5 |
| `HelperPointsCard.NextLevelPoints` | src/components/HelperPointsCard.tsx:24-33 | levels 1 to 4 give the threshold that opens the next level (the same 50, 100, 250, 500 that `getLevelFromPoints` uses); every other argument, 0 and 5 included, falls to the default 999 |
| `HelperPointsCard.LevelMeaning` | src/components/HelperPointsCard.tsx:15-33 | the level is one plus the number of thresholds 50, 100, 250, 500 reached; below level 5 the points are under the next threshold, and above level 1 at least the previous one |
| `HelperPointsCard.LevelMonotone` | src/components/HelperPointsCard.tsx:15-22 | more points never give a lower level |
| `HelperPointsCard.Receive` | src/components/HelperPointsCard.tsx:49-53 | a received total yields a consistent state: the level of the total and the threshold of the next level |
| `HelperPointsCard.RemainingPointsPositive` | src/components/HelperPointsCard.tsx:144 | in every state the card can be in, the initial one included, the points still missing below level 5 are positive |
| `HelperPointsCard.ProgressAsWritten` | src/components/HelperPointsCard.tsx:101-103 | as written: level 5 shows 100 |
| `HelperPointsCard.ProgressAsWrittenAtLevelOne` | src/components/HelperPointsCard.tsx:101-103 | as written, level 1 shows 105% at 0 points, 100% at 49 points, and 111% before any total arrives |
| `HelperPointsCard.Progress` | src/components/HelperPointsCard.tsx:101-103 | corrected: level 5 shows 100, and any consistent state with non-negative points shows between 0 and 100 |
| `HelperPointsCard.ProgressMonotone` | src/components/HelperPointsCard.tsx:101-103 | within one level, more points never shrink the corrected bar |
| `HelperPointsCard.ProgressAtLevelOne` | src/components/HelperPointsCard.tsx:101-103 | corrected: at level 1 each point fills 2% of the bar |
| `HelperPointsCard.RoundDivNearest` | src/components/HelperPointsCard.tsx:102 | `Math.round(a / b)` lies within half a unit of `a / b` |
| `Notifications.UnreadCount` | src/components/Notifications.tsx:29 | the number of unread notifications, at most the list length, and 0 exactly when every notification is read |
| `Notifications.Fetch` | src/components/Notifications.tsx:15-36 | without a stored user id (an empty one is falsy too) or on error nothing changes; otherwise the list is the fetched rows and the badge counts their unread ones |
| `Notifications.MarkRead` | src/components/Notifications.tsx:66-70 | only notifications with the id become read; the others are unchanged |
| `Notifications.UnreadAfterMarking` | src/components/Notifications.tsx:66-71 | marking an id read lowers the true unread count by exactly its unread copies |
| `Notifications.MarkAsReadAsWritten` | src/components/Notifications.tsx:57-75 | as written: a failed write changes nothing; a successful one marks the id read and lowers the badge by one, not below 0, whether or not the item was unread |
| `Notifications.MarkAsReadAsWrittenAccurateWhenUnread` | src/components/Notifications.tsx:66-71 | when exactly one unread copy is clicked, the written decrement keeps the badge accurate |
| `Notifications.MarkAsReadAsWrittenMiscounts` | src/components/Notifications.tsx:71 | with one read and one unread item, clicking the read one drops the badge to 0 while one item is still unread |
| `Notifications.MarkAsRead` | src/components/Notifications.tsx:57-75 | corrected: after a successful write the badge equals the number of unread items, lowered by the clicked id's unread copies; a failed write changes nothing |
| `Notifications.MarkAsReadIdempotent` | src/components/Notifications.tsx:57-75 | marking the same id twice equals marking it once |
| `Notifications.BadgeStaysAccurate` | src/components/Notifications.tsx:15-94 | an accurate badge stays accurate through fetch, mark-as-read and mark-all-as-read |
| `Notifications.MarkAllAsRead` | src/components/Notifications.tsx:77-94 | a failed write changes nothing; after a successful one every item is read, nothing else changes, and the badge is 0 |
| `TaskAdapter.AdaptTaskFromDB` | src/utils/taskAdapter.ts:5-14 | only the camelCase properties change, and afterwards `requestedBy`, `requestedDate` and `helperAssigned` mirror the snake_case columns with an empty requester name; a row that already mirrors them comes back unchanged |
| `TaskAdapter.AdaptLaws` | src/utils/taskAdapter.ts:5-14 | adapting is idempotent, and rows that agree on their columns adapt alike whatever camelCase properties they carried |
| `TaskAdapter.AdaptTasksFromDB` | src/utils/taskAdapter.ts:17-19 | element-wise adaptation, length and order kept |
| `TaskAdapter.AdaptAppend` | src/utils/taskAdapter.ts:17-19 | adapting distributes over concatenation |
| `Seqs.FilterUnique` | src/components/TaskList.tsx:111-113 | `Array.prototype.filter` is pinned down by its contract: a subsequence of the input holding every passing value as often as the input, and nothing else, is the filter's result |
| `SupabaseRpc.GetTasksByUser` | src/utils/supabaseRPC.ts:118-133 | nothing on error; otherwise every returned task belongs to the user by the chosen field, and every row whose chosen column is the user comes back adapted |
| `SupabaseRpc.RemoteAgreesWithLocal` | src/utils/supabaseRPC.ts:118-133 | selecting on the snake_case column and then adapting equals the local store's selection on the camelCase property of the adapted rows |
| `SupabaseRpc.QueryPoints` | src/utils/supabaseRPC.ts:24-28 | the query returns a row iff it does not fail and the helper has a row, and that row carries the helper's stored points |
| `SupabaseRpc.GetHelperPoints` | src/utils/supabaseRPC.ts:23-36 | 0 on error or a null value; the stored points otherwise |
| `SupabaseRpc.UpdateHelperPoints` | src/utils/supabaseRPC.ts:38-50 | a failed upsert returns false and changes nothing; a successful one sets the helper's points and returns true |
| `SupabaseRpc.PointsReadBack` | src/utils/supabaseRPC.ts:23-50 | after a successful upsert the helper's points read back, and other helpers read as before |
| `SupabaseRpc.UpdateTaskPayload` | src/utils/supabaseRPC.ts:152-163 | for every row, applying what is sent in the database and reading the row back gives the interface the same task as patching it locally with the update minus its id, requester and requester name; the timestamp is always sent |
| `SupabaseRpc.PayloadIgnoresRequester` | src/utils/supabaseRPC.ts:154-163 | the id, requester and requester name never influence what is sent |
| `SupabaseRpc.ApplyDbUpdates` | src/utils/supabaseRPC.ts:165-168 | afterwards the row holds the value of every sent column, and a row that already holds them is unchanged; the id and requester column are kept |
| `SupabaseRpc.RemoteUpdateMatchesLocal` | src/utils/supabaseRPC.ts:152-176 | for an update that leaves id and requester alone, writing remotely and reading back gives the interface the same task as patching locally |
| `Register.Validate` | src/pages/Register.tsx:23-30 | each rule fails iff its condition does: name under 2, e-mail not well formed, password under 6, age not a number of at least 18 |
| `Register.Submit` | src/pages/Register.tsx:50-60 | `signUp` is called iff the form is valid, with the fields, `Number(age)` and the chosen role; that age is at least 18 |
| `Register.AgeOfInteger` | src/pages/Register.tsx:27 | a whole number written in decimal passes iff it is at least 18, and `Number` reads exactly that number |
| `Register.EmptyAgeRejected` | src/pages/Register.tsx:27 | the empty age reads as 0 and fails |
| `Register.NoDigitsRejected` | src/pages/Register.tsx:27 | an age without any decimal digit fails, unless it is `Infinity` |
| `Register.LengthBoundaries` | src/pages/Register.tsx:24-26 | a one-letter name and a five-character password fail; a six-character password passes |
| `UserTypeSelection.HandleSelection` | src/components/UserTypeSelection.tsx:15-17 | the clicked role replaces any earlier choice; the handler only sets state, so this contract is the handler itself, and its meaning is `SelectThenContinue` |
| `UserTypeSelection.SelectThenContinue` | src/components/UserTypeSelection.tsx:15-38 | after choosing a role, whatever was chosen before, continuing lets a senior straight through and a helper exactly when the age gate passes |
| `UserTypeSelection.HandleContinue` | src/components/UserTypeSelection.tsx:19-38 | no selection stays; a senior proceeds unchecked; a helper proceeds iff the answer is present, non-empty and `parseInt` gives at least 18, and is otherwise reset to no selection; whoever proceeds was selected |
| `UserTypeSelection.HelperAgeOfInteger` | src/components/UserTypeSelection.tsx:25 | a helper typing a whole number proceeds iff it is at least 18 |
| `UserTypeSelection.TrailingTextIgnored` | src/components/UserTypeSelection.tsx:25 | digits of a number of at least 18 followed by any text not starting with a digit pass the gate |
| `UserTypeSelection.HelperWithoutAnswer` | src/components/UserTypeSelection.tsx:23-30 | a cancelled prompt or an empty answer resets the selection |
| `Types.ParseStatus` | src/types/index.ts:40 | the stored status strings and the five statuses correspond one to one |
| `Types.ParseRole` | src/types/index.ts:2 | the role strings and the two roles correspond one to one |
| `Types.ParseTaskType` | src/types/index.ts:4 | the task-type strings and the five types correspond one to one |
| `JsNumber.ParseInt` | src/utils/localTaskStorage.ts:68-70 | `parseInt` of an empty or all-white-space text is `NaN`; its meaning on a counter is `ParseIntToString`, and on an age with trailing text `UserTypeSelection.TrailingTextIgnored` |
| `JsNumber.Number` | src/pages/Register.tsx:27 | `Number` of an empty or all-white-space text is 0, as section 7.1.4.1.1 of ECMA-262 says; its meaning on an integer's text is `NumberOfIntToString` |
| `JsNumber.ParseIntToString` | src/utils/localTaskStorage.ts:61-69 | a counter written with `toString` reads back with `parseInt` as the same integer |
| `JsNumber.NumberOfIntToString` | src/pages/Register.tsx:57 | `Number` reads an integer's decimal text back as that integer |
| `Strings.Trim` | src/components/TaskRequestForm.tsx:111-114 | the trimmed text occurs in the input, starts and ends with a non-blank, and is empty iff the input is all whitespace |
| `Strings.TrimIdempotent` | src/components/TaskRequestForm.tsx:111-114 | trimming twice equals trimming once |
| `Strings.ToLowerIdempotent` | src/components/TaskRequestForm.tsx:88 | lower-casing twice equals lower-casing once |
| `Strings.ToLower` | src/components/TaskRequestForm.tsx:88 | the lower-cased text has the same length and lower-cases each character in place |
| `Strings.ContainsAt` | src/components/TaskRequestForm.tsx:88 | `includes` holds exactly when the needle occurs at some offset of the text |

## Left out

- The great-circle distance: it is floating-point trigonometry, so it is a caller-supplied function. Only which tasks get a distance, and the order and sort, are modelled.
- IEEE doubles: numbers are exact rationals. `Math.round` is rounding to the nearest integer with halves up, and `NaN` from a missing user coordinate is not modelled.
- `ProximitySort.TaskDistance`: states only the no-match case. The matched case depends on the supplied distance function.
- `LocalTaskStorage.ApplyPatch`: a patch names only the camelCase properties of `Partial<Task>`. It cannot name the snake_case columns or set a property explicitly to `undefined` or `null`, so the claim that the columns are kept holds because the patch type cannot touch them.
- `TaskList.RelevantTasks`: states only the subsequence property. Which tasks it keeps is stated through `TaskList.AvailableTasksMeaning`.
- `HelperPointsCard.ProgressAsWritten`: states only the level-5 value. The level-1 behaviour is the concrete lemma `ProgressAsWrittenAtLevelOne`.
- The Supabase network layer, auth and the realtime channels: each query result or payload is a parameter. `getSiteContent`, `getTasks`, `getUserNotifications`, `markNotificationAsRead` and `createNotification` are thin queries with no logic of their own and are not modelled. The remote `createTask` is not modelled because its conversion function does not exist.
- Browser storage mechanics: JSON serialisation is not modelled, and stored counters are their integer values. `uuidv4`, `Date`, `toISOString` and the `updated_at` timestamp are parameters; `updated_at` is not a field of `Task`.
- `prompt`, `alert`, toasts and navigation: the prompt answer is a parameter; the rest has no effect on the state modelled.
- `Register.Validate`: whether an e-mail address is well formed is decided by the validation library and is a parameter.
- Strings are sequences of Unicode scalar values (Dafny's `char`), whereas JavaScript's `length` counts UTF-16 code units: a character outside the Basic Multilingual Plane, such as an emoji, counts 1 here and 2 there. `toLowerCase` maps ASCII and Latin-1 letters only. `trim` uses the whitespace set of ECMA-262 but no Unicode normalisation.
- Register.Validate: its `min(2)` and `min(6)` length rules count characters, not UTF-16 code units, so a name or password holding characters outside the Basic Multilingual Plane can fail here and pass in the source.
- TaskRequestForm.HandleLocationSearch: its `length < 2` test counts characters, not UTF-16 code units, so a single emoji is a short term here and a long one in the source.
- The dashboard's null-user case: the dashboard redirects to the login page when no user is signed in, so the role and user id are parameters.
- The city list of `src/data/belgian-cities.ts`: it is a parameter, with each city's coordinates as the decimal text the template prints. The list holds duplicate names, so the search may show the same name twice.
- The achievements block of the level card, the level titles, `MapDisplay`, the static pages and the layout components: they are presentation only.
- Concurrency: the read-modify-write race on the point counters is not modelled.

## Findings

| source | as written | input that shows it | evidently intended | confidence | as-written member | corrected member |
|---|---|---|---|---|---|---|
| src/pages/AcceptedTasks.tsx:40-45 | the page's update handler adds 50 to `helperPoints` on completion, and the card's `handleComplete` (src/components/TaskCard.tsx:60-64) then adds 50 again | a helper with no points completes one task on the accepted-tasks page and ends with 100 points | a completion is worth 50 points, credited once | high; not executed | `AcceptedTasks.CompleteClickAsWritten` | `AcceptedTasks.CompleteClick` |
| src/components/HelperPointsCard.tsx:101-103 | the lower bound of the bar is `getNextLevelPoints(level - 1)`, which for level 1 is the default 999 | 0 points shows 105%, 49 points shows 100%, and the initial state shows 111% | level 1 starts at 0 points, so the bar runs from 0% to 100% within each level | high; not executed | `HelperPointsCard.ProgressAsWritten` | `HelperPointsCard.Progress` |
| src/components/Notifications.tsx:71 | `markAsRead` lowers the badge by one even when the clicked item was already read | one read and one unread item, badge 1; clicking the read one sets the badge to 0 while one item is unread | the badge counts the unread notifications | high; not executed | `Notifications.MarkAsReadAsWritten` | `Notifications.MarkAsRead` |
| src/components/TaskList.tsx:101-103 | the comparator replaces a falsy distance by `Infinity`, and a distance of 0 is falsy | a task exactly at the user's position and one 5 km away: the nearer one is listed last | nearest first, with only tasks without coordinates last | medium; not executed | `ProximitySort.SortByProximityAsWritten` | `ProximitySort.SortByProximity` |

=== FILE: accepted_tasks.dfy ===
/** The "accepted tasks" page (src/pages/AcceptedTasks.tsx): it works on the
    task list of browser storage alone, and its `onTaskUpdate` handler
    rewrites a status, saves the list back and awards completion points to
    the global counter. The clicks combine that handler with the card's own
    effect (module TaskCard). */
module AcceptedTasks {
  import opened Wrappers
  import opened Types
  import opened LocalTaskStorage
  import TaskCard

  datatype Page = Page(role: Role, tasks: seq<Task>, store: LocalStore)

  /** Opening the page: the role is read from storage (`helper` unless
      `elderly` is stored) and the task list is the stored one. */
  function Load(savedUserType: Option<string>, store: LocalStore): (r: Page)
    ensures r.role == Elderly <==> savedUserType == Some("elderly")
    ensures r.tasks == store.tasks && r.store == store
  {
    var role := if savedUserType == Some("elderly") then Elderly else Helper;
    Page(role, store.tasks, store)
  }

  /** `handleTaskUpdate(taskId, status)`: every task with the id takes the
      requested status whatever its current one (there is no guard), all
      other fields and tasks are untouched, storage receives exactly the new
      list, and a helper completing a task gains the reward on the global
      counter; any other call leaves the counters alone. */
  function HandleTaskUpdate(page: Page, taskId: string, status: Status): (r: Page)
    ensures r.role == page.role
    ensures |r.tasks| == |page.tasks|
    ensures forall i :: 0 <= i < |page.tasks| && page.tasks[i].id == taskId ==>
      r.tasks[i] == page.tasks[i].(status := status)
    ensures forall i :: 0 <= i < |page.tasks| && page.tasks[i].id != taskId ==>
      r.tasks[i] == page.tasks[i]
    ensures r.store.tasks == r.tasks
    ensures r.store.ledger == page.store.ledger
    ensures status == Completed && page.role == Helper ==>
      r.store.globalPoints == Some(GlobalPoints(page.store) + TaskCard.CompletionReward)
    ensures !(status == Completed && page.role == Helper) ==>
      r.store.globalPoints == page.store.globalPoints
  {
    var updated := SetStatusWhere(page.tasks, taskId, status);
    var saved := page.store.(tasks := updated);
    var store :=
      if status == Completed && page.role == Helper then
        saved.(globalPoints := Some(GlobalPoints(saved) + TaskCard.CompletionReward))
      else saved;
    Page(page.role, updated, store)
  }

  /** Repeating an update rewrites nothing more (the counter, however, is
      credited again). */
  lemma HandleTaskUpdateTasksIdempotent(page: Page, taskId: string, status: Status)
    ensures var once := HandleTaskUpdate(page, taskId, status);
      HandleTaskUpdate(once, taskId, status).tasks == once.tasks
  {
    var once := HandleTaskUpdate(page, taskId, status);
    var twice := HandleTaskUpdate(once, taskId, status);
    assert forall i :: 0 <= i < |once.tasks| ==> twice.tasks[i] == once.tasks[i];
  }

  /** Without a guard a terminal task can be reopened. */
  lemma TerminalTaskIsOverwritten(page: Page, i: nat, status: Status)
    requires i < |page.tasks| && IsTerminal(page.tasks[i].status)
    ensures HandleTaskUpdate(page, page.tasks[i].id, status).tasks[i].status == status
  {
  }

  /** Accepting from this page: the status becomes `assigned` but no helper
      is recorded, since this handler never sets `helperAssigned`; the card
      then marks the first stored task with the id as notified. */
  function AcceptClick(page: Page, taskId: string): (r: Page)
    ensures |r.tasks| == |page.tasks|
    ensures forall i :: 0 <= i < |page.tasks| && page.tasks[i].id == taskId ==>
      r.tasks[i].status == Assigned && r.tasks[i].helperAssigned == page.tasks[i].helperAssigned
    ensures forall i :: 0 <= i < |page.tasks| && page.tasks[i].id != taskId ==> r.tasks[i] == page.tasks[i]
    ensures |r.store.tasks| == |page.tasks|
    ensures forall i :: FirstWithId(page.tasks, taskId, i) ==> r.store.tasks[i].notificationSent
    ensures r.store.globalPoints == page.store.globalPoints && r.store.ledger == page.store.ledger
  {
    var handled := HandleTaskUpdate(page, taskId, Assigned);
    assert Ids(handled.store.tasks) == Ids(page.tasks);
    handled.(store := TaskCard.AcceptEffect(handled.store, taskId))
  }

  /** Completing from this page as the source is written: the page handler
      credits the reward and then the card credits it again. */
  function CompleteClickAsWritten(page: Page, taskId: string): (r: Page)
    ensures r.tasks == HandleTaskUpdate(page, taskId, Completed).tasks
    ensures page.role == Helper ==> GlobalPoints(r.store) == GlobalPoints(page.store) + 2 * TaskCard.CompletionReward
  {
    var handled := HandleTaskUpdate(page, taskId, Completed);
    handled.(store := TaskCard.CompleteEffect(page.role, handled.store))
  }

  /** A helper with no points who completes one task holds 100, not 50. */
  lemma CompleteClickAsWrittenCreditsTwice(task: Task)
    ensures var page := Page(Helper, [task], LocalStore([task], None, map[]));
      CompleteClickAsWritten(page, task.id).store.globalPoints == Some(100)
  {
  }

  /** Completing from this page with the reward credited once, by the page
      handler alone: the counter grows by exactly the reward for a helper and
      not at all for a senior, and the task list is the handler's. */
  function CompleteClick(page: Page, taskId: string): (r: Page)
    ensures r.tasks == r.store.tasks && |r.tasks| == |page.tasks|
    ensures forall i :: 0 <= i < |page.tasks| ==>
      r.tasks[i].status == (if page.tasks[i].id == taskId then Completed else page.tasks[i].status)
    ensures page.role == Helper ==> GlobalPoints(r.store) == GlobalPoints(page.store) + TaskCard.CompletionReward
    ensures page.role == Elderly ==> r.store.globalPoints == page.store.globalPoints
    ensures r.store.ledger == page.store.ledger
  {
    HandleTaskUpdate(page, taskId, Completed)
  }
}

=== FILE: coordinates.dfy ===
/** Coordinates embedded in a task's location text. The request form writes
    a location as `Name (lat,lon)`; the task list reads the pair back with
    the regular expression `\((-?\d+\.?\d*),(-?\d+\.?\d*)\)`, taking the
    leftmost match. The two captured groups are kept as text; their numeric
    value is what `JsNumber.Number` gives them. */
module Coordinates {
  import opened Wrappers
  import opened Strings
  import opened Seqs

  predicate IsDigit(c: char) {
    '0' <= c <= '9'
  }

  /** The language of one captured group, `-?\d+\.?\d*`: an optional minus,
      then digits and at most one dot, starting with a digit. */
  predicate IsNumberToken(t: string) {
    if |t| > 0 && t[0] == '-' then IsUnsignedToken(t[1..]) else IsUnsignedToken(t)
  }

  predicate IsUnsignedToken(u: string) {
    && |u| > 0
    && IsDigit(u[0])
    && (forall k :: 0 <= k < |u| ==> IsDigit(u[k]) || u[k] == '.')
    && (forall a, b :: 0 <= a < b < |u| && u[a] == '.' ==> u[b] != '.')
  }

  /** Length of the run of digits starting at `i`. */
  function DigitRun(s: string, i: nat): (n: nat)
    requires i <= |s|
    ensures i + n <= |s|
    decreases |s| - i
  {
    if i < |s| && IsDigit(s[i]) then 1 + DigitRun(s, i + 1) else 0
  }

  /** The run is all digits and stops at the end or at a non-digit. */
  lemma {:induction false} DigitRunStops(s: string, i: nat)
    requires i <= |s|
    ensures forall k :: i <= k < i + DigitRun(s, i) ==> IsDigit(s[k])
    ensures i + DigitRun(s, i) == |s| || !IsDigit(s[i + DigitRun(s, i)])
    decreases |s| - i
  {
    if i < |s| && IsDigit(s[i]) {
      DigitRunStops(s, i + 1);
    }
  }

  /** Where a greedy match of `-?\d+\.?\d*` starting at `i` ends; `None`
      when no digit follows the optional minus. Backtracking cannot give a
      different end that is followed by the `,` or `)` the pattern needs
      next, since every shorter match ends before a digit or a dot. */
  function NumberEnd(s: string, i: nat): (r: Option<nat>)
    requires i <= |s|
    ensures r.Some? ==> i < r.value <= |s|
  {
    var j := if i < |s| && s[i] == '-' then i + 1 else i;
    var d := DigitRun(s, j);
    if d == 0 then None
    else if j + d < |s| && s[j + d] == '.' then Some(j + d + 1 + DigitRun(s, j + d + 1))
    else Some(j + d)
  }

  /** Where the two groups of the pattern tried at position `i` end: the
      `,` after the first and the `)` after the second. */
  function MatchEnds(s: string, i: nat): (r: Option<(nat, nat)>)
    requires i <= |s|
    ensures r.Some? ==> var (e1, e2) := r.value;
      && i < e1 < e2 < |s|
      && s[i] == '(' && s[e1] == ',' && s[e2] == ')'
      && NumberEnd(s, i + 1) == Some(e1) && NumberEnd(s, e1 + 1) == Some(e2)
  {
    if i < |s| && s[i] == '(' then
      match NumberEnd(s, i + 1)
      case None => None
      case Some(e1) =>
        if e1 < |s| && s[e1] == ',' then
          match NumberEnd(s, e1 + 1)
          case None => None
          case Some(e2) => if e2 < |s| && s[e2] == ')' then Some((e1, e2)) else None
        else None
    else None
  }

  /** The pattern tried at position `i`: the two captured groups. */
  function MatchAt(s: string, i: nat): (r: Option<(string, string)>)
    requires i <= |s|
  {
    match MatchEnds(s, i)
    case None => None
    case Some((e1, e2)) => Some((s[i + 1..e1], s[e1 + 1..e2]))
  }

  /** The leftmost match at or after position `i`. */
  function FirstMatch(s: string, i: nat): (r: Option<(string, string)>)
    requires i <= |s|
    decreases |s| - i
  {
    if i == |s| then None
    else
      match MatchAt(s, i)
      case Some(m) => Some(m)
      case None => FirstMatch(s, i + 1)
  }

  /** `location.match(/\((-?\d+\.?\d*),(-?\d+\.?\d*)\)/)`, as the two
      captured groups. */
  function ParseCoordinates(location: string): (r: Option<(string, string)>)
    ensures r.Some? ==> IsNumberToken(r.value.0) && IsNumberToken(r.value.1)
    ensures r.Some? ==> exists i :: OccursAt(location, "(" + r.value.0 + "," + r.value.1 + ")", i)
    ensures r.None? <==> forall i :: 0 <= i <= |location| ==> MatchAt(location, i).None?
    ensures r.Some? ==> exists k :: LeftmostMatch(location, 0, k) && r == MatchAt(location, k)
  {
    FirstMatchSound(location, 0);
    FirstMatchLeftmost(location, 0);
    FirstMatch(location, 0)
  }

  /** The pattern matches at `k`, and at no position from `i` up to `k`. */
  predicate LeftmostMatch(s: string, i: nat, k: nat) {
    && i <= k <= |s|
    && MatchAt(s, k).Some?
    && forall j :: i <= j < k ==> MatchAt(s, j).None?
  }

  /** The location text the request form builds from a city. */
  function FormatLocation(name: string, latitude: string, longitude: string): (r: string)
    ensures IsPrefix(name + " (", r) && r[|r| - 1] == ')'
    ensures |r| == |name| + |latitude| + |longitude| + 4
  {
    name + " (" + latitude + "," + longitude + ")"
  }

  // ---- soundness ---------------------------------------------------------

  /** A greedy match is a token. */
  lemma NumberEndSound(s: string, i: nat)
    requires i <= |s|
    ensures NumberEnd(s, i).Some? ==> IsNumberToken(s[i..NumberEnd(s, i).value])
  {
    if NumberEnd(s, i).Some? {
      var e := NumberEnd(s, i).value;
      var j := if i < |s| && s[i] == '-' then i + 1 else i;
      var d := DigitRun(s, j);
      DigitRunStops(s, j);
      if j + d < |s| && s[j + d] == '.' {
        var d2 := DigitRun(s, j + d + 1);
        DigitRunStops(s, j + d + 1);
        assert e == j + d + 1 + d2;
        DottedRunIsToken(s, j, j + d, e);
      } else {
        assert e == j + d;
        DottedRunIsToken(s, j, e, e);
      }
      SignedSlice(s, i, j, e);
    }
  }

  /** Digits from `j`, then optionally a dot at `dot` followed by digits up
      to `e`, form an unsigned token; `dot == e` means no dot. */
  lemma DottedRunIsToken(s: string, j: nat, dot: nat, e: nat)
    requires j < dot <= e <= |s|
    requires forall k :: j <= k < dot ==> IsDigit(s[k])
    requires dot < e ==> s[dot] == '.'
    requires forall k :: dot < k < e ==> IsDigit(s[k])
    ensures IsUnsignedToken(s[j..e])
  {
    var u := s[j..e];
    assert forall k :: 0 <= k < |u| ==> u[k] == s[j + k];
    assert forall k :: 0 <= k < |u| && k != dot - j ==> IsDigit(u[k]);
  }

  /** An optional minus at `i` followed by an unsigned token is a token. */
  lemma SignedSlice(s: string, i: nat, j: nat, e: nat)
    requires i <= j < e <= |s|
    requires j == (if i < |s| && s[i] == '-' then i + 1 else i)
    requires IsUnsignedToken(s[j..e])
    ensures IsNumberToken(s[i..e])
  {
    if j == i + 1 {
      assert s[i..e][1..] == s[j..e];
    }
  }

  /** What the pattern matched at `i` is `(`, a token, `,`, a token, `)`. */
  lemma MatchAtSound(s: string, i: nat)
    requires i <= |s|
    ensures MatchAt(s, i).Some? ==>
      var m := MatchAt(s, i).value;
      IsNumberToken(m.0) && IsNumberToken(m.1) && OccursAt(s, "(" + m.0 + "," + m.1 + ")", i)
  {
    if MatchEnds(s, i).Some? {
      var (e1, e2) := MatchEnds(s, i).value;
      MatchedGroups(s, i, e1, e2);
      MatchedText(s, i, e1, e2);
    }
  }

  lemma MatchedGroups(s: string, i: nat, e1: nat, e2: nat)
    requires i < e1 < e2 < |s|
    requires NumberEnd(s, i + 1) == Some(e1) && NumberEnd(s, e1 + 1) == Some(e2)
    ensures IsNumberToken(s[i + 1..e1]) && IsNumberToken(s[e1 + 1..e2])
  {
    NumberEndSound(s, i + 1);
    NumberEndSound(s, e1 + 1);
  }

  lemma MatchedText(s: string, i: nat, e1: nat, e2: nat)
    requires i < e1 < e2 < |s|
    requires s[i] == '(' && s[e1] == ',' && s[e2] == ')'
    ensures OccursAt(s, "(" + s[i + 1..e1] + "," + s[e1 + 1..e2] + ")", i)
  {
    var a := s[i + 1..e1];
    var b := s[e1 + 1..e2];
    var n := "(" + a + "," + b + ")";
    assert |n| == e2 + 1 - i;
    forall k | 0 <= k < |n|
      ensures n[k] == s[i + k]
    {
      if k == 0 {
      } else if k < 1 + |a| {
        assert n[k] == a[k - 1];
      } else if k == 1 + |a| {
      } else if k < 2 + |a| + |b| {
        assert n[k] == b[k - 2 - |a|];
      }
    }
    assert s[i..i + |n|] == n;
  }

  lemma {:induction false} FirstMatchSound(s: string, i: nat)
    requires i <= |s|
    ensures FirstMatch(s, i).Some? ==>
      var m := FirstMatch(s, i).value;
      IsNumberToken(m.0) && IsNumberToken(m.1) && exists k :: OccursAt(s, "(" + m.0 + "," + m.1 + ")", k)
    decreases |s| - i
  {
    if i < |s| {
      MatchAtSound(s, i);
      if MatchAt(s, i).None? {
        FirstMatchSound(s, i + 1);
      }
    }
  }

  /** The scan finds a match exactly when the pattern matches somewhere,
      and then it is the leftmost one. */
  lemma {:induction false} FirstMatchLeftmost(s: string, i: nat)
    requires i <= |s|
    ensures FirstMatch(s, i).None? <==> forall j :: i <= j <= |s| ==> MatchAt(s, j).None?
    ensures FirstMatch(s, i).Some? ==> exists k :: LeftmostMatch(s, i, k) && FirstMatch(s, i) == MatchAt(s, k)
    decreases |s| - i
  {
    if i == |s| {
      FirstMatchAtEnd(s);
    } else if MatchAt(s, i).Some? {
      FirstMatchHere(s, i);
      assert LeftmostMatch(s, i, i);
    } else {
      FirstMatchLeftmost(s, i + 1);
      FirstMatchMiss(s, i);
      if FirstMatch(s, i).Some? {
        var k :| LeftmostMatch(s, i + 1, k) && FirstMatch(s, i + 1) == MatchAt(s, k);
        LeftmostExtends(s, i, k);
      }
    }
  }

  lemma FirstMatchAtEnd(s: string)
    ensures FirstMatch(s, |s|).None? && MatchAt(s, |s|).None?
  {
  }

  /** A position where the pattern does not match is skipped. */
  lemma FirstMatchMiss(s: string, i: nat)
    requires i < |s| && MatchAt(s, i).None?
    ensures FirstMatch(s, i) == FirstMatch(s, i + 1)
  {
  }

  lemma LeftmostExtends(s: string, i: nat, k: nat)
    requires i < |s| && MatchAt(s, i).None? && LeftmostMatch(s, i + 1, k)
    ensures LeftmostMatch(s, i, k)
  {
  }

  // ---- the round trip ---------------------------------------------------

  lemma {:induction false} DigitRunExact(s: string, i: nat, n: nat)
    requires i + n <= |s|
    requires forall k :: i <= k < i + n ==> IsDigit(s[k])
    requires i + n == |s| || !IsDigit(s[i + n])
    ensures DigitRun(s, i) == n
    decreases n
  {
    if n > 0 {
      DigitRunExact(s, i + 1, n - 1);
    }
  }

  /** The unsigned part of a token, read in place. */
  lemma UnsignedTokenAt(s: string, j: nat, e: nat)
    requires j <= e <= |s|
    requires IsUnsignedToken(s[j..e])
    ensures j < e && IsDigit(s[j])
    ensures forall k :: j <= k < e ==> IsDigit(s[k]) || s[k] == '.'
    ensures forall a, b :: j <= a < b < e && s[a] == '.' ==> s[b] != '.'
  {
    var u := s[j..e];
    assert forall k :: j <= k < e ==> s[k] == u[k - j];
  }

  /** A greedy match over a whole token ends where the token ends, when
      what follows is neither a digit nor a dot. */
  lemma NumberEndOfToken(s: string, i: nat, e: nat)
    requires i <= e <= |s|
    requires IsNumberToken(s[i..e])
    requires e == |s| || (!IsDigit(s[e]) && s[e] != '.')
    ensures NumberEnd(s, i) == Some(e)
  {
    var j := if i < |s| && s[i] == '-' then i + 1 else i;
    if i < e && s[i] == '-' {
      assert s[i..e][1..] == s[j..e];
    } else {
      assert j == i;
    }
    UnsignedTokenAt(s, j, e);
    var d := DigitRun(s, j);
    DigitRunStops(s, j);
    assert j + d <= e;
    if j + d < e {
      assert s[j + d] == '.';
      DigitRunExact(s, j + d + 1, e - (j + d + 1));
    }
  }

  lemma {:induction false} FirstMatchSkips(s: string, i: nat, j: nat)
    requires i <= j <= |s|
    requires forall k :: i <= k < j ==> s[k] != '('
    ensures FirstMatch(s, i) == FirstMatch(s, j)
    decreases j - i
  {
    if i < j {
      FirstMatchStep(s, i);
      FirstMatchSkips(s, i + 1, j);
    }
  }

  /** A position that holds no `(` starts no match. */
  lemma FirstMatchStep(s: string, i: nat)
    requires i < |s| && s[i] != '('
    ensures FirstMatch(s, i) == FirstMatch(s, i + 1)
  {
  }

  /** Where the pieces of a formatted location sit. */
  lemma FormattedShape(name: string, latitude: string, longitude: string)
    requires '(' !in name
    ensures var s := FormatLocation(name, latitude, longitude);
      var p := |name| + 1;
      var e1 := p + 1 + |latitude|;
      var e2 := e1 + 1 + |longitude|;
      && |s| == e2 + 1
      && s[p] == '(' && s[e1] == ',' && s[e2] == ')'
      && s[p + 1..e1] == latitude && s[e1 + 1..e2] == longitude
      && (forall k :: 0 <= k < p ==> s[k] != '(')
  {
    var s := FormatLocation(name, latitude, longitude);
    assert s == name + [' ', '('] + latitude + [','] + longitude + [')'];
    forall k | 0 <= k < |name| + 1
      ensures s[k] != '('
    {
      if k < |name| {
        assert s[k] == name[k];
      }
    }
  }

  lemma MatchAtParts(s: string, p: nat, e1: nat, e2: nat)
    requires p < e1 < e2 < |s|
    requires s[p] == '(' && s[e1] == ',' && s[e2] == ')'
    requires NumberEnd(s, p + 1) == Some(e1) && NumberEnd(s, e1 + 1) == Some(e2)
    ensures MatchAt(s, p) == Some((s[p + 1..e1], s[e1 + 1..e2]))
  {
    assert MatchEnds(s, p) == Some((e1, e2));
  }

  /** The task list recovers exactly the coordinates the form wrote, when
      the city name holds no `(` and both coordinates are written in the
      pattern's language. */
  lemma ParseFormatted(name: string, latitude: string, longitude: string)
    requires '(' !in name
    requires IsNumberToken(latitude) && IsNumberToken(longitude)
    ensures ParseCoordinates(FormatLocation(name, latitude, longitude)) == Some((latitude, longitude))
  {
    FirstMatchFormatted(name, latitude, longitude);
  }

  lemma FirstMatchFormatted(name: string, latitude: string, longitude: string)
    requires '(' !in name
    requires IsNumberToken(latitude) && IsNumberToken(longitude)
    ensures FirstMatch(FormatLocation(name, latitude, longitude), 0) == Some((latitude, longitude))
  {
    var p := |name| + 1;
    var e1 := p + 1 + |latitude|;
    var e2 := e1 + 1 + |longitude|;
    FormattedShape(name, latitude, longitude);
    FirstMatchAt(FormatLocation(name, latitude, longitude), p, e1, e2);
  }

  /** The first `(` of `s` opens two tokens separated by `,` and closed by
      `)`: that is the leftmost match. */
  lemma FirstMatchAt(s: string, p: nat, e1: nat, e2: nat)
    requires p < e1 < e2 < |s|
    requires s[p] == '(' && s[e1] == ',' && s[e2] == ')'
    requires forall k :: 0 <= k < p ==> s[k] != '('
    requires IsNumberToken(s[p + 1..e1]) && IsNumberToken(s[e1 + 1..e2])
    ensures FirstMatch(s, 0) == Some((s[p + 1..e1], s[e1 + 1..e2]))
  {
    FirstMatchSkips(s, 0, p);
    MatchAtTokens(s, p, e1, e2);
    FirstMatchHere(s, p);
  }

  lemma MatchAtTokens(s: string, p: nat, e1: nat, e2: nat)
    requires p < e1 < e2 < |s|
    requires s[p] == '(' && s[e1] == ',' && s[e2] == ')'
    requires IsNumberToken(s[p + 1..e1]) && IsNumberToken(s[e1 + 1..e2])
    ensures MatchAt(s, p) == Some((s[p + 1..e1], s[e1 + 1..e2]))
  {
    NumberEndOfToken(s, p + 1, e1);
    NumberEndOfToken(s, e1 + 1, e2);
    MatchAtParts(s, p, e1, e2);
  }

  lemma FirstMatchHere(s: string, p: nat)
    requires p < |s| && MatchAt(s, p).Some?
    ensures FirstMatch(s, p) == MatchAt(s, p)
  {
  }
}

=== FILE: dashboard.dfy ===
/** The pure parts of the dashboard page (src/pages/Dashboard.tsx). Its
    task list holds database rows as delivered (not passed through the
    adapter), so it reads the snake_case columns `requested_by` and
    `helper_assigned` (`dbRequestedBy`, `dbHelperAssigned`). */
module Dashboard {
  import opened Wrappers
  import opened Types
  import opened Seqs
  import opened LocalTaskStorage
  import opened TaskList

  /** A realtime change notification on the tasks table. */
  datatype Payload = Insert(newRow: Task) | Update(newRow: Task) | Delete(oldId: string)

  /** Merging one realtime payload into the list. An inserted row goes to the
      front for a helper, and for a senior only when it is theirs; an updated
      row replaces every task with its id; a deletion drops exactly the tasks
      with the deleted id and keeps the rest in order. */
  function ApplyPayload(tasks: seq<Task>, payload: Payload, role: Role, userId: string): (r: seq<Task>)
    ensures payload.Insert? && (role == Helper || payload.newRow.dbRequestedBy == Some(userId)) ==>
      r == [payload.newRow] + tasks
    ensures payload.Insert? && !(role == Helper || payload.newRow.dbRequestedBy == Some(userId)) ==>
      r == tasks
    ensures payload.Update? ==> |r| == |tasks|
    ensures payload.Update? ==> forall i :: 0 <= i < |tasks| ==>
      r[i] == if tasks[i].id == payload.newRow.id then payload.newRow else tasks[i]
    ensures payload.Delete? ==> forall t :: t in r <==> t in tasks && t.id != payload.oldId
    ensures payload.Delete? ==> forall t :: t in tasks && t.id != payload.oldId ==>
      multiset(r)[t] == multiset(tasks)[t]
    ensures payload.Delete? ==> IsSubseq(r, tasks)
  {
    match payload
    case Insert(row) =>
      if role == Helper || row.dbRequestedBy == Some(userId) then [row] + tasks else tasks
    case Update(row) =>
      seq(|tasks|, i requires 0 <= i < |tasks| => if tasks[i].id == row.id then row else tasks[i])
    case Delete(oldId) =>
      Filter(tasks, (t: Task) => t.id != oldId)
  }

  /** Deleting a row that was just inserted, under a fresh id, restores the
      list. */
  lemma InsertThenDelete(tasks: seq<Task>, row: Task, role: Role, userId: string)
    requires row.id !in Ids(tasks)
    ensures ApplyPayload(ApplyPayload(tasks, Insert(row), role, userId), Delete(row.id), role, userId) == tasks
  {
    var p := (t: Task) => t.id != row.id;
    forall i | 0 <= i < |tasks|
      ensures p(tasks[i])
    {
      assert Ids(tasks)[i] == tasks[i].id;
    }
    FilterKeepsAll(tasks, p);
    var inserted := ApplyPayload(tasks, Insert(row), role, userId);
    if inserted != tasks {
      assert inserted == [row] + tasks;
      assert inserted[1..] == tasks;
    }
  }

  /** Replaying an update payload changes nothing. */
  lemma UpdateIdempotent(tasks: seq<Task>, row: Task, role: Role, userId: string)
    ensures var once := ApplyPayload(tasks, Update(row), role, userId);
      ApplyPayload(once, Update(row), role, userId) == once
  {
  }

  /** The database write `handleTaskUpdate` issues. */
  datatype StatusWrite = StatusWrite(taskId: string, status: Status, helperAssigned: Option<string>)

  datatype UpdateOutcome = UpdateOutcome(tasks: seq<Task>, write: Option<StatusWrite>)

  /** `handleTaskUpdate(taskId, status)`. Nothing happens for an unknown id.
      Otherwise the write carries the new status and, as helper, the acting
      helper when the status is `assigned` and else the first matching row's
      `helper_assigned`. Only when the write succeeds does the local list
      change: every row with the id takes the status and the written helper
      (in its camelCase field). */
  function HandleTaskUpdate(tasks: seq<Task>, taskId: string, status: Status, role: Role,
                            userId: string, writeSucceeded: bool): (r: UpdateOutcome)
    ensures taskId !in Ids(tasks) ==> r == UpdateOutcome(tasks, None)
    ensures taskId in Ids(tasks) ==> r.write.Some? && r.write.value.taskId == taskId && r.write.value.status == status
    ensures r.write.Some? && status == Assigned && role == Helper ==> r.write.value.helperAssigned == Some(userId)
    ensures r.write.Some? && !(status == Assigned && role == Helper) ==>
      exists i :: FirstWithId(tasks, taskId, i) && r.write.value.helperAssigned == tasks[i].dbHelperAssigned
    ensures !writeSucceeded ==> r.tasks == tasks
    ensures |r.tasks| == |tasks|
    ensures forall i :: 0 <= i < |tasks| && tasks[i].id != taskId ==> r.tasks[i] == tasks[i]
    ensures writeSucceeded && r.write.Some? ==> forall i :: 0 <= i < |tasks| && tasks[i].id == taskId ==>
      r.tasks[i] == tasks[i].(status := status, helperAssigned := r.write.value.helperAssigned)
  {
    match FindIndex(tasks, taskId)
    case None => UpdateOutcome(tasks, None)
    case Some(k) =>
      assert Ids(tasks)[k] == taskId;
      assert FirstWithId(tasks, taskId, k);
      var helper := if status == Assigned && role == Helper then Some(userId) else tasks[k].dbHelperAssigned;
      var local :=
        if writeSucceeded then
          seq(|tasks|, i requires 0 <= i < |tasks| =>
            if tasks[i].id == taskId then tasks[i].(status := status, helperAssigned := helper) else tasks[i])
        else tasks;
      UpdateOutcome(local, Some(StatusWrite(taskId, status, helper)))
  }

  /** The local update records the helper under the camelCase name only, so
      the row's `helper_assigned` stays stale: a helper who accepts a row
      without a helper and then completes it before a realtime refresh
      arrives sends a write that clears the helper. */
  lemma CompleteBeforeRefreshClearsHelper(row: Task, helperId: string)
    requires row.dbHelperAssigned == None
    ensures var accepted := HandleTaskUpdate([row], row.id, Assigned, Helper, helperId, true);
      && accepted.tasks[0].helperAssigned == Some(helperId)
      && HandleTaskUpdate(accepted.tasks, row.id, Completed, Helper, helperId, true).write
         == Some(StatusWrite(row.id, Completed, None))
  {
    var accepted := HandleTaskUpdate([row], row.id, Assigned, Helper, helperId, true);
    assert Ids([row])[0] == row.id;
    assert Ids(accepted.tasks)[0] == row.id;
  }

  /** `countTasksByStatus(status)`: the number of tasks with the status
      that the viewer may count. */
  function CountTasksByStatus(tasks: seq<Task>, status: Status, role: Role, userId: string): (r: nat)
    ensures r <= |tasks|
    ensures role == Helper ==> r == |WithStatus(tasks, status)|
    ensures role == Elderly ==> r == |OwnWithStatus(tasks, status, userId)|
  {
    var counted := (t: Task) => t.status == status && (role == Helper || t.dbRequestedBy == Some(userId));
    if role == Helper then
      FilterCongruent(tasks, counted, (t: Task) => t.status == status);
      Count(tasks, counted)
    else
      FilterCongruent(tasks, counted, (t: Task) => t.status == status && t.dbRequestedBy == Some(userId));
      Count(tasks, counted)
  }

  /** A senior's own tasks with a given status. */
  function OwnWithStatus(tasks: seq<Task>, status: Status, userId: string): seq<Task> {
    Filter(tasks, (t: Task) => t.status == status && t.dbRequestedBy == Some(userId))
  }

  /** A helper counts every task with the status, a senior only their own. */
  lemma CountTasksByStatusMeaning(tasks: seq<Task>, status: Status, userId: string)
    ensures CountTasksByStatus(tasks, status, Helper, userId) == |WithStatus(tasks, status)|
    ensures CountTasksByStatus(tasks, status, Elderly, userId) == |OwnWithStatus(tasks, status, userId)|
  {
    FilterCongruent(tasks, (t: Task) => t.status == status && (Helper == Helper || t.dbRequestedBy == Some(userId)),
      (t: Task) => t.status == status);
    FilterCongruent(tasks, (t: Task) => t.status == status && (Elderly == Helper || t.dbRequestedBy == Some(userId)),
      (t: Task) => t.status == status && t.dbRequestedBy == Some(userId));
  }

  /** Every task has exactly one of the five statuses, so a helper's five
      counts add up to the whole list. */
  lemma {:induction false} HelperCountsPartition(tasks: seq<Task>, userId: string)
    ensures CountTasksByStatus(tasks, Pending, Helper, userId)
      + CountTasksByStatus(tasks, WaitingApproval, Helper, userId)
      + CountTasksByStatus(tasks, Assigned, Helper, userId)
      + CountTasksByStatus(tasks, Completed, Helper, userId)
      + CountTasksByStatus(tasks, Cancelled, Helper, userId) == |tasks|
  {
    CountTasksByStatusMeaning(tasks, Pending, userId);
    CountTasksByStatusMeaning(tasks, WaitingApproval, userId);
    CountTasksByStatusMeaning(tasks, Assigned, userId);
    CountTasksByStatusMeaning(tasks, Completed, userId);
    CountTasksByStatusMeaning(tasks, Cancelled, userId);
    WithStatusPartition(tasks);
  }

  lemma {:induction false} WithStatusPartition(tasks: seq<Task>)
    ensures |WithStatus(tasks, Pending)| + |WithStatus(tasks, WaitingApproval)| + |WithStatus(tasks, Assigned)|
      + |WithStatus(tasks, Completed)| + |WithStatus(tasks, Cancelled)| == |tasks|
  {
    if |tasks| > 0 {
      WithStatusPartition(tasks[1..]);
      WithStatusCons(tasks, Pending);
      WithStatusCons(tasks, WaitingApproval);
      WithStatusCons(tasks, Assigned);
      WithStatusCons(tasks, Completed);
      WithStatusCons(tasks, Cancelled);
    }
  }

  /** A senior never counts more than a helper would. */
  lemma {:induction false} SeniorCountAtMostHelperCount(tasks: seq<Task>, status: Status, userId: string)
    ensures CountTasksByStatus(tasks, status, Elderly, userId) <= CountTasksByStatus(tasks, status, Helper, userId)
  {
    CountTasksByStatusMeaning(tasks, status, userId);
    OwnAtMostAll(tasks, status, userId);
  }

  lemma {:induction false} OwnAtMostAll(tasks: seq<Task>, status: Status, userId: string)
    ensures |OwnWithStatus(tasks, status, userId)| <= |WithStatus(tasks, status)|
  {
    if |tasks| > 0 {
      OwnAtMostAll(tasks[1..], status, userId);
      WithStatusCons(tasks, status);
      OwnWithStatusCons(tasks, status, userId);
    }
  }

  lemma OwnWithStatusCons(tasks: seq<Task>, status: Status, userId: string)
    requires |tasks| > 0
    ensures |OwnWithStatus(tasks, status, userId)|
      == (if tasks[0].status == status && tasks[0].dbRequestedBy == Some(userId) then 1 else 0)
         + |OwnWithStatus(tasks[1..], status, userId)|
  {
  }
}

=== FILE: helper_points_card.dfy ===
/** The helper's level card (src/components/HelperPointsCard.tsx): the level
    a points total reaches, the points the next level needs, and the
    progress bar towards it. */
module HelperPointsCard {

  /** `getLevelFromPoints`: 50, 100, 250 and 500 points open levels 2 to
      5. */
  function LevelFromPoints(points: int): (r: int)
    ensures 1 <= r <= 5
  {
    if points >= 500 then 5
    else if points >= 250 then 4
    else if points >= 100 then 3
    else if points >= 50 then 2
    else 1
  }

  /** `getNextLevelPoints`: the points that open the level after `level`;
      any other argument (0 or 5, say) falls to the default 999. */
  function NextLevelPoints(level: int): (r: int)
    ensures 1 <= level <= 4 ==> r == Thresholds[level - 1]
    ensures !(1 <= level <= 4) ==> r == 999
  {
    if level == 1 then 50
    else if level == 2 then 100
    else if level == 3 then 250
    else if level == 4 then 500
    else 999
  }

  const Thresholds: seq<int> := [50, 100, 250, 500]

  /** Reference definition: how many of the thresholds a total reaches. */
  function ThresholdsReached(points: int, ts: seq<int>): (r: nat)
    ensures r <= |ts|
  {
    if |ts| == 0 then 0
    else (if points >= ts[0] then 1 else 0) + ThresholdsReached(points, ts[1..])
  }

  /** The level is one more than the number of thresholds reached, and each
      level below 5 lies between the threshold that opened it and the one
      that opens the next. */
  lemma LevelMeaning(points: int)
    ensures LevelFromPoints(points) == 1 + ThresholdsReached(points, Thresholds)
    ensures var l := LevelFromPoints(points);
      && (l < 5 ==> points < NextLevelPoints(l))
      && (l > 1 ==> points >= NextLevelPoints(l - 1))
  {
    var t4 := Thresholds;
    assert t4[1..] == [100, 250, 500];
    assert ThresholdsReached(points, [500]) == (if points >= 500 then 1 else 0) by {
      assert [500][1..] == [];
    }
    assert ThresholdsReached(points, [250, 500]) == (if points >= 250 then 1 else 0) + ThresholdsReached(points, [500]) by {
      assert [250, 500][1..] == [500];
    }
    assert ThresholdsReached(points, [100, 250, 500])
      == (if points >= 100 then 1 else 0) + ThresholdsReached(points, [250, 500]) by {
      assert [100, 250, 500][1..] == [250, 500];
    }
  }

  /** More points never mean a lower level. */
  lemma LevelMonotone(p: int, q: int)
    requires p <= q
    ensures LevelFromPoints(p) <= LevelFromPoints(q)
  {
  }

  /** The card's state: the total, and the level and next-level points
      derived from it when a total arrives. */
  datatype CardState = CardState(points: int, level: int, nextLevelPoints: int)

  /** Before any total arrives (or when the fetch fails): 0 points, level 1
      and 100 points to go, as the `useState` defaults say. */
  const Initial := CardState(0, 1, 100)

  /** A total from the fetch or from a realtime update of the row. */
  function Receive(points: int): (r: CardState)
    ensures Consistent(r) && r.points == points
  {
    var level := LevelFromPoints(points);
    CardState(points, level, NextLevelPoints(level))
  }

  predicate Consistent(s: CardState) {
    s.level == LevelFromPoints(s.points) && s.nextLevelPoints == NextLevelPoints(s.level)
  }

  predicate Reachable(s: CardState) {
    s == Initial || Consistent(s)
  }

  /** "Encore N points": below level 5 the points still missing are
      positive. */
  lemma RemainingPointsPositive(s: CardState)
    requires Reachable(s) && s.level < 5
    ensures s.nextLevelPoints - s.points > 0
  {
    if s != Initial {
      LevelMeaning(s.points);
    }
  }

  /** `Math.round(a / b)` on exact rationals: the nearest integer, halves
      rounded up. */
  function RoundDiv(a: int, b: int): (r: int)
    requires b != 0
  {
    if b > 0 then (2 * a + b) / (2 * b) else (-2 * a - b) / (-2 * b)
  }

  lemma RoundDivNearest(a: int, b: int)
    requires b > 0
    ensures 2 * a - b < 2 * b * RoundDiv(a, b) <= 2 * a + b
  {
  }

  /** Progress in percent, from `lower` to `upper`, rounded as
      `Math.round`. */
  function Percent(points: int, lower: int, upper: int): int
    requires lower != upper
  {
    RoundDiv(100 * (points - lower), upper - lower)
  }

  /** The progress bar as written: the lower bound is
      `getNextLevelPoints(level - 1)`, which for level 1 is the default 999
      rather than 0. */
  function ProgressAsWritten(s: CardState): (r: int)
    requires Reachable(s)
    ensures s.level >= 5 ==> r == 100
  {
    if s.level < 5 then Percent(s.points, NextLevelPoints(s.level - 1), s.nextLevelPoints) else 100
  }

  /** At level 1 the bar starts above 100% and shrinks as points come in:
      105% at 0 points, 100% at 49. */
  lemma ProgressAsWrittenAtLevelOne()
    ensures ProgressAsWritten(Receive(0)) == 105
    ensures ProgressAsWritten(Receive(49)) == 100
    ensures ProgressAsWritten(Initial) == 111
  {
  }

  /** The points at which a level begins: 0 for level 1. */
  function LevelStart(level: int): (r: int)
    ensures level == 1 ==> r == 0
  {
    if level == 1 then 0 else NextLevelPoints(level - 1)
  }

  /** The progress bar, with level 1 starting from 0 points. */
  function Progress(s: CardState): (r: int)
    requires Reachable(s)
    ensures s.level >= 5 ==> r == 100
    ensures Consistent(s) && s.points >= 0 ==> 0 <= r <= 100
  {
    if s.level < 5 then
      ProgressBounds(s);
      Percent(s.points, LevelStart(s.level), s.nextLevelPoints)
    else 100
  }

  lemma ProgressBounds(s: CardState)
    requires Reachable(s) && s.level < 5
    ensures LevelStart(s.level) < s.nextLevelPoints
    ensures Consistent(s) && s.points >= 0 ==>
      0 <= Percent(s.points, LevelStart(s.level), s.nextLevelPoints) <= 100
  {
    if Consistent(s) && s.points >= 0 {
      LevelMeaning(s.points);
      var lo := LevelStart(s.level);
      var hi := s.nextLevelPoints;
      assert lo <= s.points < hi;
      PercentBounds(s.points, lo, hi);
    }
  }

  lemma PercentBounds(p: int, lo: int, hi: int)
    requires lo <= p < hi
    ensures 0 <= Percent(p, lo, hi) <= 100
  {
    var a := 100 * (p - lo);
    var b := hi - lo;
    var r := RoundDiv(a, b);
    RoundDivNearest(a, b);
    assert 0 <= a < 100 * b;
    if r < 0 {
      MulMonotone(2 * b, r, -1);
    }
    if r > 100 {
      MulMonotone(2 * b, 101, r);
    }
  }

  /** Within a level, more points never shrink the bar. */
  lemma ProgressMonotone(p: int, q: int)
    requires 0 <= p <= q && LevelFromPoints(p) == LevelFromPoints(q)
    ensures Progress(Receive(p)) <= Progress(Receive(q))
  {
    var l := LevelFromPoints(p);
    if l < 5 {
      var lo := LevelStart(l);
      var hi := NextLevelPoints(l);
      LevelMeaning(p);
      RoundDivMonotone(100 * (p - lo), 100 * (q - lo), hi - lo);
    }
  }

  lemma RoundDivMonotone(a: int, a': int, b: int)
    requires a <= a' && b > 0
    ensures RoundDiv(a, b) <= RoundDiv(a', b)
  {
    RoundDivNearest(a, b);
    RoundDivNearest(a', b);
    var r := RoundDiv(a, b);
    var r' := RoundDiv(a', b);
    if r > r' {
      MulMonotone(2 * b, r' + 1, r);
    }
  }

  lemma MulMonotone(k: int, x: int, y: int)
    requires k > 0 && x <= y
    ensures k * x <= k * y
  {
    assert k * y - k * x == k * (y - x);
  }

  /** At level 1 each point fills 2% of the bar: 0 points show 0%, 25
      show 50%, 49 show 98%. */
  lemma ProgressAtLevelOne(p: int)
    requires 0 <= p < 50
    ensures Progress(Receive(p)) == 2 * p
  {
    assert Receive(p) == CardState(p, 1, 50);
    var r := RoundDiv(100 * p, 50);
    assert r == (200 * p + 50) / 100;
    RoundDivNearest(100 * p, 50);
    if r < 2 * p {
      MulMonotone(100, r, 2 * p - 1);
    } else if r > 2 * p {
      MulMonotone(100, 2 * p + 1, r);
    }
  }
}

=== FILE: js_number.dfy ===
/** The JavaScript conversions between strings and numbers that the source
    relies on: `Number(s)` (the StringNumericLiteral grammar of ECMAScript,
    section 7.1.4.1.1 of ECMA-262), the global `parseInt(s)` with no radix,
    and the decimal rendering of an integer (`n.toString()`). Numbers are
    exact rationals here, not IEEE doubles. */
module JsNumber {
  import opened Wrappers
  import opened Seqs
  import opened Strings

  /** Result of `Number(...)`. */
  datatype JsNum = Finite(v: real) | PosInf | NegInf | NaN

  /** Value of a hexadecimal digit, or -1 for any other character. */
  function HexValue(c: char): int {
    if '0' <= c <= '9' then c as int - '0' as int
    else if 'a' <= c <= 'f' then c as int - 'a' as int + 10
    else if 'A' <= c <= 'F' then c as int - 'A' as int + 10
    else -1
  }

  predicate IsDigitIn(c: char, radix: nat) {
    0 <= HexValue(c) < radix
  }

  predicate AllDigitsIn(s: string, radix: nat) {
    forall i :: 0 <= i < |s| ==> IsDigitIn(s[i], radix)
  }

  /** Positional value of a digit string, most significant digit first. */
  function DigitsValue(ds: string, radix: nat): nat
    requires AllDigitsIn(ds, radix)
  {
    if |ds| == 0 then 0
    else DigitsValue(ds[..|ds| - 1], radix) * radix + HexValue(ds[|ds| - 1])
  }

  /** The longest prefix of `s` made of digits of `radix`. */
  function DigitPrefix(s: string, radix: nat): (r: string)
    ensures IsPrefix(r, s) && AllDigitsIn(r, radix)
    ensures |r| < |s| ==> !IsDigitIn(s[|r|], radix)
  {
    if |s| > 0 && IsDigitIn(s[0], radix) then [s[0]] + DigitPrefix(s[1..], radix) else ""
  }

  predicate HasPrefix2(s: string, lower: string, upper: string)
    requires |lower| == 2 && |upper| == 2
  {
    |s| >= 2 && (s[..2] == lower || s[..2] == upper)
  }

  /** One leading sign: whether it was `-`, and the rest. */
  function SplitSign(t: string): (bool, string) {
    if |t| > 0 && (t[0] == '-' || t[0] == '+') then (t[0] == '-', t[1..]) else (false, t)
  }

  /** A `0x`/`0X` prefix selects base 16, anything else base 10. */
  function SplitRadix(u: string): (nat, string) {
    if HasPrefix2(u, "0x", "0X") then (16, u[2..]) else (10, u)
  }

  /** The global `parseInt(s)` without a radix argument: leading white space
      and one sign are skipped, a `0x`/`0X` prefix selects base 16, and the
      longest run of digits that follows is read; `None` stands for `NaN`
      (no digit at all). */
  function ParseInt(s: string): (r: Option<int>)
    ensures AllWhitespace(s) ==> r.None?
  {
    var (negative, unsigned) := SplitSign(TrimStart(s));
    var (radix, body) := SplitRadix(unsigned);
    var digits := DigitPrefix(body, radix);
    if digits == "" then None
    else
      var m: int := DigitsValue(digits, radix);
      Some(if negative then -m else m)
  }

  function DigitChar(d: nat): (c: char)
    requires d < 10
    ensures IsDigitIn(c, 10) && HexValue(c) == d
  {
    ('0' as int + d) as char
  }

  /** Decimal digits of a natural number, without leading zeros. */
  function NatDigits(n: nat): (r: string)
    ensures |r| > 0 && AllDigitsIn(r, 10)
    ensures |r| > 1 ==> r[0] != '0'
  {
    if n < 10 then [DigitChar(n)] else NatDigits(n / 10) + [DigitChar(n % 10)]
  }

  /** `n.toString()` for an integer `n`. */
  function IntToString(n: int): string {
    if n < 0 then "-" + NatDigits(-n) else NatDigits(n)
  }

  lemma {:induction false} NatDigitsValue(n: nat)
    ensures DigitsValue(NatDigits(n), 10) == n
  {
    if n >= 10 {
      NatDigitsValue(n / 10);
      var ds := NatDigits(n);
      assert ds[..|ds| - 1] == NatDigits(n / 10);
    }
  }

  lemma {:induction false} DigitPrefixAll(s: string, radix: nat)
    requires AllDigitsIn(s, radix)
    ensures DigitPrefix(s, radix) == s
  {
    if |s| > 0 {
      DigitPrefixAll(s[1..], radix);
      assert s == [s[0]] + s[1..];
    }
  }

  /** The unsigned digits of a natural number read back as that number. */
  lemma ParseDigits(m: nat)
    ensures var ds := NatDigits(m);
      && !HasPrefix2(ds, "0x", "0X")
      && DigitPrefix(ds, 10) == ds
      && DigitsValue(ds, 10) == m
  {
    var ds := NatDigits(m);
    NatDigitsValue(m);
    DigitPrefixAll(ds, 10);
    if |ds| >= 2 {
      assert ds[0] != '0';
    }
  }

  /** A number written with `toString` reads back with `parseInt`: the
      integer counters kept as strings in browser storage survive the round
      trip. */
  lemma ParseIntToString(n: int)
    ensures ParseInt(IntToString(n)) == Some(n)
  {
    var m: nat := if n < 0 then -n else n;
    var ds := NatDigits(m);
    var s := IntToString(n);
    ParseDigits(m);
    ToStringUnpadded(n);
    ToStringSign(n);
    assert SplitRadix(ds) == (10, ds);
  }

  lemma ToStringUnpadded(n: int)
    ensures TrimStart(IntToString(n)) == IntToString(n)
  {
    var s := IntToString(n);
    assert s[0] == '-' || IsDigitIn(s[0], 10);
  }

  lemma ToStringSign(n: int)
    ensures var m: nat := if n < 0 then -n else n; SplitSign(IntToString(n)) == (n < 0, NatDigits(m))
  {
    var m: nat := if n < 0 then -n else n;
    var s := IntToString(n);
    if n < 0 {
      assert s[1..] == NatDigits(m);
    }
  }

  // ---- Number(s) -------------------------------------------------------

  /** `0b…`, `0o…` or `0x…` with at least one digit of that base (no sign
      allowed). */
  function NonDecimalValue(t: string): Option<nat> {
    if HasPrefix2(t, "0b", "0B") && |t| > 2 && AllDigitsIn(t[2..], 2) then Some(DigitsValue(t[2..], 2))
    else if HasPrefix2(t, "0o", "0O") && |t| > 2 && AllDigitsIn(t[2..], 8) then Some(DigitsValue(t[2..], 8))
    else if HasPrefix2(t, "0x", "0X") && |t| > 2 && AllDigitsIn(t[2..], 16) then Some(DigitsValue(t[2..], 16))
    else None
  }

  function Pow10(e: nat): (r: nat)
    ensures r >= 1
  {
    if e == 0 then 1 else 10 * Pow10(e - 1)
  }

  /** Value of a decimal mantissa `int[.frac]` or `.frac` with at least one
      digit in all. */
  function MantissaValue(m: string): Option<real> {
    match IndexOfFrom(m, '.', 0)
    case None =>
      if |m| > 0 && AllDigitsIn(m, 10) then Some(DigitsValue(m, 10) as real) else None
    case Some(dot) =>
      var whole := m[..dot];
      var frac := m[dot + 1..];
      if |whole| + |frac| > 0 && AllDigitsIn(whole, 10) && AllDigitsIn(frac, 10) then
        Some(DigitsValue(whole, 10) as real + DigitsValue(frac, 10) as real / Pow10(|frac|) as real)
      else None
  }

  /** Value of an exponent `[+-]digits`. */
  function ExponentValue(e: string): Option<int> {
    var negative := |e| > 0 && e[0] == '-';
    var ds := if |e| > 0 && (e[0] == '-' || e[0] == '+') then e[1..] else e;
    if |ds| > 0 && AllDigitsIn(ds, 10) then
      var x: int := DigitsValue(ds, 10);
      Some(if negative then -x else x)
    else None
  }

  /** Position of the first `e` or `E`. */
  function ExponentMarker(u: string): (r: Option<nat>)
    ensures r.Some? ==> r.value < |u| && (u[r.value] == 'e' || u[r.value] == 'E')
    ensures r.None? ==> forall k :: 0 <= k < |u| ==> u[k] != 'e' && u[k] != 'E'
  {
    match (IndexOfFrom(u, 'e', 0), IndexOfFrom(u, 'E', 0))
    case (None, None) => None
    case (Some(i), None) => Some(i)
    case (None, Some(j)) => Some(j)
    case (Some(i), Some(j)) => Some(if i < j then i else j)
  }

  function Scale(v: real, e: int): real {
    if e >= 0 then v * Pow10(e) as real else v / Pow10(-e) as real
  }

  /** StrUnsignedDecimalLiteral: `Infinity`, or a mantissa with an optional
      exponent part. */
  function UnsignedDecimal(u: string): JsNum {
    if u == "Infinity" then PosInf
    else
      match ExponentMarker(u)
      case None =>
        (match MantissaValue(u)
         case Some(v) => Finite(v)
         case None => NaN)
      case Some(i) =>
        (match (MantissaValue(u[..i]), ExponentValue(u[i + 1..]))
         case (Some(v), Some(e)) => Finite(Scale(v, e))
         case _ => NaN)
  }

  function Negate(x: JsNum): JsNum {
    match x
    case Finite(v) => Finite(-v)
    case PosInf => NegInf
    case NegInf => PosInf
    case NaN => NaN
  }

  /** `Number(s)` for a string `s`: surrounding white space is ignored, an
      all-white-space string is 0, and anything outside the grammar is
      `NaN`. */
  function Number(s: string): (r: JsNum)
    ensures AllWhitespace(s) ==> r == Finite(0.0)
  {
    var t := Trim(s);
    if t == "" then Finite(0.0)
    else
      match NonDecimalValue(t)
      case Some(x) => Finite(x as real)
      case None => SignedDecimal(t)
  }

  /** StrDecimalLiteral: an optional sign before an unsigned literal. */
  function SignedDecimal(t: string): JsNum {
    var (negative, u) := SplitSign(t);
    if negative then Negate(UnsignedDecimal(u)) else UnsignedDecimal(u)
  }

  /** `isNaN(x) === false && x >= bound` for the result of `Number`. */
  predicate AtLeast(x: JsNum, bound: real) {
    match x
    case Finite(v) => v >= bound
    case PosInf => true
    case NegInf => false
    case NaN => false
  }

  /** An integer written in decimal reads back with `Number`. */
  lemma NumberOfIntToString(n: int)
    ensures Number(IntToString(n)) == Finite(n as real)
  {
    var m: nat := if n < 0 then -n else n;
    ToStringTrimmed(n);
    ToStringNotNonDecimal(n);
    ToStringSign(n);
    UnsignedDigits(m);
  }

  lemma ToStringTrimmed(n: int)
    ensures Trim(IntToString(n)) == IntToString(n)
  {
    var s := IntToString(n);
    ToStringUnpadded(n);
    assert IsDigitIn(s[|s| - 1], 10);
  }

  lemma ToStringNotNonDecimal(n: int)
    ensures NonDecimalValue(IntToString(n)) == None
  {
    var m: nat := if n < 0 then -n else n;
    var ds := NatDigits(m);
    var s := IntToString(n);
    if n < 0 {
      assert s[0] == '-';
    } else if |ds| >= 2 {
      assert s[0] == ds[0] != '0';
    } else {
      assert |s| == 1;
    }
    NotZeroLed(s);
  }

  /** Without a leading `0` there is no `0b`/`0o`/`0x` prefix. */
  lemma NotZeroLed(s: string)
    requires |s| < 2 || s[0] != '0'
    ensures NonDecimalValue(s) == None
  {
    if |s| >= 2 {
      assert s[..2][0] == s[0];
      assert !HasPrefix2(s, "0b", "0B") && !HasPrefix2(s, "0o", "0O") && !HasPrefix2(s, "0x", "0X");
    }
  }

  /** The digits of `m` are a plain decimal mantissa worth `m`. */
  lemma UnsignedDigits(m: nat)
    ensures UnsignedDecimal(NatDigits(m)) == Finite(m as real)
  {
    var ds := NatDigits(m);
    NatDigitsValue(m);
    assert ds != "Infinity" by {
      assert IsDigitIn(ds[0], 10);
    }
    assert ExponentMarker(ds) == None;
    assert IndexOfFrom(ds, '.', 0) == None;
  }
}

=== FILE: local_task_storage.dfy ===
/** The offline task store kept in browser storage (src/utils/localTaskStorage.ts):
    the `tasks` list, and the per-helper point counters stored under
    `helperPoints_<helperId>`. The storage also holds the single counter
    `helperPoints` written by the task card and the accepted-tasks page; the
    two kinds of key never collide, so they are separate fields here. Stored
    strings are modelled by the values they encode: counters are written with
    `toString` and read with `parseInt`, which round-trip
    (`JsNumber.ParseIntToString`). */
module LocalTaskStorage {
  import opened Wrappers
  import opened Types
  import opened Seqs

  datatype LocalStore = LocalStore(
    tasks: seq<Task>,
    globalPoints: Option<int>,
    ledger: map<string, int>)

  /** `parseInt(localStorage.getItem("helperPoints") || "0")`. */
  function GlobalPoints(store: LocalStore): int {
    store.globalPoints.GetOr(0)
  }

  // ---- queries --------------------------------------------------------

  /** Which relation `getUserTasks` selects on. */
  datatype UserField = RequestedBy | HelperAssigned

  function Owner(t: Task, field: UserField): Option<string> {
    match field
    case RequestedBy => t.requestedBy
    case HelperAssigned => t.helperAssigned
  }

  /** `getUserTasks(userId, field)`: exactly the stored tasks whose
      `requestedBy` (or `helperAssigned`) is `userId`, each with its stored
      multiplicity, in stored order. A task without a helper never matches. */
  function GetUserTasks(store: LocalStore, userId: string, field: UserField): (r: seq<Task>)
    ensures forall t :: t in r <==> t in store.tasks && Owner(t, field) == Some(userId)
    ensures forall t :: t in store.tasks && Owner(t, field) == Some(userId) ==>
      multiset(r)[t] == multiset(store.tasks)[t]
    ensures IsSubseq(r, store.tasks)
  {
    Filter(store.tasks, (t: Task) => Owner(t, field) == Some(userId))
  }

  /** `getAvailableTasks()`: exactly the pending stored tasks, in stored
      order. */
  function GetAvailableTasks(store: LocalStore): (r: seq<Task>)
    ensures forall t :: t in r <==> t in store.tasks && t.status == Pending
    ensures forall t :: t in store.tasks && t.status == Pending ==>
      multiset(r)[t] == multiset(store.tasks)[t]
    ensures IsSubseq(r, store.tasks)
  {
    Filter(store.tasks, (t: Task) => t.status == Pending)
  }

  /** `findIndex(task => task.id === id)`: the first position holding `id`. */
  function FindIndex(tasks: seq<Task>, id: string): (r: Option<nat>)
    ensures r.Some? ==> r.value < |tasks| && tasks[r.value].id == id
    ensures r.Some? ==> forall j :: 0 <= j < r.value ==> tasks[j].id != id
    ensures r.None? ==> forall j :: 0 <= j < |tasks| ==> tasks[j].id != id
  {
    if |tasks| == 0 then None
    else if tasks[0].id == id then Some(0)
    else
      match FindIndex(tasks[1..], id)
      case None => None
      case Some(k) => Some(k + 1)
  }

  // ---- creation -------------------------------------------------------

  /** `createLocalTask(fields)`: stores `fields` with the fresh id at the end
      of the list and returns that id; the fresh id comes from `uuidv4` in
      the source and is a parameter here. */
  function CreateLocalTask(store: LocalStore, fields: Task, freshId: string): (r: (LocalStore, string))
    ensures r.1 == freshId
    ensures |r.0.tasks| == |store.tasks| + 1
    ensures r.0.tasks[..|store.tasks|] == store.tasks
    ensures r.0.tasks[|store.tasks|] == fields.(id := freshId)
    ensures r.0.globalPoints == store.globalPoints && r.0.ledger == store.ledger
  {
    (store.(tasks := store.tasks + [fields.(id := freshId)]), freshId)
  }

  /** A created task is found again under its id when the id is fresh. */
  lemma CreatedTaskIsFound(store: LocalStore, fields: Task, freshId: string)
    requires freshId !in Ids(store.tasks)
    ensures FindIndex(CreateLocalTask(store, fields, freshId).0.tasks, freshId) == Some(|store.tasks|)
  {
    var ts := CreateLocalTask(store, fields, freshId).0.tasks;
    assert ts[|store.tasks|].id == freshId;
  }

  /** Creating a pending task adds it to the available list, at the end. */
  lemma CreatedPendingTaskIsAvailable(store: LocalStore, fields: Task, freshId: string)
    requires fields.status == Pending
    ensures GetAvailableTasks(CreateLocalTask(store, fields, freshId).0)
      == GetAvailableTasks(store) + [fields.(id := freshId)]
  {
    var after := CreateLocalTask(store, fields, freshId).0;
    assert after.tasks == store.tasks + [fields.(id := freshId)];
    FilterAppend(store.tasks, [fields.(id := freshId)], (t: Task) => t.status == Pending);
  }

  // ---- update ---------------------------------------------------------

  /** A `Partial<Task>` of the camelCase properties: `None` is a property
      that is not present. */
  datatype TaskPatch = TaskPatch(
    id: Option<string>,
    taskType: Option<TaskType>,
    keywords: Option<seq<string>>,
    location: Option<string>,
    requestedBy: Option<string>,
    requestedByName: Option<string>,
    requestedDate: Option<string>,
    status: Option<Status>,
    helperAssigned: Option<string>)

  const NoChange := TaskPatch(None, None, None, None, None, None, None, None, None)

  /** Every property the patch names already has the patch's value in `t`. */
  predicate Reflects(t: Task, p: TaskPatch) {
    && (p.id.Some? ==> t.id == p.id.value)
    && (p.taskType.Some? ==> t.taskType == p.taskType.value)
    && (p.keywords.Some? ==> t.keywords == p.keywords.value)
    && (p.location.Some? ==> t.location == p.location.value)
    && (p.requestedBy.Some? ==> t.requestedBy == p.requestedBy)
    && (p.requestedByName.Some? ==> t.requestedByName == p.requestedByName.value)
    && (p.requestedDate.Some? ==> t.requestedDate == p.requestedDate)
    && (p.status.Some? ==> t.status == p.status.value)
    && (p.helperAssigned.Some? ==> t.helperAssigned == p.helperAssigned)
  }

  /** `{ ...t, ...patch }`: each present property of the patch overrides the
      task's, every other property is the task's. The result reflects the
      patch, and a task that already reflects it comes back unchanged. */
  function ApplyPatch(t: Task, p: TaskPatch): (r: Task)
    ensures Reflects(r, p)
    ensures Reflects(t, p) ==> r == t
    ensures r.id == p.id.GetOr(t.id)
    ensures r.taskType == p.taskType.GetOr(t.taskType)
    ensures r.keywords == p.keywords.GetOr(t.keywords)
    ensures r.location == p.location.GetOr(t.location)
    ensures r.requestedBy == if p.requestedBy.Some? then p.requestedBy else t.requestedBy
    ensures r.requestedByName == p.requestedByName.GetOr(t.requestedByName)
    ensures r.requestedDate == if p.requestedDate.Some? then p.requestedDate else t.requestedDate
    ensures r.status == p.status.GetOr(t.status)
    ensures r.helperAssigned == if p.helperAssigned.Some? then p.helperAssigned else t.helperAssigned
    ensures r.notificationSent == t.notificationSent
    ensures r.dbRequestedBy == t.dbRequestedBy && r.dbRequestedDate == t.dbRequestedDate
    ensures r.dbHelperAssigned == t.dbHelperAssigned
  {
    t.(id := p.id.GetOr(t.id),
       taskType := p.taskType.GetOr(t.taskType),
       keywords := p.keywords.GetOr(t.keywords),
       location := p.location.GetOr(t.location),
       requestedBy := if p.requestedBy.Some? then p.requestedBy else t.requestedBy,
       requestedByName := p.requestedByName.GetOr(t.requestedByName),
       requestedDate := if p.requestedDate.Some? then p.requestedDate else t.requestedDate,
       status := p.status.GetOr(t.status),
       helperAssigned := if p.helperAssigned.Some? then p.helperAssigned else t.helperAssigned)
  }

  /** An empty patch changes nothing, and a patch applied twice is applied
      once. */
  lemma ApplyPatchLaws(t: Task, p: TaskPatch)
    ensures ApplyPatch(t, NoChange) == t
    ensures ApplyPatch(ApplyPatch(t, p), p) == ApplyPatch(t, p)
  {
  }

  /** `updateLocalTask(id, patch)`: `false` and nothing changes when no task
      has the id; otherwise the first task with the id is overridden by the
      patch, every other position is untouched, and the result is `true`. */
  function UpdateLocalTask(store: LocalStore, id: string, patch: TaskPatch): (r: (LocalStore, bool))
    ensures !r.1 <==> id !in Ids(store.tasks)
    ensures !r.1 ==> r.0 == store
    ensures r.1 ==> exists i :: (FirstWithId(store.tasks, id, i)
      && r.0.tasks == store.tasks[i := ApplyPatch(store.tasks[i], patch)])
    ensures |r.0.tasks| == |store.tasks|
    ensures r.0.globalPoints == store.globalPoints && r.0.ledger == store.ledger
  {
    match FindIndex(store.tasks, id)
    case None => (store, false)
    case Some(i) =>
      assert Ids(store.tasks)[i] == id;
      assert FirstWithId(store.tasks, id, i);
      (store.(tasks := store.tasks[i := ApplyPatch(store.tasks[i], patch)]), true)
  }

  /** Position `i` is the first one holding `id`. */
  predicate FirstWithId(tasks: seq<Task>, id: string, i: int) {
    0 <= i < |tasks| && tasks[i].id == id && forall j :: 0 <= j < i ==> tasks[j].id != id
  }

  // ---- points ---------------------------------------------------------

  /** `getHelperPoints(helperId)`: the stored counter, 0 when absent. */
  function GetHelperPoints(ledger: map<string, int>, helperId: string): (r: int)
    ensures helperId in ledger ==> r == ledger[helperId]
    ensures helperId !in ledger ==> r == 0
  {
    if helperId in ledger then ledger[helperId] else 0
  }

  /** `updateHelperPoints(helperId, n)`: stores and returns the old counter
      (0 when absent) plus `n`; every other helper's counter is untouched. */
  function UpdateHelperPoints(ledger: map<string, int>, helperId: string, pointsToAdd: int): (r: (map<string, int>, int))
    ensures r.1 == GetHelperPoints(ledger, helperId) + pointsToAdd
    ensures helperId in r.0 && r.0[helperId] == r.1
    ensures r.0.Keys == ledger.Keys + {helperId}
    ensures forall h :: h in ledger && h != helperId ==> r.0[h] == ledger[h]
  {
    var newPoints := GetHelperPoints(ledger, helperId) + pointsToAdd;
    (ledger[helperId := newPoints], newPoints)
  }

  /** Reading right after an update returns what the update returned. */
  lemma ReadAfterUpdate(ledger: map<string, int>, helperId: string, other: string, n: int)
    ensures var (after, returned) := UpdateHelperPoints(ledger, helperId, n);
      && GetHelperPoints(after, helperId) == returned
      && (other != helperId ==> GetHelperPoints(after, other) == GetHelperPoints(ledger, other))
  {
  }

  /** Two updates of one helper add up; updates of two helpers commute. */
  lemma UpdatesCompose(ledger: map<string, int>, h1: string, h2: string, a: int, b: int)
    ensures UpdateHelperPoints(UpdateHelperPoints(ledger, h1, a).0, h1, b).0
      == UpdateHelperPoints(ledger, h1, a + b).0
    ensures h1 != h2 ==>
      UpdateHelperPoints(UpdateHelperPoints(ledger, h1, a).0, h2, b).0
      == UpdateHelperPoints(UpdateHelperPoints(ledger, h2, b).0, h1, a).0
  {
  }
}

=== FILE: notifications.dfy ===
/** The notification bell (src/components/Notifications.tsx): the list of
    a user's notifications and the unread badge. */
module Notifications {
  import opened Wrappers
  import opened Seqs

  datatype Notification = Notification(
    id: string,
    userId: string,
    message: string,
    kind: string,
    relatedTaskId: string,
    isRead: bool,
    createdAt: string)

  /** The component's state: the list shown and the number on the badge. */
  datatype Panel = Panel(notifications: seq<Notification>, unreadCount: int)

  const Empty := Panel([], 0)

  function UnreadCount(ns: seq<Notification>): (r: nat)
    ensures r <= |ns|
    ensures r == 0 <==> forall n :: n in ns ==> n.isRead
  {
    Count(ns, (n: Notification) => !n.isRead)
  }

  lemma UnreadCountCons(ns: seq<Notification>)
    requires |ns| > 0
    ensures UnreadCount(ns) == (if ns[0].isRead then 0 else 1) + UnreadCount(ns[1..])
  {
  }

  /** The badge shows the number of unread notifications in the list. */
  predicate BadgeAccurate(p: Panel) {
    p.unreadCount == UnreadCount(p.notifications)
  }

  /** A stored user id that passes the truthiness test: present and not
      the empty string. */
  predicate HasUserId(storedUserId: Option<string>) {
    storedUserId.Some? && storedUserId.value != ""
  }

  /** `fetchNotifications`: without a stored user id (an empty one is falsy
      too), or when the query fails (`None`), nothing changes; otherwise the
      list is replaced by the user's rows and the badge counts their unread
      ones. */
  function Fetch(p: Panel, storedUserId: Option<string>, rows: Option<seq<Notification>>): (r: Panel)
    ensures !HasUserId(storedUserId) || rows.None? ==> r == p
    ensures HasUserId(storedUserId) && rows.Some? ==> r.notifications == rows.value && BadgeAccurate(r)
  {
    if !HasUserId(storedUserId) || rows.None? then p
    else Panel(rows.value, UnreadCount(rows.value))
  }

  /** Every notification with the id, marked read; the others unchanged. */
  function MarkRead(ns: seq<Notification>, id: string): (r: seq<Notification>)
    ensures |r| == |ns|
    ensures forall i :: 0 <= i < |ns| ==> r[i] == if ns[i].id == id then ns[i].(isRead := true) else ns[i]
  {
    Map(ns, (n: Notification) => if n.id == id then n.(isRead := true) else n)
  }

  /** Number of unread notifications carrying `id`. */
  function UnreadWithId(ns: seq<Notification>, id: string): nat {
    Count(ns, (n: Notification) => !n.isRead && n.id == id)
  }

  lemma UnreadWithIdCons(ns: seq<Notification>, id: string)
    requires |ns| > 0
    ensures UnreadWithId(ns, id) == (if !ns[0].isRead && ns[0].id == id then 1 else 0) + UnreadWithId(ns[1..], id)
  {
  }

  /** Marking `id` read takes exactly its unread copies off the count. */
  lemma {:induction false} UnreadAfterMarking(ns: seq<Notification>, id: string)
    ensures UnreadCount(MarkRead(ns, id)) == UnreadCount(ns) - UnreadWithId(ns, id)
  {
    if |ns| > 0 {
      UnreadAfterMarking(ns[1..], id);
      assert MarkRead(ns, id)[1..] == MarkRead(ns[1..], id);
      UnreadCountCons(ns);
      UnreadCountCons(MarkRead(ns, id));
      UnreadWithIdCons(ns, id);
    }
  }

  /** `markAsRead(id)` as written: after a successful write the item is
      marked read and the badge goes down by one (not below 0), whether or
      not the item was unread. */
  function MarkAsReadAsWritten(p: Panel, id: string, writeSucceeded: bool): (r: Panel)
    ensures !writeSucceeded ==> r == p
    ensures writeSucceeded ==> r.notifications == MarkRead(p.notifications, id)
    ensures writeSucceeded ==> r.unreadCount == if p.unreadCount >= 1 then p.unreadCount - 1 else 0
  {
    if !writeSucceeded then p
    else Panel(MarkRead(p.notifications, id), if p.unreadCount - 1 > 0 then p.unreadCount - 1 else 0)
  }

  /** The decrement is right exactly when one unread copy was clicked. */
  lemma MarkAsReadAsWrittenAccurateWhenUnread(p: Panel, id: string)
    requires BadgeAccurate(p) && UnreadWithId(p.notifications, id) == 1
    ensures BadgeAccurate(MarkAsReadAsWritten(p, id, true))
  {
    UnreadAfterMarking(p.notifications, id);
  }

  /** Clicking an already-read item still lowers the badge: with one read
      and one unread item, the badge drops to 0 while one item is unread. */
  lemma MarkAsReadAsWrittenMiscounts(a: Notification, b: Notification)
    requires a.isRead && !b.isRead && a.id != b.id
    ensures var p := Panel([a, b], 1);
      && BadgeAccurate(p)
      && MarkAsReadAsWritten(p, a.id, true).unreadCount == 0
      && UnreadCount(MarkAsReadAsWritten(p, a.id, true).notifications) == 1
  {
    var p := Panel([a, b], 1);
    UnreadCountCons([a, b]);
    assert [a, b][1..] == [b];
    UnreadCountCons([b]);
    assert MarkRead([a, b], a.id) == [a, b];
  }

  /** `markAsRead(id)`: the badge counts the unread notifications left. */
  function MarkAsRead(p: Panel, id: string, writeSucceeded: bool): (r: Panel)
    ensures !writeSucceeded ==> r == p
    ensures writeSucceeded ==> r.notifications == MarkRead(p.notifications, id) && BadgeAccurate(r)
    ensures writeSucceeded && BadgeAccurate(p) ==> r.unreadCount == p.unreadCount - UnreadWithId(p.notifications, id)
  {
    UnreadAfterMarking(p.notifications, id);
    if !writeSucceeded then p
    else
      var ns := MarkRead(p.notifications, id);
      Panel(ns, UnreadCount(ns))
  }

  /** Marking the same item twice is marking it once. */
  lemma MarkAsReadIdempotent(p: Panel, id: string)
    ensures MarkAsRead(MarkAsRead(p, id, true), id, true) == MarkAsRead(p, id, true)
  {
    var ns := MarkRead(p.notifications, id);
    MarkReadIdempotent(p.notifications, id);
    assert MarkAsRead(p, id, true) == Panel(ns, UnreadCount(ns));
  }

  lemma MarkReadIdempotent(ns: seq<Notification>, id: string)
    ensures MarkRead(MarkRead(ns, id), id) == MarkRead(ns, id)
  {
    var once := MarkRead(ns, id);
    var twice := MarkRead(once, id);
    assert forall i :: 0 <= i < |ns| ==> twice[i] == once[i];
  }

  /** The accurate badge is kept by every operation. */
  lemma BadgeStaysAccurate(p: Panel, id: string, ok: bool, storedUserId: Option<string>, rows: Option<seq<Notification>>)
    requires BadgeAccurate(p)
    ensures BadgeAccurate(MarkAsRead(p, id, ok))
    ensures BadgeAccurate(MarkAllAsRead(p, ok))
    ensures BadgeAccurate(Fetch(p, storedUserId, rows))
  {
  }

  /** `markAllAsRead()`: after a successful write every item is read and the
      badge is 0. */
  function MarkAllAsRead(p: Panel, writeSucceeded: bool): (r: Panel)
    ensures !writeSucceeded ==> r == p
    ensures writeSucceeded ==> |r.notifications| == |p.notifications| && r.unreadCount == 0
    ensures writeSucceeded ==> forall i :: 0 <= i < |p.notifications| ==>
      r.notifications[i] == p.notifications[i].(isRead := true)
    ensures writeSucceeded ==> UnreadCount(r.notifications) == 0
  {
    if !writeSucceeded then p
    else
      var ns := Map(p.notifications, (n: Notification) => n.(isRead := true));
      FilterDropsAll(ns, (n: Notification) => !n.isRead);
      Panel(ns, 0)
  }
}

=== FILE: proximity_sort.dfy ===
/** Sorting a helper's tasks by distance (the `sortTasksByProximity` helper
    of src/components/TaskList.tsx). The great-circle distance itself is a
    caller-supplied function of the two coordinate pairs; this module models
    which tasks get a distance, the order the comparator induces, and the
    sort. */
module ProximitySort {
  import opened Wrappers
  import opened Types
  import opened Coordinates
  import opened JsNumber
  import opened Seqs

  /** A task's distance in km, or `Infinity` when its location carries no
      usable coordinates. */
  datatype Distance = Km(km: real) | Infinite

  /** `a <= b` in the order the comparator `a - b` induces: every finite
      distance comes before `Infinity`, and `Infinity - Infinity` is `NaN`,
      which the sort treats as a tie. */
  predicate Le(a: Distance, b: Distance) {
    b.Infinite? || (a.Km? && a.km <= b.km)
  }

  lemma LeTotalPreorder(a: Distance, b: Distance, c: Distance)
    ensures Le(a, a)
    ensures Le(a, b) || Le(b, a)
    ensures Le(a, b) && Le(b, c) ==> Le(a, c)
  {
  }

  /** The distance the source attaches to a task: the haversine distance
      when the location matches the coordinate pattern and both groups are
      numbers, `Infinity` otherwise. */
  function TaskDistance(task: Task, user: (real, real), haversine: (real, real, real, real) -> real): (r: Distance)
    ensures ParseCoordinates(task.location).None? ==> r == Infinite
  {
    match ParseCoordinates(task.location)
    case None => Infinite
    case Some((lat, lon)) =>
      match (Number(lat), Number(lon))
      case (Finite(x), Finite(y)) => Km(haversine(user.0, user.1, x, y))
      case _ => Infinite
  }

  /** `r` is ordered by `key` of its distances. */
  predicate SortedBy(r: seq<Task>, dist: Task -> Distance, key: Distance -> Distance) {
    forall i, j :: 0 <= i < j < |r| ==> Le(key(dist(r[i])), key(dist(r[j])))
  }

  /** Inserting `x` after every element whose key is not greater: the step
      of a stable insertion sort. */
  function Insert(sorted: seq<Task>, x: Task, dist: Task -> Distance, key: Distance -> Distance): (r: seq<Task>)
    requires SortedBy(sorted, dist, key)
    ensures multiset(r) == multiset(sorted) + multiset{x}
    ensures SortedBy(r, dist, key)
  {
    if |sorted| == 0 then [x]
    else
      var last := sorted[|sorted| - 1];
      var init := sorted[..|sorted| - 1];
      assert sorted == init + [last];
      if Le(key(dist(last)), key(dist(x))) then
        AppendSorted(sorted, x, dist, key);
        sorted + [x]
      else
        var front := Insert(init, x, dist, key);
        InsertedBelow(init, last, x, front, dist, key);
        AppendSorted(front, last, dist, key);
        front + [last]
  }

  /** Appending an element no smaller than everything keeps a list sorted. */
  lemma AppendSorted(a: seq<Task>, y: Task, dist: Task -> Distance, key: Distance -> Distance)
    requires SortedBy(a, dist, key)
    requires |a| > 0 ==> Le(key(dist(a[|a| - 1])), key(dist(y)))
    ensures SortedBy(a + [y], dist, key)
  {
    var r := a + [y];
    forall i, j | 0 <= i < j < |r|
      ensures Le(key(dist(r[i])), key(dist(r[j])))
    {
      if j == |a| {
        LeTotalPreorder(key(dist(a[i])), key(dist(a[|a| - 1])), key(dist(y)));
      }
    }
  }

  /** Everything in `front`, the init with `x` inserted, sorts before the
      old last element when `x` does. */
  lemma InsertedBelow(init: seq<Task>, last: Task, x: Task, front: seq<Task>,
                      dist: Task -> Distance, key: Distance -> Distance)
    requires SortedBy(init + [last], dist, key)
    requires !Le(key(dist(last)), key(dist(x)))
    requires multiset(front) == multiset(init) + multiset{x}
    ensures |front| > 0 && Le(key(dist(front[|front| - 1])), key(dist(last)))
  {
    assert |front| == |init| + 1 by {
      assert |multiset(front)| == |multiset(init)| + 1;
    }
    var y := front[|front| - 1];
    assert y in multiset(front);
    if y in init {
      var k :| 0 <= k < |init| && init[k] == y;
      assert (init + [last])[k] == y && (init + [last])[|init|] == last;
    } else {
      assert y == x;
      LeTotalPreorder(key(dist(last)), key(dist(x)), key(dist(x)));
    }
  }

  /** A stable sort by `key` of the distances; `Array.prototype.sort` is
      stable, so for a consistent comparator its result is this one. */
  function SortBy(s: seq<Task>, dist: Task -> Distance, key: Distance -> Distance): (r: seq<Task>)
    ensures multiset(r) == multiset(s)
    ensures SortedBy(r, dist, key)
  {
    if |s| == 0 then []
    else
      assert s == s[..|s| - 1] + [s[|s| - 1]];
      Insert(SortBy(s[..|s| - 1], dist, key), s[|s| - 1], dist, key)
  }

  /** The tasks whose sort key is `v`: a class of ties for the comparator. */
  function SameKey(dist: Task -> Distance, key: Distance -> Distance, v: Distance): Task -> bool {
    (t: Task) => key(dist(t)) == v
  }

  /** Inserting `x` keeps the order among every class of ties and puts `x`
      after the tasks it ties with. */
  lemma {:induction false} InsertStable(sorted: seq<Task>, x: Task, dist: Task -> Distance, key: Distance -> Distance, v: Distance)
    requires SortedBy(sorted, dist, key)
    ensures Filter(Insert(sorted, x, dist, key), SameKey(dist, key, v))
         == Filter(sorted, SameKey(dist, key, v)) + Filter([x], SameKey(dist, key, v))
  {
    var p := SameKey(dist, key, v);
    if |sorted| == 0 {
      assert Insert(sorted, x, dist, key) == [x];
    } else {
      var last := sorted[|sorted| - 1];
      var init := sorted[..|sorted| - 1];
      assert sorted == init + [last];
      if Le(key(dist(last)), key(dist(x))) {
        FilterAppend(sorted, [x], p);
      } else {
        var front := Insert(init, x, dist, key);
        assert Insert(sorted, x, dist, key) == front + [last];
        // `x` and `last` never tie here, since a tie would be `Le` both ways.
        assert !(p(x) && p(last)) by {
          LeTotalPreorder(key(dist(x)), key(dist(x)), key(dist(x)));
        }
        calc {
          Filter(front + [last], p);
          { FilterAppend(front, [last], p); }
          Filter(front, p) + Filter([last], p);
          { InsertStable(init, x, dist, key, v); }
          Filter(init, p) + Filter([x], p) + Filter([last], p);
          { FilterSwapOne(Filter(init, p), x, last, p); }
          Filter(init, p) + Filter([last], p) + Filter([x], p);
          { FilterAppend(init, [last], p); }
          Filter(sorted, p) + Filter([x], p);
        }
      }
    }
  }

  /** The sort is stable: every class of ties keeps its order from the
      input. */
  lemma {:induction false} SortByStable(s: seq<Task>, dist: Task -> Distance, key: Distance -> Distance, v: Distance)
    ensures Filter(SortBy(s, dist, key), SameKey(dist, key, v)) == Filter(s, SameKey(dist, key, v))
  {
    var p := SameKey(dist, key, v);
    if |s| > 0 {
      var init := s[..|s| - 1];
      var x := s[|s| - 1];
      assert s == init + [x];
      calc {
        Filter(SortBy(s, dist, key), p);
        Filter(Insert(SortBy(init, dist, key), x, dist, key), p);
        { InsertStable(SortBy(init, dist, key), x, dist, key, v); }
        Filter(SortBy(init, dist, key), p) + Filter([x], p);
        { SortByStable(init, dist, key, v); }
        Filter(init, p) + Filter([x], p);
        { FilterAppend(init, [x], p); }
        Filter(s, p);
      }
    }
  }

  lemma SortByStableAll(s: seq<Task>, dist: Task -> Distance, key: Distance -> Distance)
    ensures forall v :: Filter(SortBy(s, dist, key), SameKey(dist, key, v)) == Filter(s, SameKey(dist, key, v))
  {
    forall v {
      SortByStable(s, dist, key, v);
    }
  }

  /** `a.distance || Infinity`: a distance of 0 is falsy and becomes
      `Infinity`. */
  function KeyAsWritten(d: Distance): Distance {
    if d == Km(0.0) then Infinite else d
  }

  /** The comparator compares the distances themselves. */
  function Key(d: Distance): Distance {
    d
  }

  /** The proximity sort as written: a task exactly at the user's position
      ranks with the tasks that have no coordinates. */
  function SortByProximityAsWritten(tasks: seq<Task>, dist: Task -> Distance): (r: seq<Task>)
    ensures multiset(r) == multiset(tasks)
    ensures SortedBy(r, dist, KeyAsWritten)
    ensures forall v :: Filter(r, SameKey(dist, KeyAsWritten, v)) == Filter(tasks, SameKey(dist, KeyAsWritten, v))
  {
    SortByStableAll(tasks, dist, KeyAsWritten);
    SortBy(tasks, dist, KeyAsWritten)
  }

  /** Two tasks, one at the user's position and one 5 km away: the nearer
      one is listed last. */
  lemma AsWrittenListsNearestLast(near: Task, far: Task)
    requires near != far
    ensures var dist := (t: Task) => if t == near then Km(0.0) else Km(5.0);
      SortByProximityAsWritten([near, far], dist) == [far, near]
  {
    var dist := (t: Task) => if t == near then Km(0.0) else Km(5.0);
    assert SortBy([near], dist, KeyAsWritten) == [near];
    assert [near, far][..1] == [near];
    assert !Le(KeyAsWritten(dist(near)), KeyAsWritten(dist(far)));
    assert Insert([near], far, dist, KeyAsWritten) == [far, near] by {
      assert [near][..0] == [];
    }
  }

  /** The proximity sort: nearest first, tasks without coordinates last. */
  function SortByProximity(tasks: seq<Task>, dist: Task -> Distance): (r: seq<Task>)
    ensures multiset(r) == multiset(tasks)
    ensures forall i, j :: 0 <= i < j < |r| ==> Le(dist(r[i]), dist(r[j]))
    ensures forall v :: Filter(r, SameKey(dist, Key, v)) == Filter(tasks, SameKey(dist, Key, v))
  {
    SortByStableAll(tasks, dist, Key);
    SortBy(tasks, dist, Key)
  }

  /** After the corrected sort every task with a distance precedes every
      task without one, and known distances never decrease. */
  lemma NearestFirst(tasks: seq<Task>, dist: Task -> Distance, i: nat, j: nat)
    requires i < j < |SortByProximity(tasks, dist)|
    ensures var r := SortByProximity(tasks, dist);
      && (dist(r[i]).Infinite? ==> dist(r[j]).Infinite?)
      && (dist(r[i]).Km? && dist(r[j]).Km? ==> dist(r[i]).km <= dist(r[j]).km)
  {
  }

  lemma CorrectedListsNearestFirst(near: Task, far: Task)
    requires near != far
    ensures var dist := (t: Task) => if t == near then Km(0.0) else Km(5.0);
      SortByProximity([near, far], dist) == [near, far]
  {
    var dist := (t: Task) => if t == near then Km(0.0) else Km(5.0);
    assert SortBy([near], dist, Key) == [near];
    assert [near, far][..1] == [near];
    assert Le(Key(dist(near)), Key(dist(far)));
    assert Insert([near], far, dist, Key) == [near, far];
  }

  /** Every task's distance from the user's position. */
  function DistanceFrom(user: (real, real), haversine: (real, real, real, real) -> real): Task -> Distance {
    (t: Task) => TaskDistance(t, user, haversine)
  }

  /** `sortTasksByProximity(tasks)`: unchanged unless the toggle is on and a
      user position is stored (`None` also covers a stored value that does
      not parse, which the source's `catch` turns into the unsorted list);
      otherwise sorted with the comparator as written, so a task at distance
      0 ranks with the tasks that have no coordinates. */
  function SortTasksByProximity(tasks: seq<Task>, sortByProximity: bool, userLocation: Option<(real, real)>,
                                haversine: (real, real, real, real) -> real): (r: seq<Task>)
    ensures multiset(r) == multiset(tasks)
    ensures !sortByProximity || userLocation.None? ==> r == tasks
    ensures sortByProximity && userLocation.Some? ==> forall i, j :: 0 <= i < j < |r| ==>
      Le(KeyAsWritten(TaskDistance(r[i], userLocation.value, haversine)),
         KeyAsWritten(TaskDistance(r[j], userLocation.value, haversine)))
    ensures sortByProximity && userLocation.Some? ==> forall v ::
      var ties := SameKey(DistanceFrom(userLocation.value, haversine), KeyAsWritten, v);
      Filter(r, ties) == Filter(tasks, ties)
  {
    if !sortByProximity || userLocation.None? then tasks
    else SortByProximityAsWritten(tasks, DistanceFrom(userLocation.value, haversine))
  }

  /** The same toggle with the corrected comparator: nearest first, tasks
      without coordinates last. */
  function SortTasksByProximityCorrected(tasks: seq<Task>, sortByProximity: bool, userLocation: Option<(real, real)>,
                                         haversine: (real, real, real, real) -> real): (r: seq<Task>)
    ensures multiset(r) == multiset(tasks)
    ensures !sortByProximity || userLocation.None? ==> r == tasks
    ensures sortByProximity && userLocation.Some? ==> forall i, j :: 0 <= i < j < |r| ==>
      Le(TaskDistance(r[i], userLocation.value, haversine), TaskDistance(r[j], userLocation.value, haversine))
    ensures sortByProximity && userLocation.Some? ==> forall v ::
      var ties := SameKey(DistanceFrom(userLocation.value, haversine), Key, v);
      Filter(r, ties) == Filter(tasks, ties)
  {
    if !sortByProximity || userLocation.None? then tasks
    else SortByProximity(tasks, DistanceFrom(userLocation.value, haversine))
  }
}

=== FILE: register.dfy ===
/** The registration form (src/pages/Register.tsx): the rules of
    `registerSchema` and what reaches `signUp`. Whether an e-mail address is
    well formed is decided by the validation library and is a parameter
    here. */
module Register {
  import opened Wrappers
  import opened Types
  import opened JsNumber
  import opened Strings

  datatype RegisterForm = RegisterForm(name: string, email: string, password: string, age: string)

  /** One message per failing rule, in the schema's field order. */
  datatype FieldError = NameTooShort | InvalidEmail | PasswordTooShort | Underage

  const MinNameLength := 2
  const MinPasswordLength := 6
  const MinAge := 18.0

  /** The age rule: `!isNaN(Number(age)) && Number(age) >= 18`. */
  predicate AgeAccepted(age: string) {
    AtLeast(Number(age), MinAge)
  }

  /** Every rule the form breaks; the form is valid when there is none. */
  function Validate(form: RegisterForm, isEmail: string -> bool): (r: seq<FieldError>)
    ensures NameTooShort in r <==> |form.name| < MinNameLength
    ensures InvalidEmail in r <==> !isEmail(form.email)
    ensures PasswordTooShort in r <==> |form.password| < MinPasswordLength
    ensures Underage in r <==> !AgeAccepted(form.age)
    ensures |r| <= 4
  {
    Issues(form, isEmail, AgeAccepted(form.age))
  }

  /** The failing rules, given whether the age passed. */
  function Issues(form: RegisterForm, isEmail: string -> bool, ageOk: bool): (r: seq<FieldError>)
    ensures NameTooShort in r <==> |form.name| < MinNameLength
    ensures InvalidEmail in r <==> !isEmail(form.email)
    ensures PasswordTooShort in r <==> |form.password| < MinPasswordLength
    ensures Underage in r <==> !ageOk
    ensures |r| <= 4
  {
    (if |form.name| < MinNameLength then [NameTooShort] else [])
    + (if !isEmail(form.email) then [InvalidEmail] else [])
    + (if |form.password| < MinPasswordLength then [PasswordTooShort] else [])
    + (if !ageOk then [Underage] else [])
  }

  /** The arguments of `signUp`. */
  datatype SignUp = SignUp(name: string, email: string, password: string, age: JsNum, role: Role)

  /** `onSubmit`: only a valid form is submitted, with `Number(age)` and the
      chosen role. */
  function Submit(form: RegisterForm, role: Role, isEmail: string -> bool): (r: Option<SignUp>)
    ensures r.Some? <==> Validate(form, isEmail) == []
    ensures r.Some? ==> r.value == SignUp(form.name, form.email, form.password, Number(form.age), role)
    ensures r.Some? ==> AtLeast(r.value.age, MinAge)
  {
    if Validate(form, isEmail) == [] then Some(SignUp(form.name, form.email, form.password, Number(form.age), role))
    else None
  }

  /** A whole number written in decimal passes the age rule exactly when it
      is at least 18, and `signUp` receives that number. */
  lemma AgeOfInteger(n: int)
    ensures AgeAccepted(IntToString(n)) <==> n >= 18
    ensures Number(IntToString(n)) == Finite(n as real)
  {
    NumberOfIntToString(n);
  }

  /** The empty answer reads as 0 and fails. */
  lemma EmptyAgeRejected()
    ensures !AgeAccepted("")
  {
    assert AllWhitespace("");
  }

  predicate NoDecimalDigit(x: string) {
    forall k :: 0 <= k < |x| ==> !IsDigitIn(x[k], 10)
  }

  /** An answer without any decimal digit fails, unless it is `Infinity`
      (which `Number` reads as a number above 18). */
  lemma NoDigitsRejected(age: string)
    requires NoDecimalDigit(age)
    requires Trim(age) != "Infinity" && Trim(age) != "+Infinity"
    ensures !AgeAccepted(age)
  {
    var t := Trim(age);
    TrimNoDigits(age);
    if t != "" {
      NonDecimalWithoutDigits(t);
      SignedWithoutDigits(t);
    }
  }

  lemma TrimNoDigits(age: string)
    requires NoDecimalDigit(age)
    ensures NoDecimalDigit(Trim(age))
  {
    var t := Trim(age);
    var i :| OccursAt(age, t, i);
    forall k | 0 <= k < |t|
      ensures !IsDigitIn(t[k], 10)
    {
      assert t[k] == age[i + k];
    }
  }

  lemma NonDecimalWithoutDigits(t: string)
    requires NoDecimalDigit(t)
    ensures NonDecimalValue(t) == None
  {
    if |t| >= 2 {
      assert !IsDigitIn(t[0], 10);
    }
    NotZeroLed(t);
  }

  lemma SignedWithoutDigits(t: string)
    requires NoDecimalDigit(t) && t != "Infinity" && t != "+Infinity"
    ensures !AtLeast(SignedDecimal(t), MinAge)
  {
    var (negative, u) := SplitSign(t);
    assert NoDecimalDigit(u) by {
      forall k | 0 <= k < |u|
        ensures !IsDigitIn(u[k], 10)
      {
        if u != t {
          assert u[k] == t[k + 1];
        }
      }
    }
    if u != "Infinity" {
      UnsignedWithoutDigits(u);
    } else {
      assert negative;
    }
  }

  /** Without a digit, an unsigned literal other than `Infinity` is `NaN`. */
  lemma UnsignedWithoutDigits(u: string)
    requires NoDecimalDigit(u) && u != "Infinity"
    ensures UnsignedDecimal(u) == NaN
  {
    MantissaWithoutDigits(u);
    match ExponentMarker(u)
    case None =>
    case Some(i) =>
      assert NoDecimalDigit(u[..i]) by {
        assert forall k :: 0 <= k < i ==> u[..i][k] == u[k];
      }
      MantissaWithoutDigits(u[..i]);
  }

  lemma MantissaWithoutDigits(m: string)
    requires NoDecimalDigit(m)
    ensures MantissaValue(m) == None
  {
    match IndexOfFrom(m, '.', 0)
    case None =>
      if |m| > 0 {
        assert !IsDigitIn(m[0], 10);
      }
    case Some(dot) =>
      var whole := m[..dot];
      var frac := m[dot + 1..];
      if |whole| > 0 {
        assert whole[0] == m[0];
      } else if |frac| > 0 {
        assert frac[0] == m[dot + 1];
      }
  }

  /** A name of one character, a password of five, and a password of six. */
  lemma LengthBoundaries(form: RegisterForm, isEmail: string -> bool)
    ensures |form.name| == 1 ==> NameTooShort in Validate(form, isEmail)
    ensures |form.password| == 5 ==> PasswordTooShort in Validate(form, isEmail)
    ensures |form.password| == 6 ==> PasswordTooShort !in Validate(form, isEmail)
  {
  }

}

=== FILE: seqs.dfy ===
/** Order-preserving filtering of sequences, the subsequence relation and
    counting. Every `Array.prototype.filter` of the source is modelled by
    `Filter`; its contract pins the result down completely: a subsequence of
    the input holding every element that passes the test, with the input's
    multiplicity, and nothing else. */
module Seqs {

  /** `a` can be obtained from `b` by deleting elements (order kept). */
  predicate IsSubseq<T(==)>(a: seq<T>, b: seq<T>)
    decreases |b|
  {
    |a| == 0 || (|b| > 0 && if a[0] == b[0] then IsSubseq(a[1..], b[1..]) else IsSubseq(a, b[1..]))
  }

  /** Every sequence is a subsequence of itself. */
  lemma {:induction false} IsSubseqRefl<T>(s: seq<T>)
    ensures IsSubseq(s, s)
  {
    if |s| > 0 {
      IsSubseqRefl(s[1..]);
    }
  }

  /** A subsequence of the tail is a subsequence of the whole. */
  lemma {:induction false} IsSubseqCons<T>(a: seq<T>, b: seq<T>)
    requires |b| > 0 && IsSubseq(a, b[1..])
    ensures IsSubseq(a, b)
    decreases |b|, 0
  {
    if |a| > 0 && a[0] == b[0] {
      IsSubseqTail(a, b[1..]);
    }
  }

  /** Dropping the head of a subsequence keeps it a subsequence. */
  lemma {:induction false} IsSubseqTail<T>(a: seq<T>, b: seq<T>)
    requires |a| > 0 && IsSubseq(a, b)
    ensures IsSubseq(a[1..], b)
    decreases |b|, 1
  {
    if a[0] == b[0] {
      IsSubseqCons(a[1..], b);
    } else {
      IsSubseqTail(a, b[1..]);
      IsSubseqCons(a[1..], b);
    }
  }

  /** The subsequence relation is transitive. */
  lemma {:induction false} IsSubseqTrans<T>(a: seq<T>, b: seq<T>, c: seq<T>)
    requires IsSubseq(a, b) && IsSubseq(b, c)
    ensures IsSubseq(a, c)
    decreases |c|
  {
    if |a| > 0 {
      if b[0] != c[0] {
        IsSubseqTrans(a, b, c[1..]);
        IsSubseqCons(a, c);
      } else if a[0] == b[0] {
        IsSubseqTrans(a[1..], b[1..], c[1..]);
      } else {
        IsSubseqTrans(a, b[1..], c[1..]);
      }
    }
  }

  /** A subsequence holds each value at most as often as the sequence. */
  lemma {:induction false} SubseqCount<T>(a: seq<T>, b: seq<T>, x: T)
    requires IsSubseq(a, b)
    ensures multiset(a)[x] <= multiset(b)[x]
    decreases |b|
  {
    if |a| > 0 {
      assert b == [b[0]] + b[1..];
      if a[0] == b[0] {
        assert a == [a[0]] + a[1..];
        SubseqCount(a[1..], b[1..], x);
      } else {
        SubseqCount(a, b[1..], x);
      }
    }
  }

  /** `p` is a prefix of `s`. */
  predicate IsPrefix<T(==)>(p: seq<T>, s: seq<T>) {
    |p| <= |s| && s[..|p|] == p
  }

  function Filter<T(==, !new)>(s: seq<T>, p: T -> bool): (r: seq<T>)
    ensures |r| <= |s|
    ensures forall x :: x in r <==> x in s && p(x)
    ensures forall x :: multiset(r)[x] == if p(x) then multiset(s)[x] else 0
    ensures IsSubseq(r, s)
  {
    if |s| == 0 then []
    else
      var rest := Filter(s[1..], p);
      assert s == [s[0]] + s[1..];
      if p(s[0]) then
        assert ([s[0]] + rest)[1..] == rest;
        [s[0]] + rest
      else
        rest
  }

  /** `Filter`'s contract determines its result: a subsequence of `s` that
      holds every value passing `p` as often as `s` does, and no other
      value, is `Filter(s, p)`. */
  lemma {:induction false} FilterUnique<T(!new)>(s: seq<T>, p: T -> bool, r: seq<T>)
    requires IsSubseq(r, s)
    requires forall x :: multiset(r)[x] == if p(x) then multiset(s)[x] else 0
    ensures r == Filter(s, p)
    decreases |s|
  {
    if |s| > 0 {
      FilterCons(s, p);
      if |r| > 0 && r[0] == s[0] {
        FilterUniqueKeep(s, p, r);
        FilterUnique(s[1..], p, r[1..]);
        assert r == [r[0]] + r[1..];
      } else {
        FilterUniqueDrop(s, p, r);
        FilterUnique(s[1..], p, r);
      }
    }
  }

  /** When the subsequence starts with the head of `s`, the head passes and
      the tails meet the premises of `FilterUnique`. */
  lemma FilterUniqueKeep<T(!new)>(s: seq<T>, p: T -> bool, r: seq<T>)
    requires |s| > 0 && |r| > 0 && r[0] == s[0]
    requires IsSubseq(r, s)
    requires forall x :: multiset(r)[x] == if p(x) then multiset(s)[x] else 0
    ensures p(s[0]) && IsSubseq(r[1..], s[1..])
    ensures forall x :: multiset(r[1..])[x] == if p(x) then multiset(s[1..])[x] else 0
  {
    assert s == [s[0]] + s[1..];
    assert r == [r[0]] + r[1..];
    assert multiset(r)[s[0]] > 0;
  }

  /** When it does not, the head fails `p` and is skipped. */
  lemma FilterUniqueDrop<T(!new)>(s: seq<T>, p: T -> bool, r: seq<T>)
    requires |s| > 0 && !(|r| > 0 && r[0] == s[0])
    requires IsSubseq(r, s)
    requires forall x :: multiset(r)[x] == if p(x) then multiset(s)[x] else 0
    ensures !p(s[0]) && IsSubseq(r, s[1..])
    ensures forall x :: multiset(r)[x] == if p(x) then multiset(s[1..])[x] else 0
  {
    assert s == [s[0]] + s[1..];
    SubseqCount(r, s[1..], s[0]);
    assert multiset(s)[s[0]] == multiset(s[1..])[s[0]] + 1;
  }

  /** Number of elements that pass `p`. */
  function Count<T(==, !new)>(s: seq<T>, p: T -> bool): nat {
    |Filter(s, p)|
  }

  /** Filtering distributes over concatenation: this is what "order
      preserved" means for a filter. */
  lemma {:induction false} FilterAppend<T(!new)>(a: seq<T>, b: seq<T>, p: T -> bool)
    ensures Filter(a + b, p) == Filter(a, p) + Filter(b, p)
  {
    if |a| == 0 {
      assert a + b == b;
    } else {
      var fa, fb := Filter(a[1..], p), Filter(b, p);
      FilterAppend(a[1..], b, p);
      FilterHeadAppend(a, b, p);
      FilterCons(a, p);
      if p(a[0]) {
        calc {
          Filter(a + b, p);
          [a[0]] + Filter(a[1..] + b, p);
          [a[0]] + (fa + fb);
          { ConsAssoc(a[0], fa, fb); }
          ([a[0]] + fa) + fb;
          Filter(a, p) + fb;
        }
      } else {
        calc {
          Filter(a + b, p);
          Filter(a[1..] + b, p);
          fa + fb;
          Filter(a, p) + fb;
        }
      }
    }
  }

  /** The head of `a` heads `a + b`, so filtering `a + b` starts like
      filtering `a`. */
  lemma FilterHeadAppend<T(!new)>(a: seq<T>, b: seq<T>, p: T -> bool)
    requires |a| > 0
    ensures Filter(a + b, p) == if p(a[0]) then [a[0]] + Filter(a[1..] + b, p) else Filter(a[1..] + b, p)
  {
    var ab := a + b;
    assert ab[0] == a[0] && ab[1..] == a[1..] + b;
    FilterCons(ab, p);
  }

  /** Prepending one element and appending associate. */
  lemma ConsAssoc<T>(x: T, a: seq<T>, b: seq<T>)
    ensures [x] + (a + b) == ([x] + a) + b
  {
  }

  /** A filter that every element passes returns its input. */
  lemma {:induction false} FilterKeepsAll<T(!new)>(s: seq<T>, p: T -> bool)
    requires forall i :: 0 <= i < |s| ==> p(s[i])
    ensures Filter(s, p) == s
  {
    if |s| > 0 {
      FilterKeepsAll(s[1..], p);
      assert s == [s[0]] + s[1..];
    }
  }

  /** A filter that no element passes returns the empty sequence. */
  lemma {:induction false} FilterDropsAll<T(!new)>(s: seq<T>, p: T -> bool)
    requires forall i :: 0 <= i < |s| ==> !p(s[i])
    ensures Filter(s, p) == []
  {
    if |s| > 0 {
      FilterDropsAll(s[1..], p);
    }
  }

  /** Filtering twice with the same test is filtering once. */
  lemma {:induction false} FilterIdempotent<T(!new)>(s: seq<T>, p: T -> bool)
    ensures Filter(Filter(s, p), p) == Filter(s, p)
  {
    var r := Filter(s, p);
    assert forall i :: 0 <= i < |r| ==> r[i] in r;
    FilterKeepsAll(r, p);
  }

  /** Filters with tests that agree on the elements of `s` agree on `s`. */
  lemma {:induction false} FilterCongruent<T(!new)>(s: seq<T>, p: T -> bool, q: T -> bool)
    requires forall i :: 0 <= i < |s| ==> p(s[i]) == q(s[i])
    ensures Filter(s, p) == Filter(s, q)
  {
    if |s| > 0 {
      FilterCongruent(s[1..], p, q);
    }
  }

  /** Filtering by `p` then by `q` is filtering by both. */
  lemma {:induction false} FilterFilter<T(!new)>(s: seq<T>, p: T -> bool, q: T -> bool)
    ensures Filter(Filter(s, p), q) == Filter(s, x => p(x) && q(x))
  {
    if |s| > 0 {
      FilterFilter(s[1..], p, q);
      var rest := Filter(s[1..], p);
      if p(s[0]) {
        assert ([s[0]] + rest)[1..] == rest;
      }
    }
  }

  /** Applying `f` to each element; it commutes with filtering by a test that
      `f` respects. */
  function Map<T, U>(s: seq<T>, f: T -> U): (r: seq<U>)
    ensures |r| == |s|
    ensures forall i :: 0 <= i < |s| ==> r[i] == f(s[i])
  {
    seq(|s|, i requires 0 <= i < |s| => f(s[i]))
  }

  lemma {:induction false} MapFilter<T(!new), U(!new)>(s: seq<T>, f: T -> U, p: T -> bool, q: U -> bool)
    requires forall i :: 0 <= i < |s| ==> q(f(s[i])) == p(s[i])
    ensures Filter(Map(s, f), q) == Map(Filter(s, p), f)
  {
    if |s| > 0 {
      var m := Map(s, f);
      var rest := Filter(s[1..], p);
      MapCons(s, f);
      FilterCons(m, q);
      FilterCons(s, p);
      MapFilter(s[1..], f, p, q);
      if p(s[0]) {
        MapCons([s[0]] + rest, f);
        assert ([s[0]] + rest)[1..] == rest;
      }
    }
  }

  /** `Filter` on a single element. */
  lemma FilterOne<T(!new)>(x: T, p: T -> bool)
    ensures Filter([x], p) == if p(x) then [x] else []
  {
    assert [x][1..] == [];
  }

  /** Two single elements that do not both pass the filter may change
      places without changing what it keeps. */
  lemma FilterSwapOne<T(!new)>(a: seq<T>, x: T, y: T, p: T -> bool)
    requires !(p(x) && p(y))
    ensures a + Filter([x], p) + Filter([y], p) == a + Filter([y], p) + Filter([x], p)
  {
    FilterOne(x, p);
    FilterOne(y, p);
  }

  /** One step of `Filter`. */
  lemma FilterCons<T(!new)>(s: seq<T>, p: T -> bool)
    requires |s| > 0
    ensures Filter(s, p) == if p(s[0]) then [s[0]] + Filter(s[1..], p) else Filter(s[1..], p)
  {
  }

  /** One step of `Map`. */
  lemma MapCons<T, U>(s: seq<T>, f: T -> U)
    requires |s| > 0
    ensures Map(s, f) == [f(s[0])] + Map(s[1..], f)
  {
    assert Map(s, f)[1..] == Map(s[1..], f);
  }

  /** The image of every element is in the mapped sequence. */
  lemma MapKeepsMembers<T, U>(s: seq<T>, f: T -> U)
    ensures forall x :: x in s ==> f(x) in Map(s, f)
  {
    var r := Map(s, f);
    forall x | x in s
      ensures f(x) in r
    {
      var k :| 0 <= k < |s| && s[k] == x;
      assert r[k] == f(x);
    }
  }
}

=== FILE: strings.dfy ===
/** String helpers with the semantics of the JavaScript built-ins the source
    calls: the white-space set of `String.prototype.trim` (WhiteSpace and
    LineTerminator of ECMAScript), `trim`/`trimStart`, `includes`, and a
    `toLowerCase` restricted to ASCII and Latin-1 letters. */
module Strings {
  import opened Seqs
  import opened Wrappers

  /** ECMAScript WhiteSpace and LineTerminator code points. */
  predicate IsWhitespace(c: char) {
    || c == '\t' || c == '\n' || c == '\U{B}' || c == '\U{C}' || c == '\r'
    || c == ' ' || c == '\U{A0}' || c == '\U{1680}'
    || ('\U{2000}' <= c <= '\U{200A}')
    || c == '\U{2028}' || c == '\U{2029}' || c == '\U{202F}' || c == '\U{205F}'
    || c == '\U{3000}' || c == '\U{FEFF}'
  }

  predicate AllWhitespace(s: string) {
    forall i :: 0 <= i < |s| ==> IsWhitespace(s[i])
  }

  /** `s` without its leading white space. */
  function TrimStart(s: string): (r: string)
    ensures |r| <= |s| && r == s[|s| - |r|..]
    ensures |r| > 0 ==> !IsWhitespace(r[0])
  {
    if |s| > 0 && IsWhitespace(s[0]) then TrimStart(s[1..]) else s
  }

  /** What `TrimStart` drops is white space. */
  lemma {:induction false} TrimStartDrops(s: string)
    ensures AllWhitespace(s[..|s| - |TrimStart(s)|])
  {
    if |s| > 0 && IsWhitespace(s[0]) {
      TrimStartDrops(s[1..]);
      var k := |s| - |TrimStart(s)|;
      assert forall i :: 1 <= i < k ==> s[..k][i] == s[1..][..k - 1][i - 1];
    }
  }

  /** `s` without its trailing white space. */
  function TrimEnd(s: string): (r: string)
    ensures |r| <= |s| && r == s[..|r|]
    ensures |r| > 0 ==> !IsWhitespace(r[|r| - 1])
  {
    if |s| > 0 && IsWhitespace(s[|s| - 1]) then TrimEnd(s[..|s| - 1]) else s
  }

  /** What `TrimEnd` drops is white space. */
  lemma {:induction false} TrimEndDrops(s: string)
    ensures AllWhitespace(s[|TrimEnd(s)|..])
  {
    if |s| > 0 && IsWhitespace(s[|s| - 1]) {
      TrimEndDrops(s[..|s| - 1]);
      var k := |TrimEnd(s)|;
      assert forall i :: 0 <= i < |s| - 1 - k ==> s[k..][i] == s[..|s| - 1][k..][i];
    }
  }

  /** `needle` occurs in `haystack` starting at offset `i`. */
  predicate OccursAt(haystack: string, needle: string, i: int) {
    0 <= i <= |haystack| - |needle| && haystack[i..i + |needle|] == needle
  }

  /** `String.prototype.trim`: a contiguous slice of `s` that neither starts
      nor ends with white space, and is empty exactly when `s` is all white
      space. */
  function Trim(s: string): (r: string)
    ensures exists i :: OccursAt(s, r, i)
    ensures |r| > 0 ==> !IsWhitespace(r[0]) && !IsWhitespace(r[|r| - 1])
    ensures r == "" <==> AllWhitespace(s)
  {
    TrimParts(s);
    TrimEnd(TrimStart(s))
  }

  lemma TrimParts(s: string)
    ensures var a := TrimStart(s); var r := TrimEnd(a);
      && OccursAt(s, r, |s| - |a|)
      && (|r| > 0 ==> !IsWhitespace(r[0]))
      && (r == "" <==> AllWhitespace(s))
  {
    TrimSlice(s);
    TrimEmpty(s);
    TrimNonEmpty(s);
  }

  lemma TrimSlice(s: string)
    ensures var a := TrimStart(s); OccursAt(s, TrimEnd(a), |s| - |a|)
  {
    var a := TrimStart(s);
    PrefixOfSuffix(s, |s| - |a|, a, TrimEnd(a));
  }

  /** A prefix of the suffix of `s` from `k` occurs in `s` at `k`. */
  lemma PrefixOfSuffix(s: string, k: nat, a: string, r: string)
    requires k <= |s| && a == s[k..]
    requires |r| <= |a| && r == a[..|r|]
    ensures OccursAt(s, r, k)
  {
    assert s[k..k + |r|] == s[k..][..|r|];
  }

  lemma TrimEmpty(s: string)
    ensures TrimEnd(TrimStart(s)) == "" ==> AllWhitespace(s)
  {
    var a := TrimStart(s);
    TrimStartDrops(s);
    if TrimEnd(a) == "" {
      TrimEndEmpty(a);
      WhitespaceJoin(s, |s| - |a|);
    }
  }

  /** When `TrimEnd` leaves nothing, everything was white space. */
  lemma TrimEndEmpty(a: string)
    requires TrimEnd(a) == ""
    ensures AllWhitespace(a)
  {
    TrimEndDrops(a);
    assert a[0..] == a;
  }

  /** Two white-space pieces make white space. */
  lemma WhitespaceJoin(s: string, k: nat)
    requires k <= |s| && AllWhitespace(s[..k]) && AllWhitespace(s[k..])
    ensures AllWhitespace(s)
  {
    forall i | 0 <= i < |s|
      ensures IsWhitespace(s[i])
    {
      if i < k {
        assert s[i] == s[..k][i];
      } else {
        assert s[i] == s[k..][i - k];
      }
    }
  }

  lemma TrimNonEmpty(s: string)
    ensures var r := TrimEnd(TrimStart(s)); r != "" ==> !AllWhitespace(s) && !IsWhitespace(r[0])
  {
    var a := TrimStart(s);
    var r := TrimEnd(a);
    if r != "" {
      assert r[0] == a[0] == s[|s| - |a|];
    }
  }

  /** Trimming a trimmed string changes nothing. */
  lemma TrimIdempotent(s: string)
    ensures Trim(Trim(s)) == Trim(s)
  {
    var r := Trim(s);
    TrimStartKeeps(r);
    TrimEndKeeps(r);
  }

  lemma TrimStartKeeps(t: string)
    requires |t| == 0 || !IsWhitespace(t[0])
    ensures TrimStart(t) == t
  {
  }

  lemma TrimEndKeeps(t: string)
    requires |t| == 0 || !IsWhitespace(t[|t| - 1])
    ensures TrimEnd(t) == t
  {
  }

  /** Lower-case mapping of one code point: ASCII `A`-`Z` and the Latin-1
      capitals U+00C0..U+00DE except U+00D7 move up by 32; everything else is
      kept. */
  function LowerChar(c: char): char {
    if 'A' <= c <= 'Z' || ('À' <= c <= 'Þ' && c != '×') then
      (c as int + 32) as char
    else c
  }

  function ToLower(s: string): (r: string)
    ensures |r| == |s|
    ensures forall i :: 0 <= i < |s| ==> r[i] == LowerChar(s[i])
  {
    seq(|s|, i requires 0 <= i < |s| => LowerChar(s[i]))
  }

  lemma ToLowerIdempotent(s: string)
    ensures ToLower(ToLower(s)) == ToLower(s)
  {
  }

  /** `String.prototype.includes`. */
  predicate Contains(haystack: string, needle: string)
    decreases |haystack|
  {
    IsPrefix(needle, haystack) || (|haystack| > 0 && Contains(haystack[1..], needle))
  }

  /** `includes` holds exactly when `needle` occurs at some offset. */
  lemma {:induction false} ContainsAt(haystack: string, needle: string)
    ensures Contains(haystack, needle) <==> exists i :: OccursAt(haystack, needle, i)
  {
    if IsPrefix(needle, haystack) {
      assert OccursAt(haystack, needle, 0);
    } else if |haystack| > 0 {
      var tail := haystack[1..];
      ContainsAt(tail, needle);
      if Contains(tail, needle) {
        var i :| OccursAt(tail, needle, i);
        assert OccursAt(haystack, needle, i + 1);
      }
      if exists i :: OccursAt(haystack, needle, i) {
        var i :| OccursAt(haystack, needle, i);
        assert i > 0;
        assert OccursAt(tail, needle, i - 1);
      }
    }
  }

  /** Index of the first occurrence of `c` in `s` at or after `from`. */
  function IndexOfFrom(s: string, c: char, from: nat): (r: Option<nat>)
    decreases |s| - from
    ensures r.Some? ==> from <= r.value < |s| && s[r.value] == c
    ensures r.Some? ==> forall k :: from <= k < r.value ==> s[k] != c
    ensures r.None? ==> forall k :: from <= k < |s| ==> s[k] != c
  {
    if from >= |s| then None
    else if s[from] == c then Some(from)
    else IndexOfFrom(s, c, from + 1)
  }
}

=== FILE: supabase_rpc.dfy ===
/** The pure parts of the database helpers (src/utils/supabaseRPC.ts): the
    column filter of `getTasksByUser`, the default of `getHelperPoints`, and
    the snake_case update built by `updateTask`. Query results are given as
    values; `None` stands for a query that reported an error. */
module SupabaseRpc {
  import opened Wrappers
  import opened Types
  import opened Seqs
  import opened LocalTaskStorage
  import opened TaskAdapter

  // ---- getTasksByUser ---------------------------------------------------

  /** The column `getTasksByUser` filters on. */
  function DbOwner(row: Task, field: UserField): Option<string> {
    match field
    case RequestedBy => row.dbRequestedBy
    case HelperAssigned => row.dbHelperAssigned
  }

  /** `getTasksByUser(userId, field)`: the rows whose `requested_by` (or
      `helper_assigned`) is the user, in the order the query returned them,
      adapted; nothing on error. */
  function GetTasksByUser(rows: Option<seq<Task>>, userId: string, field: UserField): (r: seq<Task>)
    ensures rows.None? ==> r == []
    ensures rows.Some? ==> |r| <= |rows.value|
    ensures forall i :: 0 <= i < |r| ==> Owner(r[i], field) == Some(userId)
    ensures rows.Some? ==> forall row :: row in rows.value && DbOwner(row, field) == Some(userId) ==>
      AdaptTaskFromDB(row) in r
  {
    if rows.None? then []
    else
      var mine := Filter(rows.value, (row: Task) => DbOwner(row, field) == Some(userId));
      assert forall k :: 0 <= k < |mine| ==> mine[k] in mine;
      MapKeepsMembers(mine, AdaptTaskFromDB);
      AdaptTasksFromDB(mine)
  }

  /** The remote query and the local store agree: selecting on the column
      and then adapting is adapting and then selecting on the camelCase
      property, which is what `getUserTasks` does. */
  lemma RemoteAgreesWithLocal(rows: seq<Task>, userId: string, field: UserField, points: Option<int>,
                              ledger: map<string, int>)
    ensures GetTasksByUser(Some(rows), userId, field)
      == GetUserTasks(LocalStore(AdaptTasksFromDB(rows), points, ledger), userId, field)
  {
    MapFilter(rows, AdaptTaskFromDB, (row: Task) => DbOwner(row, field) == Some(userId),
              (t: Task) => Owner(t, field) == Some(userId));
  }

  // ---- getHelperPoints / updateHelperPoints -----------------------------

  /** The `helper_points` table: the `points` column of each helper's row,
      `None` for a null value. */
  type PointsTable = map<string, Option<int>>

  /** What `.select("points").eq("helper_id", h).single()` returns. A missing
      row is an error for `single()`. */
  datatype PointsQuery = QueryError | Row(points: Option<int>)

  function QueryPoints(table: PointsTable, helperId: string, failed: bool): (r: PointsQuery)
    ensures r.Row? <==> !failed && helperId in table
    ensures r.Row? ==> helperId in table && r.points == table[helperId]
  {
    if failed || helperId !in table then QueryError else Row(table[helperId])
  }

  /** `getHelperPoints(h)`: 0 on error, for a null value and for 0 itself
      (`data?.points || 0`), the stored points otherwise. */
  function GetHelperPoints(q: PointsQuery): (r: int)
    ensures q.Row? && q.points.Some? ==> r == q.points.value
    ensures q.QueryError? || q.points.None? ==> r == 0
  {
    match q
    case QueryError => 0
    case Row(p) => if p.None? || p.value == 0 then 0 else p.value
  }

  /** `updateHelperPoints(h, n)`: an upsert of the row; the table is
      unchanged when the write fails. */
  function UpdateHelperPoints(table: PointsTable, helperId: string, points: int, writeSucceeded: bool): (r: (PointsTable, bool))
    ensures r.1 == writeSucceeded
    ensures !writeSucceeded ==> r.0 == table
    ensures writeSucceeded ==> r.0 == table[helperId := Some(points)]
  {
    if writeSucceeded then (table[helperId := Some(points)], true) else (table, false)
  }

  /** A successful upsert reads back, and leaves other helpers' points
      alone. */
  lemma PointsReadBack(table: PointsTable, helperId: string, other: string, points: int)
    requires other != helperId
    ensures var after := UpdateHelperPoints(table, helperId, points, true).0;
      && GetHelperPoints(QueryPoints(after, helperId, false)) == points
      && QueryPoints(after, other, false) == QueryPoints(table, other, false)
  {
  }

  // ---- updateTask ---------------------------------------------------------

  /** The object `updateTask` sends: one entry per column, `None` when the
      key is absent, and the timestamp that is always present. */
  datatype DbUpdates = DbUpdates(
    helperAssigned: Option<string>,
    status: Option<Status>,
    keywords: Option<seq<string>>,
    location: Option<string>,
    requestedDate: Option<string>,
    taskType: Option<TaskType>,
    updatedAt: string)

  /** `dbUpdates` for the camelCase `updates`: each present property under
      its column name; `id`, `requestedBy` and `requestedByName` are never
      sent. `now` is `new Date().toISOString()`. */
  function UpdateTaskPayload(updates: TaskPatch, now: string): (r: DbUpdates)
    ensures forall row ::
      InterfaceView(AdaptTaskFromDB(ApplyDbUpdates(row, r))) == InterfaceView(ApplyPatch(AdaptTaskFromDB(row), Sendable(updates)))
    ensures r.helperAssigned == updates.helperAssigned && r.status == updates.status
    ensures r.keywords == updates.keywords && r.location == updates.location
    ensures r.requestedDate == updates.requestedDate && r.taskType == updates.taskType
    ensures r.updatedAt == now
  {
    DbUpdates(updates.helperAssigned, updates.status, updates.keywords, updates.location,
              updates.requestedDate, updates.taskType, now)
  }

  /** The part of an update `updateTask` can send: no id, requester or
      requester name. */
  function Sendable(updates: TaskPatch): TaskPatch {
    updates.(id := None, requestedBy := None, requestedByName := None)
  }

  /** Supplying a requester, a requester name or an id makes no
      difference to what is sent. */
  lemma PayloadIgnoresRequester(updates: TaskPatch, now: string, id: Option<string>, requester: Option<string>,
                                requesterName: Option<string>)
    ensures UpdateTaskPayload(updates.(id := id, requestedBy := requester, requestedByName := requesterName), now)
      == UpdateTaskPayload(updates, now)
  {
  }

  /** Every column the update sends already has the sent value in `row`. */
  predicate RowReflects(row: Task, u: DbUpdates) {
    && (u.helperAssigned.Some? ==> row.dbHelperAssigned == u.helperAssigned)
    && (u.status.Some? ==> row.status == u.status.value)
    && (u.keywords.Some? ==> row.keywords == u.keywords.value)
    && (u.location.Some? ==> row.location == u.location.value)
    && (u.requestedDate.Some? ==> row.dbRequestedDate == u.requestedDate)
    && (u.taskType.Some? ==> row.taskType == u.taskType.value)
  }

  /** What the database does with `update(dbUpdates)` on one row: each sent
      column overrides the row's. The row then reflects the update, and a
      row that already reflects it is unchanged. */
  function ApplyDbUpdates(row: Task, u: DbUpdates): (r: Task)
    ensures RowReflects(r, u)
    ensures RowReflects(row, u) ==> r == row
    ensures r.dbHelperAssigned == if u.helperAssigned.Some? then u.helperAssigned else row.dbHelperAssigned
    ensures r.dbRequestedDate == if u.requestedDate.Some? then u.requestedDate else row.dbRequestedDate
    ensures r.status == u.status.GetOr(row.status) && r.taskType == u.taskType.GetOr(row.taskType)
    ensures r.keywords == u.keywords.GetOr(row.keywords) && r.location == u.location.GetOr(row.location)
    ensures r.id == row.id && r.dbRequestedBy == row.dbRequestedBy
  {
    row.(dbHelperAssigned := if u.helperAssigned.Some? then u.helperAssigned else row.dbHelperAssigned,
         status := u.status.GetOr(row.status),
         keywords := u.keywords.GetOr(row.keywords),
         location := u.location.GetOr(row.location),
         dbRequestedDate := if u.requestedDate.Some? then u.requestedDate else row.dbRequestedDate,
         taskType := u.taskType.GetOr(row.taskType))
  }

  /** The camelCase properties an interface reads (the columns cleared). */
  function InterfaceView(t: Task): Task {
    t.(dbRequestedBy := None, dbRequestedDate := None, dbHelperAssigned := None)
  }

  /** For an update that leaves the id and the requester alone, writing it
      remotely and reading the row back gives the task the interface would
      get by applying the same update locally. */
  lemma RemoteUpdateMatchesLocal(row: Task, updates: TaskPatch, now: string)
    requires updates.id.None? && updates.requestedBy.None? && updates.requestedByName.None?
    ensures InterfaceView(AdaptTaskFromDB(ApplyDbUpdates(row, UpdateTaskPayload(updates, now))))
      == InterfaceView(ApplyPatch(AdaptTaskFromDB(row), updates))
  {
  }
}

=== FILE: task_adapter.dfy ===
/** Reading a database row as a task (src/utils/taskAdapter.ts). A row is a
    `Task` whose snake_case columns are the `db…` fields; the adapter keeps
    every property of the row and sets the camelCase ones from the
    columns. */
module TaskAdapter {
  import opened Types
  import opened Seqs

  /** The camelCase properties mirror the snake_case columns, and no
      requester name is set. */
  predicate Mirrors(t: Task) {
    && t.requestedBy == t.dbRequestedBy
    && t.requestedDate == t.dbRequestedDate
    && t.helperAssigned == t.dbHelperAssigned
    && t.requestedByName == ""
  }

  /** `adaptTaskFromDB(row)`: only the camelCase properties change, and
      afterwards they mirror the columns; a row that already mirrors them
      comes back unchanged. */
  function AdaptTaskFromDB(row: Task): (r: Task)
    ensures Mirrors(r)
    ensures Mirrors(row) ==> r == row
    ensures r.(requestedBy := row.requestedBy, requestedByName := row.requestedByName,
               requestedDate := row.requestedDate, helperAssigned := row.helperAssigned) == row
    ensures r.requestedBy == row.dbRequestedBy
    ensures r.requestedDate == row.dbRequestedDate
    ensures r.helperAssigned == row.dbHelperAssigned
    ensures r.requestedByName == ""
    ensures r.id == row.id && r.taskType == row.taskType && r.keywords == row.keywords
    ensures r.location == row.location && r.status == row.status && r.notificationSent == row.notificationSent
    ensures r.dbRequestedBy == row.dbRequestedBy && r.dbRequestedDate == row.dbRequestedDate
    ensures r.dbHelperAssigned == row.dbHelperAssigned
  {
    row.(requestedBy := row.dbRequestedBy, requestedByName := "", requestedDate := row.dbRequestedDate,
         helperAssigned := row.dbHelperAssigned)
  }

  /** Adapting an adapted row changes nothing, and two rows that agree on
      their columns adapt to the same task whatever camelCase properties
      they carried. */
  lemma AdaptLaws(row: Task, other: Task)
    ensures AdaptTaskFromDB(AdaptTaskFromDB(row)) == AdaptTaskFromDB(row)
    ensures other == row.(requestedBy := other.requestedBy, requestedByName := other.requestedByName,
                          requestedDate := other.requestedDate, helperAssigned := other.helperAssigned)
      ==> AdaptTaskFromDB(other) == AdaptTaskFromDB(row)
  {
  }

  /** `adaptTasksFromDB(rows)`: element by element, order and length kept. */
  function AdaptTasksFromDB(rows: seq<Task>): (r: seq<Task>)
    ensures |r| == |rows|
    ensures forall i :: 0 <= i < |rows| ==> r[i] == AdaptTaskFromDB(rows[i])
  {
    Map(rows, AdaptTaskFromDB)
  }

  /** Adapting distributes over concatenation, so merging row lists and
      adapting commute. */
  lemma AdaptAppend(a: seq<Task>, b: seq<Task>)
    ensures AdaptTasksFromDB(a + b) == AdaptTasksFromDB(a) + AdaptTasksFromDB(b)
  {
  }
}

=== FILE: task_card.dfy ===
/** One task card (src/components/TaskCard.tsx): which button a role sees
    for a task, the status each button asks the page to write, the card's own
    storage side effects, and the status label. The write itself is done by
    the page's `onTaskUpdate` handler (modules AcceptedTasks and Dashboard). */
module TaskCard {
  import opened Wrappers
  import opened Types
  import opened LocalTaskStorage

  datatype Action = Accept | CancelRequest | Complete

  /** The status each button hands to `onTaskUpdate`. */
  function RequestedStatus(a: Action): (r: Status)
    ensures r != Pending && r != WaitingApproval
    ensures IsTerminal(r) <==> a != Accept
    ensures a == Complete <==> r == Completed
  {
    match a
    case Accept => Assigned
    case CancelRequest => Cancelled
    case Complete => Completed
  }

  /** The one button a card shows, if any. A completed or cancelled task
      renders no card at all; otherwise a helper may accept a pending task or
      complete an assigned one, and a senior may cancel a pending one. */
  function OfferedAction(role: Role, status: Status): (r: Option<Action>)
    ensures IsTerminal(status) ==> r == None
    ensures r == Some(Accept) <==> role == Helper && status == Pending
    ensures r == Some(CancelRequest) <==> role == Elderly && status == Pending
    ensures r == Some(Complete) <==> role == Helper && status == Assigned
  {
    if IsTerminal(status) then None
    else if role == Helper && status == Pending then Some(Accept)
    else if role == Elderly && status == Pending then Some(CancelRequest)
    else if role == Helper && status == Assigned then Some(Complete)
    else None
  }

  /** The model's reference lifecycle: a helper takes a pending task, the
      senior cancels a pending task (the only state whose buttons reach
      `handleCancel`), and either party completes an assigned task. The
      card's own `handleComplete` carries a branch for a senior confirming
      completion (TaskCard.tsx:70-74), which is where the senior's half of
      completion comes from. */
  predicate LifecycleAllows(role: Role, from: Status, to: Status) {
    || (from == Pending && to == Assigned && role == Helper)
    || (from == Pending && to == Cancelled && role == Elderly)
    || (from == Assigned && to == Completed)
  }

  /** Every button the card offers requests a transition the lifecycle
      allows, and never one out of a terminal state. */
  lemma OfferedActionsAreAllowed(role: Role, status: Status)
    ensures OfferedAction(role, status).Some? ==>
      && LifecycleAllows(role, status, RequestedStatus(OfferedAction(role, status).value))
      && !IsTerminal(status)
  {
  }

  /** The card offers fewer transitions than the reference lifecycle: a
      senior may confirm the completion of an assigned task, yet the card
      offers the senior nothing on it, so the senior branch of
      `handleComplete` is never reached. Cancelling an assigned task is
      outside the lifecycle altogether. */
  lemma SeniorCannotCloseAssignedTask()
    ensures LifecycleAllows(Elderly, Assigned, Completed) && !LifecycleAllows(Elderly, Assigned, Cancelled)
    ensures OfferedAction(Elderly, Assigned) == None
  {
  }

  /** Nothing is offered to anyone on a task awaiting approval. */
  lemma NothingWhileWaitingApproval(role: Role)
    ensures OfferedAction(role, WaitingApproval) == None
  {
  }

  /** Points a helper earns for completing a task. */
  const CompletionReward := 50

  /** The card's own effect of "complete", run right after the page handler:
      a helper's global counter (missing reads as 0) grows by the reward; a
      senior's click leaves storage alone. */
  function CompleteEffect(role: Role, store: LocalStore): (r: LocalStore)
    ensures r.tasks == store.tasks && r.ledger == store.ledger
    ensures role == Helper ==> r.globalPoints == Some(GlobalPoints(store) + 50)
    ensures role == Elderly ==> r == store
  {
    if role == Helper then store.(globalPoints := Some(GlobalPoints(store) + CompletionReward))
    else store
  }

  /** The card's own effect of "accept", run right after the page handler:
      the first stored task with the card's id gets `notificationSent`, if
      there is one; nothing else changes. */
  function AcceptEffect(store: LocalStore, taskId: string): (r: LocalStore)
    ensures r.globalPoints == store.globalPoints && r.ledger == store.ledger
    ensures |r.tasks| == |store.tasks|
    ensures taskId !in Ids(store.tasks) ==> r == store
    ensures forall i :: FirstWithId(store.tasks, taskId, i) ==>
      && r.tasks[i].notificationSent
      && r.tasks[i].(notificationSent := store.tasks[i].notificationSent) == store.tasks[i]
      && (forall j :: 0 <= j < |store.tasks| && j != i ==> r.tasks[j] == store.tasks[j])
  {
    match FindIndex(store.tasks, taskId)
    case None => store
    case Some(i) =>
      assert Ids(store.tasks)[i] == taskId;
      store.(tasks := store.tasks[i := store.tasks[i].(notificationSent := true)])
  }

  /** Accepting twice marks the same task as accepting once. */
  lemma AcceptEffectIdempotent(store: LocalStore, taskId: string)
    ensures AcceptEffect(AcceptEffect(store, taskId), taskId) == AcceptEffect(store, taskId)
  {
    var once := AcceptEffect(store, taskId);
    assert Ids(once.tasks) == Ids(store.tasks);
  }

  /** `getStatusText`: French labels for four stored statuses; any other
      string, `waiting_approval` included, is shown as is. */
  function StatusText(status: string): (r: string)
    ensures status == "pending" ==> r == "En attente"
    ensures status == "assigned" ==> r == "Assignée"
    ensures status == "completed" ==> r == "Terminée"
    ensures status == "cancelled" ==> r == "Annulée"
    ensures status !in {"pending", "assigned", "completed", "cancelled"} ==> r == status
    ensures r == status <==> status !in {"pending", "assigned", "completed", "cancelled"}
  {
    if status == "pending" then "En attente"
    else if status == "assigned" then "Assignée"
    else if status == "completed" then "Terminée"
    else if status == "cancelled" then "Annulée"
    else status
  }

  /** Every status but `waiting_approval` gets a label distinct from its
      stored name, and distinct statuses get distinct labels. */
  lemma StatusTextOfStatuses(s: Status, t: Status)
    ensures s != WaitingApproval ==> StatusText(StatusName(s)) != StatusName(s)
    ensures StatusText(StatusName(WaitingApproval)) == "waiting_approval"
    ensures s != t ==> StatusText(StatusName(s)) != StatusText(StatusName(t))
  {
  }
}

=== FILE: task_list.dfy ===
/** The task list (src/components/TaskList.tsx): which tasks a viewer sees,
    how a helper's tabs split them, the type filter, and what the component
    renders. */
module TaskList {
  import opened Wrappers
  import opened Types
  import opened Seqs
  import opened ProximitySort

  /** `relevantTasks`: a senior's own tasks (their `requestedBy` equals the
      stored `userId`; an absent property never equals a stored id or its
      absence), or for a helper every task that is neither completed nor
      cancelled. */
  function RelevantTasks(tasks: seq<Task>, role: Role, storedUserId: Option<string>): (r: seq<Task>)
    ensures IsSubseq(r, tasks)
  {
    if role == Elderly then Filter(tasks, (t: Task) => IsOwnedBy(t, storedUserId))
    else Filter(tasks, (t: Task) => !IsTerminal(t.status))
  }

  predicate IsOwnedBy(t: Task, storedUserId: Option<string>) {
    t.requestedBy.Some? && t.requestedBy == storedUserId
  }

  /** `availableTasks`: for a senior the relevant tasks without the
      completed and cancelled ones; for a helper the relevant tasks. */
  function AvailableTasks(tasks: seq<Task>, role: Role, storedUserId: Option<string>): (r: seq<Task>)
    ensures |r| <= |tasks|
    ensures forall t :: t in r ==> t in tasks && !IsTerminal(t.status)
    ensures IsSubseq(r, tasks)
  {
    var relevant := RelevantTasks(tasks, role, storedUserId);
    if role == Elderly then
      var open := Filter(relevant, (t: Task) => !IsTerminal(t.status));
      IsSubseqTrans(open, relevant, tasks);
      open
    else relevant
  }

  /** Both roles see exactly the open tasks they may see. */
  lemma AvailableTasksMeaning(tasks: seq<Task>, role: Role, storedUserId: Option<string>)
    ensures role == Helper ==> forall t :: t in AvailableTasks(tasks, role, storedUserId) <==>
      t in tasks && !IsTerminal(t.status)
    ensures role == Elderly ==> forall t :: t in AvailableTasks(tasks, role, storedUserId) <==>
      t in tasks && IsOwnedBy(t, storedUserId) && !IsTerminal(t.status)
  {
  }

  /** The tasks of one status (`pendingTasks`, `waitingApprovalTasks`,
      `assignedTasks`). */
  function WithStatus(tasks: seq<Task>, status: Status): (r: seq<Task>)
    ensures forall t :: t in r <==> t in tasks && t.status == status
    ensures IsSubseq(r, tasks)
  {
    Filter(tasks, (t: Task) => t.status == status)
  }

  lemma WithStatusCons(tasks: seq<Task>, status: Status)
    requires |tasks| > 0
    ensures |WithStatus(tasks, status)| == (if tasks[0].status == status then 1 else 0) + |WithStatus(tasks[1..], status)|
  {
  }

  /** Every open task lies in exactly one of the three status lists, so
      their lengths add up to the length of the available list. */
  lemma {:induction false} OpenTasksPartition(open: seq<Task>)
    requires forall i :: 0 <= i < |open| ==> !IsTerminal(open[i].status)
    ensures |WithStatus(open, Pending)| + |WithStatus(open, WaitingApproval)| + |WithStatus(open, Assigned)| == |open|
  {
    if |open| > 0 {
      OpenTasksPartition(open[1..]);
      WithStatusCons(open, Pending);
      WithStatusCons(open, WaitingApproval);
      WithStatusCons(open, Assigned);
    }
  }

  lemma AvailablePartition(tasks: seq<Task>, role: Role, storedUserId: Option<string>)
    ensures var a := AvailableTasks(tasks, role, storedUserId);
      |WithStatus(a, Pending)| + |WithStatus(a, WaitingApproval)| + |WithStatus(a, Assigned)| == |a|
  {
    var a := AvailableTasks(tasks, role, storedUserId);
    AvailableTasksMeaning(tasks, role, storedUserId);
    assert forall i :: 0 <= i < |a| ==> a[i] in a;
    OpenTasksPartition(a);
  }

  /** The type filter: `None` is "Tout", which keeps everything. */
  predicate MatchesFilter(t: Task, filter: Option<TaskType>) {
    filter.None? || t.taskType == filter.value
  }

  function FilterByType(tasks: seq<Task>, filter: Option<TaskType>): (r: seq<Task>)
    ensures forall t :: t in r <==> t in tasks && MatchesFilter(t, filter)
    ensures forall t :: MatchesFilter(t, filter) ==> multiset(r)[t] == multiset(tasks)[t]
    ensures filter.None? ==> r == tasks
    ensures IsSubseq(r, tasks)
  {
    if filter.None? then
      IsSubseqRefl(tasks);
      tasks
    else Filter(tasks, (t: Task) => MatchesFilter(t, filter))
  }

  /** The status a helper's tab shows: "available" the pending tasks,
      "waiting" those waiting for approval, any other tab the assigned
      ones. */
  function TabStatus(activeTab: string): (r: Status)
    ensures r != Completed && r != Cancelled
  {
    if activeTab == "available" then Pending
    else if activeTab == "waiting" then WaitingApproval
    else Assigned
  }

  /** `displayedTasks`. */
  function DisplayedTasks(tasks: seq<Task>, role: Role, storedUserId: Option<string>, filter: Option<TaskType>,
                          activeTab: string, sortByProximity: bool, userLocation: Option<(real, real)>,
                          haversine: (real, real, real, real) -> real): (r: seq<Task>)
    ensures forall t :: t in r ==> t in tasks && !IsTerminal(t.status) && MatchesFilter(t, filter)
    ensures role == Helper ==> forall t :: t in r ==> t.status == TabStatus(activeTab)
  {
    var available := AvailableTasks(tasks, role, storedUserId);
    if role == Elderly then FilterByType(available, filter)
    else
      var typed := FilterByType(WithStatus(available, TabStatus(activeTab)), filter);
      var sorted := SortTasksByProximity(typed, sortByProximity, userLocation, haversine);
      assert forall t :: t in sorted ==> t in typed by {
        forall t | t in sorted
          ensures t in typed
        {
          assert t in multiset(sorted);
        }
      }
      sorted
  }

  /** What each viewer is shown: a senior every open task of theirs, a
      helper every task of the tab's status, both narrowed by the type
      filter. */
  lemma DisplayedTasksMeaning(tasks: seq<Task>, role: Role, storedUserId: Option<string>, filter: Option<TaskType>,
                              activeTab: string, sortByProximity: bool, userLocation: Option<(real, real)>,
                              haversine: (real, real, real, real) -> real)
    ensures var r := DisplayedTasks(tasks, role, storedUserId, filter, activeTab, sortByProximity, userLocation, haversine);
      role == Elderly ==> forall t :: t in r <==>
        t in tasks && IsOwnedBy(t, storedUserId) && !IsTerminal(t.status) && MatchesFilter(t, filter)
    ensures var r := DisplayedTasks(tasks, role, storedUserId, filter, activeTab, sortByProximity, userLocation, haversine);
      role == Helper ==> forall t :: t in r <==>
        t in tasks && t.status == TabStatus(activeTab) && MatchesFilter(t, filter)
  {
    AvailableTasksMeaning(tasks, role, storedUserId);
    if role == Helper {
      var r := DisplayedTasks(tasks, role, storedUserId, filter, activeTab, sortByProximity, userLocation, haversine);
      var before := FilterByType(WithStatus(AvailableTasks(tasks, role, storedUserId), TabStatus(activeTab)), filter);
      assert multiset(r) == multiset(before);
      forall t
        ensures t in r <==> t in before
      {
        assert t in r <==> t in multiset(r);
        assert t in before <==> t in multiset(before);
      }
    }
  }

  /** Whether the component shows a task: a senior's own open tasks, or for
      a helper the tasks of the tab's status, narrowed by the type filter. */
  predicate Shown(t: Task, role: Role, storedUserId: Option<string>, filter: Option<TaskType>, activeTab: string) {
    && (role == Elderly ==> IsOwnedBy(t, storedUserId) && !IsTerminal(t.status))
    && (role == Helper ==> t.status == TabStatus(activeTab))
    && MatchesFilter(t, filter)
  }

  /** How often each task occurs in the displayed list: as often as in the
      input when it is shown, otherwise never. */
  lemma DisplayedCounts(tasks: seq<Task>, role: Role, storedUserId: Option<string>, filter: Option<TaskType>,
                        activeTab: string, sortByProximity: bool, userLocation: Option<(real, real)>,
                        haversine: (real, real, real, real) -> real)
    ensures var r := DisplayedTasks(tasks, role, storedUserId, filter, activeTab, sortByProximity, userLocation, haversine);
      forall t :: multiset(r)[t] == if Shown(t, role, storedUserId, filter, activeTab) then multiset(tasks)[t] else 0
  {
    forall t: Task {
      DisplayedCountsAt(tasks, role, storedUserId, filter, activeTab, sortByProximity, userLocation, haversine, t);
    }
  }

  lemma DisplayedCountsAt(tasks: seq<Task>, role: Role, storedUserId: Option<string>, filter: Option<TaskType>,
                          activeTab: string, sortByProximity: bool, userLocation: Option<(real, real)>,
                          haversine: (real, real, real, real) -> real, t: Task)
    ensures var r := DisplayedTasks(tasks, role, storedUserId, filter, activeTab, sortByProximity, userLocation, haversine);
      multiset(r)[t] == if Shown(t, role, storedUserId, filter, activeTab) then multiset(tasks)[t] else 0
  {
    var relevant := RelevantTasks(tasks, role, storedUserId);
    var available := AvailableTasks(tasks, role, storedUserId);
    if role == Elderly {
      assert multiset(relevant)[t] == if IsOwnedBy(t, storedUserId) then multiset(tasks)[t] else 0;
      assert multiset(available)[t] == if !IsTerminal(t.status) then multiset(relevant)[t] else 0;
    } else {
      var mid := WithStatus(available, TabStatus(activeTab));
      var typed := FilterByType(mid, filter);
      assert multiset(DisplayedTasks(tasks, role, storedUserId, filter, activeTab, sortByProximity, userLocation, haversine))
          == multiset(typed);
      assert multiset(mid)[t] == if t.status == TabStatus(activeTab) then multiset(available)[t] else 0;
      assert multiset(available)[t] == if !IsTerminal(t.status) then multiset(tasks)[t] else 0;
    }
  }

  /** Without the proximity sort the displayed list keeps input order. */
  lemma DisplayedSubseq(tasks: seq<Task>, role: Role, storedUserId: Option<string>, filter: Option<TaskType>,
                        activeTab: string, sortByProximity: bool, userLocation: Option<(real, real)>,
                        haversine: (real, real, real, real) -> real)
    requires role == Elderly || !sortByProximity || userLocation.None?
    ensures IsSubseq(DisplayedTasks(tasks, role, storedUserId, filter, activeTab, sortByProximity, userLocation, haversine), tasks)
  {
    var available := AvailableTasks(tasks, role, storedUserId);
    var r := DisplayedTasks(tasks, role, storedUserId, filter, activeTab, sortByProximity, userLocation, haversine);
    if role == Helper {
      var mid := WithStatus(available, TabStatus(activeTab));
      assert r == FilterByType(mid, filter);
      IsSubseqTrans(mid, available, tasks);
      IsSubseqTrans(r, mid, tasks);
    } else {
      IsSubseqTrans(r, available, tasks);
    }
  }

  /** Unless a helper sorts by proximity, the displayed list is exactly the
      input's shown tasks in input order, each as often as in the input. */
  lemma DisplayedTasksInOrder(tasks: seq<Task>, role: Role, storedUserId: Option<string>,
                              filter: Option<TaskType>, activeTab: string, sortByProximity: bool,
                              userLocation: Option<(real, real)>, haversine: (real, real, real, real) -> real)
    requires role == Elderly || !sortByProximity || userLocation.None?
    ensures var r := DisplayedTasks(tasks, role, storedUserId, filter, activeTab, sortByProximity, userLocation, haversine);
      && r == Filter(tasks, (t: Task) => Shown(t, role, storedUserId, filter, activeTab))
      && IsSubseq(r, tasks)
  {
    var r := DisplayedTasks(tasks, role, storedUserId, filter, activeTab, sortByProximity, userLocation, haversine);
    var shown := (t: Task) => Shown(t, role, storedUserId, filter, activeTab);
    DisplayedCounts(tasks, role, storedUserId, filter, activeTab, sortByProximity, userLocation, haversine);
    DisplayedSubseq(tasks, role, storedUserId, filter, activeTab, sortByProximity, userLocation, haversine);
    FilterUnique(tasks, shown, r);
  }

  /** Sorted or not, the displayed list holds the shown tasks, each as often
      as in the input. */
  lemma DisplayedTasksPermutation(tasks: seq<Task>, role: Role, storedUserId: Option<string>,
                                  filter: Option<TaskType>, activeTab: string, sortByProximity: bool,
                                  userLocation: Option<(real, real)>, haversine: (real, real, real, real) -> real)
    ensures multiset(DisplayedTasks(tasks, role, storedUserId, filter, activeTab, sortByProximity, userLocation, haversine))
      == multiset(Filter(tasks, (t: Task) => Shown(t, role, storedUserId, filter, activeTab)))
  {
    var r := DisplayedTasks(tasks, role, storedUserId, filter, activeTab, sortByProximity, userLocation, haversine);
    var f := Filter(tasks, (t: Task) => Shown(t, role, storedUserId, filter, activeTab));
    DisplayedCounts(tasks, role, storedUserId, filter, activeTab, sortByProximity, userLocation, haversine);
    assert forall t: Task :: multiset(r)[t] == multiset(f)[t];
  }

  /** What the component renders. */
  datatype View =
    | NothingAvailable           // "Aucune tâche disponible…" / "Vous n'avez pas encore…"
    | NoMatch                    // the empty-filter message
    | Cards(shown: seq<Task>)

  function Render(tasks: seq<Task>, role: Role, storedUserId: Option<string>, filter: Option<TaskType>,
                  activeTab: string, sortByProximity: bool, userLocation: Option<(real, real)>,
                  haversine: (real, real, real, real) -> real): (r: View)
    ensures r.Cards? ==> |r.shown| > 0
    ensures r == NothingAvailable <==> |AvailableTasks(tasks, role, storedUserId)| == 0
    ensures r == NoMatch <==>
      && |AvailableTasks(tasks, role, storedUserId)| > 0
      && |DisplayedTasks(tasks, role, storedUserId, filter, activeTab, sortByProximity, userLocation, haversine)| == 0
    ensures r.Cards? ==> r.shown == DisplayedTasks(tasks, role, storedUserId, filter, activeTab, sortByProximity, userLocation, haversine)
  {
    var displayed := DisplayedTasks(tasks, role, storedUserId, filter, activeTab, sortByProximity, userLocation, haversine);
    if |tasks| == 0 then NothingAvailable
    else if |AvailableTasks(tasks, role, storedUserId)| == 0 then NothingAvailable
    else if |displayed| == 0 then NoMatch
    else Cards(displayed)
  }
}

=== FILE: task_request_form.dfy ===
/** The request form of a senior (src/components/TaskRequestForm.tsx): the
    city search, the choice of keywords and the submission, which falls back
    to local storage when the remote insert gives nothing. */
module TaskRequestForm {
  import opened Wrappers
  import opened Types
  import opened Seqs
  import opened Strings
  import opened Coordinates
  import opened LocalTaskStorage
  import TaskList

  /** A city of the bundled list; its coordinates are kept as the decimal
      text that the template string prints. */
  datatype City = City(name: string, latitude: string, longitude: string)

  /** The form's state. `date` is the chosen day as the text
      `toISOString().split('T')[0]` gives, `None` when no day is chosen. */
  datatype Form = Form(
    taskType: TaskType,
    selectedKeywords: seq<string>,
    customKeyword: string,
    location: string,
    locationSearch: string,
    showLocationOptions: bool,
    filteredCities: seq<City>,
    date: Option<string>)

  // ---- the city search --------------------------------------------------

  /** A city matches when its lower-cased name contains the lower-cased
      search term. */
  predicate CityMatches(city: City, term: string) {
    Contains(ToLower(city.name), ToLower(term))
  }

  const MaxCityResults := 5

  function Min(a: int, b: int): int {
    if a <= b then a else b
  }

  /** `handleLocationSearch(term)`: a term shorter than 2 characters clears
      and hides the suggestions; otherwise they are the first five matching
      cities, in list order, and are shown. */
  function HandleLocationSearch(form: Form, cities: seq<City>, term: string): (r: Form)
    ensures r.locationSearch == term
    ensures |term| < 2 ==> r.filteredCities == [] && !r.showLocationOptions
    ensures |term| >= 2 ==> r.showLocationOptions
    ensures |r.filteredCities| <= MaxCityResults
    ensures forall c :: c in r.filteredCities ==> c in cities && CityMatches(c, term)
    ensures |term| >= 2 ==> IsPrefix(r.filteredCities, Filter(cities, (c: City) => CityMatches(c, term)))
    ensures |term| >= 2 ==> |r.filteredCities| == Min(|Filter(cities, (c: City) => CityMatches(c, term))|, MaxCityResults)
    ensures |term| >= 2 && |Filter(cities, (c: City) => CityMatches(c, term))| <= MaxCityResults ==>
      forall c :: c in cities && CityMatches(c, term) ==> c in r.filteredCities
    ensures r.(locationSearch := form.locationSearch, showLocationOptions := form.showLocationOptions,
               filteredCities := form.filteredCities) == form
  {
    if |term| < 2 then
      form.(locationSearch := term, filteredCities := [], showLocationOptions := false)
    else
      var matching := Filter(cities, (c: City) => CityMatches(c, term));
      var shown := if |matching| <= MaxCityResults then matching else matching[..MaxCityResults];
      assert forall c :: c in shown ==> c in matching;
      form.(locationSearch := term, filteredCities := shown, showLocationOptions := true)
  }

  /** `selectCity(city)`: the location becomes `Name (lat,lon)`, the search
      box shows the name and the suggestions close. */
  function SelectCity(form: Form, city: City): (r: Form)
    ensures r.locationSearch == city.name && !r.showLocationOptions
    ensures r.(location := form.location, locationSearch := form.locationSearch,
               showLocationOptions := form.showLocationOptions) == form
  {
    form.(location := FormatLocation(city.name, city.latitude, city.longitude),
          locationSearch := city.name, showLocationOptions := false)
  }

  /** The task list reads back the coordinates of a selected city. */
  lemma SelectedCityCoordinates(form: Form, city: City)
    requires '(' !in city.name
    requires IsNumberToken(city.latitude) && IsNumberToken(city.longitude)
    ensures ParseCoordinates(SelectCity(form, city).location) == Some((city.latitude, city.longitude))
  {
    ParseFormatted(city.name, city.latitude, city.longitude);
  }

  // ---- keywords ---------------------------------------------------------

  /** No keyword occurs twice. */
  ghost predicate NoDuplicates(s: seq<string>) {
    forall x :: multiset(s)[x] <= 1
  }

  /** `toggleKeyword(k)`: drops every copy of a selected keyword, appends an
      unselected one. */
  function ToggleKeyword(selected: seq<string>, k: string): (r: seq<string>)
    ensures k in selected ==> k !in r && forall x :: x != k ==> (x in r <==> x in selected)
    ensures k in selected ==> IsSubseq(r, selected) && forall x :: multiset(r)[x] == if x == k then 0 else multiset(selected)[x]
    ensures k !in selected ==> r == selected + [k]
  {
    if k in selected then Filter(selected, (x: string) => x != k) else selected + [k]
  }

  /** Toggling an unselected keyword twice restores the selection. */
  lemma ToggleTwice(selected: seq<string>, k: string)
    requires k !in selected
    ensures ToggleKeyword(ToggleKeyword(selected, k), k) == selected
  {
    var once := selected + [k];
    FilterAppend(selected, [k], (x: string) => x != k);
    forall i | 0 <= i < |selected|
      ensures selected[i] != k
    {
    }
    FilterKeepsAll(selected, (x: string) => x != k);
  }

  lemma ToggleKeepsDistinct(selected: seq<string>, k: string)
    requires NoDuplicates(selected)
    ensures NoDuplicates(ToggleKeyword(selected, k))
  {
    if k !in selected {
      assert multiset(selected)[k] == 0;
      assert multiset(selected + [k]) == multiset(selected) + multiset{k};
    }
  }

  /** `addCustomKeyword()`: a blank entry changes nothing; otherwise the
      trimmed entry is selected (once) and the input is cleared. */
  function AddCustomKeyword(form: Form): (r: Form)
    ensures AllWhitespace(form.customKeyword) ==> r == form
    ensures !AllWhitespace(form.customKeyword) ==>
      && r.customKeyword == ""
      && Trim(form.customKeyword) in r.selectedKeywords
      && (Trim(form.customKeyword) in form.selectedKeywords ==> r.selectedKeywords == form.selectedKeywords)
      && (Trim(form.customKeyword) !in form.selectedKeywords ==>
            r.selectedKeywords == form.selectedKeywords + [Trim(form.customKeyword)])
    ensures r.(selectedKeywords := form.selectedKeywords, customKeyword := form.customKeyword) == form
  {
    var t := Trim(form.customKeyword);
    if t == "" then form
    else
      var selected := if t in form.selectedKeywords then form.selectedKeywords else form.selectedKeywords + [t];
      form.(selectedKeywords := selected, customKeyword := "")
  }

  /** Entering the same keyword again adds nothing, and the selection
      stays free of duplicates. */
  lemma AddCustomKeywordTwice(form: Form)
    requires NoDuplicates(form.selectedKeywords)
    ensures var once := AddCustomKeyword(form);
      && AddCustomKeyword(once.(customKeyword := form.customKeyword)).selectedKeywords == once.selectedKeywords
      && NoDuplicates(once.selectedKeywords)
  {
    var t := Trim(form.customKeyword);
    if t != "" && t !in form.selectedKeywords {
      assert multiset(form.selectedKeywords)[t] == 0;
      assert multiset(form.selectedKeywords + [t]) == multiset(form.selectedKeywords) + multiset{t};
    }
  }

  // ---- submission -------------------------------------------------------

  /** The signed-in user, as the auth hook gives it. */
  datatype User = User(id: string, name: string)

  /** Why a submission is refused, in the order the checks run; the last
      one is the falsy id of the local fallback, reported after the task has
      been stored. */
  datatype SubmitError = NotLoggedIn | NoKeywords | NoLocation | NoDate | LocalSaveFailed(store: LocalStore)

  /** What the remote insert gave: a created task, `null`, or an exception.
      Only a created task ends the submission; the other two fall back to
      local storage. */
  datatype RemoteCreate = RemoteCreated | RemoteEmpty | RemoteThrew

  datatype Submitted = SavedRemotely(task: Task) | SavedLocally(store: LocalStore, id: string)

  /** `newTask`: a pending task requested by the user, without an id (the
      empty id here) and without a helper. */
  function NewTask(form: Form, user: User, date: string): (r: Task)
    ensures r.status == Pending && r.requestedBy == Some(user.id) && r.requestedByName == user.name
    ensures r.taskType == form.taskType && r.keywords == form.selectedKeywords && r.location == form.location
    ensures r.requestedDate == Some(date) && r.helperAssigned == None && !r.notificationSent
  {
    Task("", form.taskType, form.selectedKeywords, form.location, Some(user.id), user.name, Some(date),
         Pending, None, false, None, None, None)
  }

  /** `handleSubmit`. The fresh local id is what `uuidv4` returned; an
      empty (falsy) one makes the fallback report an error although the task
      is already stored. */
  function HandleSubmit(form: Form, user: Option<User>, remote: RemoteCreate, store: LocalStore,
                        freshId: string): (r: Result<Submitted, SubmitError>)
    ensures user.None? ==> r == Failure(NotLoggedIn)
    ensures user.Some? && |form.selectedKeywords| == 0 ==> r == Failure(NoKeywords)
    ensures user.Some? && |form.selectedKeywords| > 0 && form.location == "" ==> r == Failure(NoLocation)
    ensures user.Some? && |form.selectedKeywords| > 0 && form.location != "" && form.date.None? ==> r == Failure(NoDate)
    ensures r.Success? <==>
      && user.Some? && |form.selectedKeywords| > 0 && form.location != "" && form.date.Some?
      && (remote == RemoteCreated || freshId != "")
    ensures r.Success? && remote == RemoteCreated ==>
      r.value == SavedRemotely(NewTask(form, user.value, form.date.value))
    ensures r.Success? && remote != RemoteCreated ==>
      r.value == SavedLocally(CreateLocalTask(store, NewTask(form, user.value, form.date.value), freshId).0, freshId)
    ensures r.Failure? && r.error.LocalSaveFailed? ==>
      r.error.store == CreateLocalTask(store, NewTask(form, user.value, form.date.value), freshId).0
  {
    if user.None? then Failure(NotLoggedIn)
    else if |form.selectedKeywords| == 0 then Failure(NoKeywords)
    else if form.location == "" then Failure(NoLocation)
    else if form.date.None? then Failure(NoDate)
    else
      var task := NewTask(form, user.value, form.date.value);
      if remote == RemoteCreated then Success(SavedRemotely(task))
      else
        var (after, id) := CreateLocalTask(store, task, freshId);
        if id != "" then Success(SavedLocally(after, id)) else Failure(LocalSaveFailed(after))
  }

  /** A request saved locally is offered to helpers as a pending task and
      is listed among the senior's own open requests. */
  lemma SubmittedRequestIsListed(form: Form, user: User, remote: RemoteCreate, store: LocalStore, freshId: string)
    requires remote != RemoteCreated
    requires HandleSubmit(form, Some(user), remote, store, freshId).Success?
    ensures var saved := HandleSubmit(form, Some(user), remote, store, freshId).value;
      var task := NewTask(form, user, form.date.value).(id := freshId);
      && saved.SavedLocally?
      && GetAvailableTasks(saved.store) == GetAvailableTasks(store) + [task]
      && task in TaskList.AvailableTasks(saved.store.tasks, Elderly, Some(user.id))
  {
    var task := NewTask(form, user, form.date.value);
    CreatedPendingTaskIsAvailable(store, task, freshId);
    var saved := HandleSubmit(form, Some(user), remote, store, freshId).value;
    assert saved.store.tasks[|store.tasks|] == task.(id := freshId);
    TaskList.AvailableTasksMeaning(saved.store.tasks, Elderly, Some(user.id));
  }
}

=== FILE: types.dfy ===
/** The entities shared by every part of the application: task status, user
    role, task category and the task record itself. */
module Types {
  import opened Wrappers

  /** The five status values stored in the `status` column. The declared
      TypeScript union (src/types/index.ts) lists four; `waiting_approval`
      is nevertheless read by the task list. */
  datatype Status = Pending | WaitingApproval | Assigned | Completed | Cancelled

  /** The string stored for a status. */
  function StatusName(s: Status): string {
    match s
    case Pending => "pending"
    case WaitingApproval => "waiting_approval"
    case Assigned => "assigned"
    case Completed => "completed"
    case Cancelled => "cancelled"
  }

  /** Reads a stored status string; the five literals and nothing else. */
  function ParseStatus(name: string): (r: Option<Status>)
    ensures r.Some? ==> StatusName(r.value) == name
    ensures forall s :: StatusName(s) == name ==> r == Some(s)
  {
    if name == "pending" then Some(Pending)
    else if name == "waiting_approval" then Some(WaitingApproval)
    else if name == "assigned" then Some(Assigned)
    else if name == "completed" then Some(Completed)
    else if name == "cancelled" then Some(Cancelled)
    else None
  }

  /** No further action is offered once a task is completed or cancelled. */
  predicate IsTerminal(s: Status) {
    s == Completed || s == Cancelled
  }

  datatype Role = Elderly | Helper

  function RoleName(r: Role): string {
    match r
    case Elderly => "elderly"
    case Helper => "helper"
  }

  function ParseRole(name: string): (r: Option<Role>)
    ensures r.Some? ==> RoleName(r.value) == name
    ensures forall role :: RoleName(role) == name ==> r == Some(role)
  {
    if name == "elderly" then Some(Elderly)
    else if name == "helper" then Some(Helper)
    else None
  }

  datatype TaskType = Groceries | Cooking | Gardening | Technology | Accompaniment

  function TaskTypeName(t: TaskType): string {
    match t
    case Groceries => "groceries"
    case Cooking => "cooking"
    case Gardening => "gardening"
    case Technology => "technology"
    case Accompaniment => "accompaniment"
  }

  function ParseTaskType(name: string): (r: Option<TaskType>)
    ensures r.Some? ==> TaskTypeName(r.value) == name
    ensures forall t :: TaskTypeName(t) == name ==> r == Some(t)
  {
    if name == "groceries" then Some(Groceries)
    else if name == "cooking" then Some(Cooking)
    else if name == "gardening" then Some(Gardening)
    else if name == "technology" then Some(Technology)
    else if name == "accompaniment" then Some(Accompaniment)
    else None
  }

  /** A task as held in memory and in browser storage. The camelCase fields
      are what the interface reads; the `db…` fields are the snake_case
      columns of a database row (`requested_by`, `requested_date`,
      `helper_assigned`), which stay on the object when a row is spread into
      a task. An absent property is `None`; an absent `notificationSent`
      reads as false. */
  datatype Task = Task(
    id: string,
    taskType: TaskType,
    keywords: seq<string>,
    location: string,
    requestedBy: Option<string>,
    requestedByName: string,
    requestedDate: Option<string>,
    status: Status,
    helperAssigned: Option<string>,
    notificationSent: bool,
    dbRequestedBy: Option<string>,
    dbRequestedDate: Option<string>,
    dbHelperAssigned: Option<string>)

  /** The ids of a task list, in order. */
  function Ids(tasks: seq<Task>): (r: seq<string>)
    ensures |r| == |tasks|
    ensures forall i :: 0 <= i < |tasks| ==> r[i] == tasks[i].id
  {
    seq(|tasks|, i requires 0 <= i < |tasks| => tasks[i].id)
  }

  /** Replaces the status of every task whose id is `id`. */
  function SetStatusWhere(tasks: seq<Task>, id: string, status: Status): (r: seq<Task>)
    ensures |r| == |tasks|
    ensures forall i :: 0 <= i < |tasks| && tasks[i].id != id ==> r[i] == tasks[i]
    ensures forall i :: 0 <= i < |tasks| && tasks[i].id == id ==>
      r[i].status == status && r[i] == tasks[i].(status := status)
  {
    seq(|tasks|, i requires 0 <= i < |tasks| =>
      if tasks[i].id == id then tasks[i].(status := status) else tasks[i])
  }
}

=== FILE: user_type_selection.dfy ===
/** Choosing a role on the welcome screen
    (src/components/UserTypeSelection.tsx): a card click records the
    choice; "continue" lets a senior straight through and asks a helper for
    an age, read with `parseInt`. */
module UserTypeSelection {
  import opened Wrappers
  import opened Types
  import opened Strings
  import opened JsNumber

  /** `handleSelection(role)`: only the choice changes. */
  function HandleSelection(selected: Option<Role>, role: Role): (r: Option<Role>)
    ensures r == Some(role)
  {
    Some(role)
  }

  /** What "continue" does: stay on the screen with a (possibly reset)
      selection, or call `onSelection` with the role and go to the
      dashboard. */
  datatype Outcome = Stay(selected: Option<Role>) | Proceed(role: Role)

  /** The age gate: `age && parseInt(age) >= 18`. A cancelled prompt
      (`None`) and the empty answer are falsy; `NaN` compares false. */
  predicate AgeGate(answer: Option<string>) {
    answer.Some? && answer.value != "" &&
    match ParseInt(answer.value)
    case None => false
    case Some(n) => n >= 18
  }

  /** `handleContinue()`. `answer` is what the age prompt returned; it is
      only asked, and only read, for a helper. */
  function HandleContinue(selected: Option<Role>, answer: Option<string>): (r: Outcome)
    ensures selected.None? ==> r == Stay(None)
    ensures selected == Some(Elderly) ==> r == Proceed(Elderly)
    ensures selected == Some(Helper) ==> (r == Proceed(Helper) <==> AgeGate(answer))
    ensures selected == Some(Helper) && !AgeGate(answer) ==> r == Stay(None)
    ensures r.Proceed? ==> selected == Some(r.role)
  {
    match selected
    case None => Stay(None)
    case Some(Elderly) => Proceed(Elderly)
    case Some(Helper) => if AgeGate(answer) then Proceed(Helper) else Stay(None)
  }

  /** Choosing a role and then continuing: a senior goes straight on, a
      helper only past the age gate, whatever was chosen before. */
  lemma SelectThenContinue(selected: Option<Role>, role: Role, answer: Option<string>)
    ensures role == Elderly ==> HandleContinue(HandleSelection(selected, role), answer) == Proceed(Elderly)
    ensures role == Helper ==> (HandleContinue(HandleSelection(selected, role), answer) == Proceed(Helper) <==> AgeGate(answer))
  {
  }

  /** A helper who types a whole number passes exactly when it is at least
      18. */
  lemma HelperAgeOfInteger(n: int)
    ensures HandleContinue(Some(Helper), Some(IntToString(n))) == Proceed(Helper) <==> n >= 18
  {
    ParseIntToString(n);
    assert |IntToString(n)| > 0 by {
      assert |NatDigits(if n < 0 then -n else n)| > 0;
    }
  }

  /** `parseInt` reads the leading digits only, so text after the number is
      ignored: "18abc" passes as 18. */
  lemma TrailingTextIgnored(n: nat, rest: string)
    requires n >= 18
    requires |rest| == 0 || !IsDigitIn(rest[0], 10)
    ensures HandleContinue(Some(Helper), Some(NatDigits(n) + rest)) == Proceed(Helper)
  {
    var ds := NatDigits(n);
    var s := ds + rest;
    assert TrimStart(s) == s by {
      assert !IsWhitespace(s[0]) by { assert s[0] == ds[0]; assert IsDigitIn(ds[0], 10); }
    }
    assert SplitSign(s) == (false, s) by { assert s[0] == ds[0]; assert IsDigitIn(ds[0], 10); }
    assert SplitRadix(s) == (10, s) by {
      assert |ds| >= 2;
      assert s[0] == ds[0] != '0';
      assert s[..2][0] == s[0];
    }
    LeadingDigits(ds, rest);
    NatDigitsValue(n);
  }

  /** The digit prefix of digits followed by a non-digit is those digits. */
  lemma {:induction false} LeadingDigits(ds: string, rest: string)
    requires AllDigitsIn(ds, 10)
    requires |rest| == 0 || !IsDigitIn(rest[0], 10)
    ensures DigitPrefix(ds + rest, 10) == ds
  {
    if |ds| > 0 {
      assert (ds + rest)[1..] == ds[1..] + rest;
      LeadingDigits(ds[1..], rest);
      assert ds == [ds[0]] + ds[1..];
    } else {
      assert ds + rest == rest;
    }
  }

  /** A cancelled prompt or an empty answer sends a helper back to an empty
      selection. */
  lemma HelperWithoutAnswer()
    ensures HandleContinue(Some(Helper), None) == Stay(None)
    ensures HandleContinue(Some(Helper), Some("")) == Stay(None)
  {
  }
}

=== FILE: wrappers.dfy ===
/** Failure-carrying values used across the model: an optional value (the
    source's `undefined`/`null`) and a success-or-error result. */
module Wrappers {

  datatype Option<+T> = None | Some(value: T) {

    /** The value, or `default` when absent (the source's `x || default`
        idiom on a missing key). */
    function GetOr(default: T): T {
      match this
      case Some(v) => v
      case None => default
    }
  }

  datatype Result<+R, +E> = Success(value: R) | Failure(error: E)
}
